=== FILE: README.md ===
# Mesh-processing add-on for Blender: a Dafny model

This project models the core of a Blender add-on that runs mesh-processing
algorithms from C++ and Python libraries, driven by a catalogue document.

On the Python side the core does the following:

- It loads the catalogue into registry tables (`load_algorithms`). These hold
  the menu entries, wrapped descriptions, input pipelines, property records,
  step tables and property groups.
- It builds each property's widget and default (`create_*_property`).
- On a run (`compute_algorithm`):
  - it prepares the active mesh through the algorithm's input pipeline;
  - it splits the property values into per-step parameter dictionaries and an
    options dictionary;
  - it hands the `data` dictionary to a backend;
  - it runs the output handlers the backend's result names: show a message,
    colour the mesh, or build a new mesh.
- It checks whether every option menu has been chosen (`is_option_selected`).
- It loads, exports and resets algorithm configurations.

On the backend side the model covers:

- the pymeshlab wrapper (`PyMeshApi`);
- the pybind11 `Router`, with its static algorithm table;
- CGAL segmentation (`SurfaceMeshSegmentation`);
- CGAL simplification (`SurfaceMeshSimplification`);
- the pure C++ test algorithm (`TestCpp`).

## How the model is built

Python values are the datatype `Values.Value`. Exceptions are `Values.Error`, and
every operation that can raise returns a `Result`. A Python dict is an
insertion-ordered sequence of pairs (`Dicts`). Assigning an existing key
replaces its value in place; assigning a new key appends it.

The `data` dictionary a backend reads is `Payloads.Payload`, and the result
dictionary it fills is `Payloads.Output`. A key that is absent is `None`.

Opaque libraries become function parameters. These are:

- bmesh triangulation;
- CGAL's `add_face` acceptance, SDF segmentation and edge collapse;
- the random palette;
- the pymeshlab filter;
- `round(x, 2)` and `str(x)`;
- opening and parsing a JSON file.

A CGAL `Surface_mesh` is modelled by three sequences: the point of each
descriptor, the vertices `vertices()` visits, and the triangles `faces()`
visits.

Python raises as it goes and never rolls back, so what an operation did
before a failure stays done. Such operations return the reached state with
the error beside it (`OutputHandlers.Run`, `Configuration.SetAll`). Where a
C++ constructor reads memory without checking (`vertices_descriptor[i]`,
`algorithms_table[id]`), the model states the condition as a precondition.

### Behaviours worth knowing

- A run is not all-or-nothing:
  - the message is cleared before anything can fail;
  - the output handlers that ran before a failing one keep their effects.
- A description can have six lines. It gets an ellipsis whenever it has
  five or more lines, even if no word was dropped
  (`Description.EllipsisExactlyFromFiveLines`).
- A repeated algorithm identifier is not rejected: the last declaration wins.
- An unknown pipeline step or output kind raises `KeyError`.
- A property declared at step 0 lands in the last parameter dictionary
  (`params[-1]`), not in the first.
- MeshLab applies one filter, named by the whole `functions_name` value,
  with `**params`. The add-on passes a list there, so `init` raises
  `TypeError` (`PyMesh.PreparedParamsRejected`).
- Export then import does not give the values back (see Findings).
- Several backends tag their result with a bare string rather than a list.
  The output loop walks such a string character by character and fails on
  its first character:
  - simplification: "new_mesh";
  - the test algorithm: "message" / "add_mesh";
  - pymeshlab: "vertex_coloration".
- Router header. `Router.hpp` declares a two-argument constructor and a
  single map. The model follows `Router.cpp`: an `int` row index, and a
  table of two rows.

## Model

| member | source | states |
|---|---|---|
| Values.AsInt | api_traitements_maillage/api_traitements_maillage.py:488 | `range()` and list indices accept ints (as themselves) and booleans, nothing else |
| Values.PyIndex | api_traitements_maillage/api_traitements_maillage.py:501 | a Python index designates a position exactly when it lies in [-n, n); a non-negative index is itself, a negative one counts from the end |
| Values.Truncate | src/SurfaceMeshSegmentation.cpp:19 | `py::int_` of a float is its integer part toward zero: within one of the float, on the side of zero |
| Values.Iterate | api_traitements_maillage/api_traitements_maillage.py:531-532 | a `for` loop over a list visits its items; over a string it visits one one-character string per character, in order |
| Values.Need | api_traitements_maillage/api_traitements_maillage.py:601 | `d[key]` yields the stored value, or KeyError naming the key when it is missing |
| Dicts.Lookup | api_traitements_maillage/api_traitements_maillage.py:637 | a key is found exactly when it is one of the dictionary's keys |
| Dicts.Put | api_traitements_maillage/api_traitements_maillage.py:637 | after `d[k] = v`, `k` holds `v`, every other key keeps its value, and the key order is unchanged for an old key or extended by `k` for a new one |
| Dicts.PutKeepsDistinct | api_traitements_maillage/api_traitements_maillage.py:637 | assignment never creates a repeated key |
| Dicts.PutFreshAppends | api_traitements_maillage/api_traitements_maillage.py:637 | assigning a new key appends the pair: dictionaries keep first-assignment order |
| Dicts.Collect | api_traitements_maillage/api_traitements_maillage.py:632-637 | a dictionary built by assignments has no more entries than assignments |
| Dicts.CollectDistinct | api_traitements_maillage/api_traitements_maillage.py:632-637 | a dictionary built by assignments has no repeated key |
| Dicts.CollectSameKeys | api_traitements_maillage/api_traitements_maillage.py:632-637 | the keys of a built dictionary depend only on the keys assigned, not on the values |
| Dicts.CollectFresh | api_traitements_maillage/api_traitements_maillage.py:632-637 | assigning pairwise different keys keeps every pair in order |
| Dicts.CollectLastWins | api_traitements_maillage/api_traitements_maillage.py:637 | a key assigned several times holds the value of its last assignment |
| Dicts.LookupDistinct | api_traitements_maillage/api_traitements_maillage.py:637 | in a dictionary without repeated keys each pair is found by its key |
| Dicts.KeyIndex | api_traitements_maillage/api_traitements_maillage.py:637 | a key of a dictionary is the key of one of its pairs |
| Dicts.PutAt | api_traitements_maillage/api_traitements_maillage.py:751 | re-assigning a present key replaces its pair where it stands |
| Strings.Split | api_traitements_maillage/api_traitements_maillage.py:424 | `split(sep)` yields at least one piece and no piece contains the separator |
| Strings.JoinSplit | api_traitements_maillage/api_traitements_maillage.py:424 | joining the pieces of a split gives the string back |
| Strings.SplitAfterPiece | api_traitements_maillage/api_traitements_maillage.py:424 | a separator-free piece followed by the separator splits off as one piece |
| Strings.SplitNoSeparator | api_traitements_maillage/api_traitements_maillage.py:424 | a string without the separator splits into itself |
| Strings.SplitJoin | api_traitements_maillage/api_traitements_maillage.py:424 | splitting a join of separator-free pieces gives the pieces back |
| Strings.JoinAppend | api_traitements_maillage/api_traitements_maillage.py:438 | joining one more piece adds one separator and the piece |
| Strings.RStrip | api_traitements_maillage/api_traitements_maillage.py:441 | `rstrip` keeps a prefix that does not end in white space and drops only white space |
| Strings.LStrip | api_traitements_maillage/api_traitements_maillage.py:441 | `lstrip` keeps a suffix that does not start with white space and drops only white space |
| Strings.StripTrailingSpace | api_traitements_maillage/api_traitements_maillage.py:438-441 | a word run plus the trailing space the loop appends strips back to the run |
| Strings.Upper | api_traitements_maillage/api_traitements_maillage.py:605 | `upper()` maps every character on its own and keeps the length |
| Strings.Lower | api_traitements_maillage/api_traitements_maillage.py:475 | `lower()` maps every character on its own and keeps the length |
| Strings.UpperLower | api_traitements_maillage/api_traitements_maillage.py:747 | upper-casing undoes lower-casing for identifiers without lower-case letters, so a menu choice survives the lower/upper round |
| Triples.Group3 | src/SurfaceMeshSimplification.cpp:24-26 | row k of a reshaped array is the three values at 3k, 3k+1, 3k+2, and there are length / 3 rows |
| Triples.Flatten3 | src/SurfaceMeshSimplification.cpp:69-77 | writing rows of three one after the other puts row k at 3k, 3k+1, 3k+2 |
| Triples.Group3Flatten3 | api_traitements_maillage/api_modules/py_mesh.py:19 | reshaping a flattened array gives the rows back |
| Triples.Flatten3Group3 | api_traitements_maillage/api_modules/py_mesh.py:19 | flattening a reshaped array gives it back when its length is a multiple of three |
| Payloads.Names | src/SurfaceMeshSegmentation.cpp:91 | a list of handler names holds each name, in order |
| Blender.GroupValues | api_traitements_maillage/api_traitements_maillage.py:492 | `getattr(scene, name, None)` finds a property group exactly when one is registered under the name |
| Blender.GetAttr | api_traitements_maillage/api_traitements_maillage.py:695 | `getattr(group, name)` succeeds exactly for a property of the group, with its value, and otherwise raises AttributeError naming it |
| PropertyFactory.CreateIntegerProperty | api_traitements_maillage/api_traitements_maillage.py:224-231 | the declared default or 0, bounds defaulting to [0, 1] and step to 1; the widget starts at the returned default |
| PropertyFactory.CreateFloatProperty | api_traitements_maillage/api_traitements_maillage.py:235-242 | the same defaults for floats; the widget starts at the returned default |
| PropertyFactory.CreateBooleanProperty | api_traitements_maillage/api_traitements_maillage.py:246-250 | the default is true exactly when the declared default is the string "true" |
| PropertyFactory.MakeItems | api_traitements_maillage/api_traitements_maillage.py:260-261 | the items succeed exactly when every item has an id and a name, and keep their order and description (empty when absent) |
| PropertyFactory.CreateEnumProperty | api_traitements_maillage/api_traitements_maillage.py:254-264 | a missing "items" raises KeyError; otherwise it succeeds exactly when every item has an id and a name, and fails with the items' error; on success the menu is named by the declared name ("" when absent), the sentinel item comes first, followed by the declared items in order with their descriptions, and the default is the sentinel |
| PropertyFactory.CreateFloatVectorProperty | api_traitements_maillage/api_traitements_maillage.py:268-275 | the default is `tuple` of the declared default, or (0, 0, 0) when absent; a non-iterable default raises its TypeError, then a non-string subtype AttributeError on `upper`; name and description default to "", min to 0 and max to 1, and the subtype is upper-cased, "NONE" when absent; the widget starts at the returned default; a vector declared without a subtype is never handed back as a mathutils Color or Vector |
| PropertyFactory.VectorDefaultIsTuple | api_traitements_maillage/api_traitements_maillage.py:269 | a declared list gives the vector of its items in order, and a declared string the vector of its one-character strings |
| PropertyFactory.FactoryFor | api_traitements_maillage/api_traitements_maillage.py:371-378 | exactly the eight property types have a factory; percentage and pure values use the float factory, colours and float arrays the vector factory |
| PropertyFactory.Make | api_traitements_maillage/api_traitements_maillage.py:634 | every factory returns a widget starting at the returned default; only the enum and vector factories can fail, and the enum default is the sentinel |
| Description.WrapLoop | api_traitements_maillage/api_traitements_maillage.py:431-446 | the wrapping loop only adds lines, and stops adding closed lines at five |
| Description.Wrapped | api_traitements_maillage/api_traitements_maillage.py:431-448 | the wrapped text has between one and six lines |
| Description.DropLast3 | api_traitements_maillage/api_traitements_maillage.py:452 | `s[:-3]` is the prefix three characters shorter (empty for shorter strings) |
| Description.Ellipsize | api_traitements_maillage/api_traitements_maillage.py:450-452 | only the last line can change, and only with five lines or more, where it loses three characters and gains "..." |
| Description.CreateDescription | api_traitements_maillage/api_traitements_maillage.py:418-453 | one to six lines, equal to the wrapped lines except that from five lines on the last one is cut by three characters and ends with "..." |
| Description.Lines | api_traitements_maillage/api_traitements_maillage.py:438-441 | each closed line is its word run joined by single spaces |
| Description.SpacedIsJoinPlusSpace | api_traitements_maillage/api_traitements_maillage.py:438 | the open line is its words joined by spaces plus one trailing space |
| Description.JoinEnds | api_traitements_maillage/api_traitements_maillage.py:441 | a run of well-formed words starts and ends with a word character |
| Description.StripSpaced | api_traitements_maillage/api_traitements_maillage.py:441 | closing a line strips it back to its words joined by single spaces |
| Description.CurrentWordsWellFormed | api_traitements_maillage/api_traitements_maillage.py:431-446 | the words on the open line are among the words read |
| Description.StepFirstWord | api_traitements_maillage/api_traitements_maillage.py:434-438 | on an empty line the next word always fits, and the invariant holds after the step |
| Description.StepFits | api_traitements_maillage/api_traitements_maillage.py:434-438 | a word that fits extends the open line, and the invariant holds after the step |
| Description.StepOverflows | api_traitements_maillage/api_traitements_maillage.py:439-444 | a word that overflows closes the open line and starts a new one, and the invariant holds after the step |
| Description.LinesAppend | api_traitements_maillage/api_traitements_maillage.py:441 | closing one more run appends one more line |
| Description.ConcatAppend | api_traitements_maillage/api_traitements_maillage.py:441 | closing one more run appends its words |
| Description.LayoutExtend | api_traitements_maillage/api_traitements_maillage.py:436-444 | a greedy layout stays greedy when a run closed for overflow is appended |
| Description.WrapLoopStructure | api_traitements_maillage/api_traitements_maillage.py:431-448 | the word runs the loop ends with cover the words read, one after the other, each closed run having overflowed; it stops before the last word only after five closed lines |
| Description.WrapLoopLines | api_traitements_maillage/api_traitements_maillage.py:431-446 | the text the loop builds, closed lines and open line, is exactly those word runs joined by single spaces |
| Description.DescriptionLinesAreWordRuns | api_traitements_maillage/api_traitements_maillage.py:418-448 | with well-formed words the lines are greedy runs of consecutive words joined by single spaces, covering a prefix of the words; words are dropped only when all six lines are used |
| Description.DescriptionLinesFitRow | api_traitements_maillage/api_traitements_maillage.py:418-453 | with well-formed words no line, ellipsis included, reaches 60 characters |
| Description.EllipsisExactlyFromFiveLines | api_traitements_maillage/api_traitements_maillage.py:450-452 | the ellipsis appears exactly when there are five or more lines, whether or not a word was dropped |
| Catalogue.LoadProperty | api_traitements_maillage/api_traitements_maillage.py:632-641 | a missing type or an unknown type raises KeyError; a loaded property keeps its identifier and type, its step defaults to -1, and its widget starts at its default |
| Catalogue.LoadProperties | api_traitements_maillage/api_traitements_maillage.py:632-641 | loading succeeds exactly when every property loads, and keeps them in order |
| Catalogue.LoadPropertiesFirstFailure | api_traitements_maillage/api_traitements_maillage.py:632-641 | a failed load reports the error of its first failing property, every earlier one having loaded |
| Catalogue.TypesOf | api_traitements_maillage/api_traitements_maillage.py:639 | the types list holds each property's type in declaration order |
| Catalogue.StepsOf | api_traitements_maillage/api_traitements_maillage.py:641 | the step list holds each property's step in declaration order |
| Catalogue.LoadAlgorithmProperties | api_traitements_maillage/api_traitements_maillage.py:622-627 | no properties give an empty list; a properties block without "data" raises KeyError; a block with "data" but no "class_name" raises KeyError("class_name"); otherwise the list is the loaded "data", or its first property's error |
| Catalogue.LoadAlgorithm | api_traitements_maillage/api_traitements_maillage.py:599-658 | a missing id or name raises KeyError; with both, it succeeds exactly when the properties load, and otherwise raises their error; a loaded algorithm appends one menu entry labelled with its upper-cased identifier |
| Catalogue.LoadAlgorithmIsStore | api_traitements_maillage/api_traitements_maillage.py:599-658 | a successful load stores exactly the algorithm's loaded properties |
| Catalogue.LoadAlgorithmStores | api_traitements_maillage/api_traitements_maillage.py:603-658 | an algorithm's description, pipeline, record and steps are stored under its id, replacing an earlier one with the same id and leaving other algorithms untouched; it gets a property group exactly when it declares properties |
| Catalogue.LoadAlgorithmTypes | api_traitements_maillage/api_traitements_maillage.py:632-649 | the record lists the properties' types, and the step table their steps, in declaration order |
| Catalogue.LoadAlgorithms | api_traitements_maillage/api_traitements_maillage.py:599-605 | the menu gains one entry per algorithm, after the existing ones |
| Catalogue.LoadLibrary | api_traitements_maillage/api_traitements_maillage.py:591-605 | a library without "algorithms" raises RuntimeError naming it; otherwise one menu entry per algorithm is appended |
| Catalogue.LoadLibraries | api_traitements_maillage/api_traitements_maillage.py:591 | earlier menu entries stay in front |
| Catalogue.LoadBackend | api_traitements_maillage/api_traitements_maillage.py:580-589 | a language without "language_id" raises KeyError; one without libraries changes nothing |
| Catalogue.LoadBackends | api_traitements_maillage/api_traitements_maillage.py:580 | earlier menu entries stay in front |
| Catalogue.LoadCatalogue | api_traitements_maillage/api_traitements_maillage.py:564-685 | the menu always starts with the "no algorithm" entry |
| Catalogue.EntriesWellFormed | api_traitements_maillage/api_traitements_maillage.py:632-649 | the defaults, types, steps and group built from one property list agree with one another |
| Catalogue.StoreConsistent | api_traitements_maillage/api_traitements_maillage.py:603-658 | storing an algorithm keeps the tables consistent, provided one with no properties block brings no loaded properties |
| Catalogue.StoreKeepsOther | api_traitements_maillage/api_traitements_maillage.py:603-658 | after storing one algorithm, every other algorithm still has a step table, and its record stays well formed with its steps and property group |
| Catalogue.InsertReplaces | api_traitements_maillage/api_traitements_maillage.py:603-658 | inserting an algorithm files its record and step table under its id, and gives it a property group exactly when it brings one |
| Catalogue.InsertKeepsOther | api_traitements_maillage/api_traitements_maillage.py:603-658 | inserting one algorithm leaves every other algorithm's record, step table and property group as they were |
| Catalogue.InsertKeys | api_traitements_maillage/api_traitements_maillage.py:603-658 | inserting an algorithm keeps the description, pipeline, record and step tables on one set of identifiers, property groups among them, with the menu still led by the "no algorithm" entry |
| Catalogue.LoadAlgorithmConsistent | api_traitements_maillage/api_traitements_maillage.py:599-658 | loading one algorithm keeps the tables consistent |
| Catalogue.LoadAlgorithmsConsistent | api_traitements_maillage/api_traitements_maillage.py:599 | loading a library's algorithms keeps the tables consistent |
| Catalogue.LoadLibrariesConsistent | api_traitements_maillage/api_traitements_maillage.py:591 | loading libraries keeps the tables consistent |
| Catalogue.LoadBackendsConsistent | api_traitements_maillage/api_traitements_maillage.py:580 | loading languages keeps the tables consistent |
| Catalogue.CatalogueConsistent | api_traitements_maillage/api_traitements_maillage.py:564-685 | every loaded catalogue has consistent tables: one step per type, defaults matching the group's properties |
| Catalogue.DistinctPropertiesAlign | api_traitements_maillage/api_traitements_maillage.py:637-641 | with distinct identifiers, the i-th default is the i-th property, with the i-th type and step |
| Catalogue.LastDeclarationWins | api_traitements_maillage/api_traitements_maillage.py:637 | an identifier declared twice keeps its last default |
| InputPipeline.OperationNamed | api_traitements_maillage/api_traitements_maillage.py:380-383 | exactly the four pipeline step names are known |
| InputPipeline.FlatFaces | api_traitements_maillage/api_traitements_maillage.py:308-315 | face indices fill the array exactly when every polygon is a triangle, polygon k at 3k..3k+3; otherwise the sizes mismatch |
| InputPipeline.Apply | api_traitements_maillage/api_traitements_maillage.py:280-348 | only triangulation touches the mesh; vertex extraction writes the flattened coordinates; colour extraction prefers the active colour attribute's data, else the last per-face colour layer, else nothing, and the chosen layer must hold exactly four entries per vertex (per polygon for the face layer) or `foreach_get` raises TypeError |
| InputPipeline.CopyColors | api_traitements_maillage/api_traitements_maillage.py:326-344 | the copy succeeds exactly when the layer holds four entries per element, and is then the layer's data unchanged; otherwise TypeError |
| InputPipeline.Run | api_traitements_maillage/api_traitements_maillage.py:479-480 | the pipeline leaves function names, parameters, options and decimation factor alone, keeps the mesh unless it triangulates, and fails on any unknown step name |
| InputPipeline.RunAppend | api_traitements_maillage/api_traitements_maillage.py:479-480 | running two pipelines in turn is running their concatenation |
| InputPipeline.Reached | api_traitements_maillage/api_traitements_maillage.py:280-295 | the mesh the pipeline leaves is the successful run's mesh, and the original one when the pipeline does not triangulate |
| InputPipeline.FailureKeepsTriangulation | api_traitements_maillage/api_traitements_maillage.py:280-295 | a pipeline that triangulates and then fails leaves the mesh triangulated, since `bm.to_mesh` rewrote it in place |
| MeshAttributes.LastFaceColorLayer | api_traitements_maillage/api_traitements_maillage.py:337-348 | the scan from the end finds the last per-face colour layer, or none exactly when there is none |
| MeshAttributes.Keep | api_traitements_maillage/api_traitements_maillage.py:161-164 | removing colour layers never adds attributes |
| MeshAttributes.KeepMembers | api_traitements_maillage/api_traitements_maillage.py:161-164 | exactly the attributes that are not colour layers (by name before the first dot) remain |
| MeshAttributes.RemoveColorLayers | api_traitements_maillage/api_traitements_maillage.py:161-164 | the backward in-place removal loop leaves exactly the non-colour attributes, in order |
| MeshAttributes.RemoveStep | api_traitements_maillage/api_traitements_maillage.py:161-164 | one backward step of the removal loop removes index i exactly when its name is a colour layer, keeping the part already filtered |
| MeshAttributes.KeepAppend | api_traitements_maillage/api_traitements_maillage.py:161-164 | removing colour layers from two runs of attributes is removing them from each |
| MeshAttributes.KeptPosition | api_traitements_maillage/api_traitements_maillage.py:161-164 | an attribute that is not a colour layer is found at its new position after the removal; a colour layer has none |
| MeshAttributes.KeptActive | api_traitements_maillage/api_traitements_maillage.py:158-164 | the active colour attribute stays active at its new position when it survives the removal, and none is active when it was removed |
| Partition.StepCount | api_traitements_maillage/api_traitements_maillage.py:488 | the number of parameter dictionaries is the step count, 0 when negative; a non-integer raises |
| Partition.Place | api_traitements_maillage/api_traitements_maillage.py:494-503 | a property goes to the options exactly when its step equals -1; otherwise to dictionary step-1, with step 0 landing in the last one; MeshLab-typed values are converted |
| Partition.Placements | api_traitements_maillage/api_traitements_maillage.py:494-503 | the loop places the properties in order, each as its own iteration does |
| Partition.PairsTo | api_traitements_maillage/api_traitements_maillage.py:494-503 | a destination receives at most one pair per placement |
| Partition.Partition | api_traitements_maillage/api_traitements_maillage.py:488-505 | the loop computes the partition: all placements succeed and each dictionary holds what was sent to it |
| Partition.FillEmpty | api_traitements_maillage/api_traitements_maillage.py:488-490 | before the loop every dictionary is empty |
| Partition.CollectStep | api_traitements_maillage/api_traitements_maillage.py:497-503 | one more pair for a destination is one more assignment in its dictionary |
| Partition.FillStep | api_traitements_maillage/api_traitements_maillage.py:497-503 | one more placement assigns in its destination only |
| Partition.FailureStops | api_traitements_maillage/api_traitements_maillage.py:494-503 | the first failing iteration's error is the loop's error |
| Partition.PairsToSource | api_traitements_maillage/api_traitements_maillage.py:494-503 | every pair a destination holds comes from a placement to it |
| Partition.PairsToTarget | api_traitements_maillage/api_traitements_maillage.py:494-503 | every placement to a destination appears among its pairs |
| Partition.PairsToDistinct | api_traitements_maillage/api_traitements_maillage.py:494-503 | with distinct names a destination receives no name twice |
| Partition.DistinctPairs | api_traitements_maillage/api_traitements_maillage.py:494-503 | with distinct names each destination stores its pairs as sent |
| Partition.PlacedExactlyOnce | api_traitements_maillage/api_traitements_maillage.py:494-505 | with distinct names a property is a key of its own destination, with its value, and of no other |
| Partition.FillPlacesOnce | api_traitements_maillage/api_traitements_maillage.py:494-505 | with distinct names, a placed property is a key of its own destination's dictionary, holding its value, and of no other |
| Partition.PartitionedPlacesOnce | api_traitements_maillage/api_traitements_maillage.py:491-505 | the whole partition sends property i to "options" exactly when its step is -1, otherwise to the dictionary its step names, and to no other, with the group's value converted for MeshLab types |
| Partition.NothingPlaced | api_traitements_maillage/api_traitements_maillage.py:492-505 | without a property group every dictionary stays empty |
| OutputHandlers.HandlerFor | api_traitements_maillage/api_traitements_maillage.py:386-390 | exactly the five output names have a handler; "message" displays, the two mesh names build a mesh; an unknown string raises KeyError with it |
| OutputHandlers.MeshLayout | api_traitements_maillage/api_traitements_maillage.py:98-112 | length/3 vertices, one loop per face index, and length/3 polygons of three loops starting at 3k |
| OutputHandlers.LayoutPolygons | api_traitements_maillage/api_traitements_maillage.py:101-111 | polygon k uses face indices 3k, 3k+1, 3k+2, and the polygons use every index when the length is a multiple of three |
| OutputHandlers.BuiltMesh | api_traitements_maillage/api_traitements_maillage.py:95-116 | the built mesh has one polygon per layout polygon and length/3 vertices |
| OutputHandlers.SetNewMeshOn | api_traitements_maillage/api_traitements_maillage.py:66-135 | without vertices or faces it raises RuntimeError; otherwise the new mesh, with faces/3 polygons, becomes active, and the old one is deleted for "replace_mesh" and kept otherwise |
| OutputHandlers.SetMeshColorsOn | api_traitements_maillage/api_traitements_maillage.py:138-219 | without colours, or for an unknown kind, it raises RuntimeError; otherwise old colour layers go when "delete_materials" is set, taking the active colour attribute with them when it is one; the new layer holds the colours (per face exactly for "face_coloration"); a vertex layer becomes the active colour attribute, while a face layer leaves the active one as it was; every polygon uses the new material |
| OutputHandlers.ClearColors | api_traitements_maillage/api_traitements_maillage.py:158-164 | with "delete_materials", no materials and only the non-colour attributes remain, and the active colour attribute survives only if it is not a colour layer; otherwise nothing changes |
| OutputHandlers.AddColorLayer | api_traitements_maillage/api_traitements_maillage.py:169-176 | "face_coloration" appends a per-face layer and "vertex_coloration" a per-vertex one that becomes active, holding the colours; any other name raises RuntimeError |
| OutputHandlers.RemovedActiveLayerNotResent | api_traitements_maillage/api_traitements_maillage.py:158-176 | after "delete_materials" removed the active colour layer, the next colour extraction (lines 322-346) sends the new face colours, not the removed layer's data |
| OutputHandlers.DisplayResultsOn | api_traitements_maillage/api_traitements_maillage.py:62-64 | the message becomes the result text, or the empty string, and nothing else changes |
| OutputHandlers.Handle | api_traitements_maillage/api_traitements_maillage.py:532-533 | a handler keeps an active mesh |
| OutputHandlers.HandleAll | api_traitements_maillage/api_traitements_maillage.py:531-533 | the handlers run in order; the loop completes only if every name has a handler |
| OutputHandlers.Dispatch | api_traitements_maillage/api_traitements_maillage.py:531-533 | a result without "output_result" changes nothing and raises nothing; a list of output names is handled name by name, in order, by the handlers; a value that cannot be iterated raises TypeError |
| OutputHandlers.DispatchInOrder | api_traitements_maillage/api_traitements_maillage.py:531-533 | for a list split into a prefix and the rest, the rest runs on the scene the prefix's handlers left, and only when none of them failed |
| OutputHandlers.HandleAllAppend | api_traitements_maillage/api_traitements_maillage.py:531-533 | running two lists of names in turn is running their concatenation, stopping at the first failure |
| OutputHandlers.BareStringFails | api_traitements_maillage/api_traitements_maillage.py:531-533 | a bare string as "output_result" runs nothing and raises KeyError on its first character |
| OutputHandlers.NewMeshHasNoHandler | api_traitements_maillage/api_traitements_maillage.py:386-390 | "new_mesh" names no handler: KeyError, nothing changed |
| OutputHandlers.ReplaceThenColor | api_traitements_maillage/api_traitements_maillage.py:66-219 | ["replace_mesh", "face_coloration"] replaces the active mesh and colours the new one without error |
| OutputHandlers.ReplaceMeshRuns | api_traitements_maillage/api_traitements_maillage.py:66-135 | "replace_mesh" with vertices and faces succeeds, leaves the other objects alone and gives an active mesh with one polygon per three face indices |
| OutputHandlers.FaceColorationRuns | api_traitements_maillage/api_traitements_maillage.py:138-219 | "face_coloration" with colours succeeds, keeps the polygons and adds a per-face colour layer "Face_Col" holding exactly the returned colours |
| OutputHandlers.HandleAllPair | api_traitements_maillage/api_traitements_maillage.py:531-533 | two output kinds are applied in order, the second to the scene the first produced |
| Engine.BackendFor | api_traitements_maillage/api_traitements_maillage.py:514-518 | pymeshlab is chosen exactly when the language equals 1; otherwise the router receives the language and the name |
| Engine.Get | api_traitements_maillage/api_traitements_maillage.py:479-485 | a table lookup yields the entry, or KeyError with the name |
| Engine.Parameters | api_traitements_maillage/api_traitements_maillage.py:488-505 | without a property group there are step-count empty dictionaries and empty options; otherwise the partition of the group |
| Engine.Prepare | api_traitements_maillage/api_traitements_maillage.py:473-507 | an algorithm without an input pipeline raises KeyError; preparation succeeds exactly when the pipeline, the property and step tables, the step count and the partition all succeed; then the mesh and every other key are the pipeline's, "function" is the algorithm's, "options" is the partition's options dictionary and "params" its per-step dictionaries, one per step, with no decimation factor |
| Engine.PreparedPlacesEachProperty | api_traitements_maillage/api_traitements_maillage.py:491-505 | with the algorithm's property group present, property i is a key of "options" exactly when its step is -1 and otherwise of exactly the one parameter dictionary its step names, holding the group's value, converted for a MeshLab type |
| Engine.SentPlacesOnce | api_traitements_maillage/api_traitements_maillage.py:491-507 | a `data` dictionary whose "params" and "options" come from the partition sends each property to one destination only |
| Engine.ComputeAlgorithm | api_traitements_maillage/api_traitements_maillage.py:457-533 | without an active mesh it raises RuntimeError and changes nothing; a failure before the backend raises its error with the cleared message and the mesh as the input pipeline left it, triangulated when the pipeline triangulated before the failing step; after a successful preparation, a backend error is raised on the prepared mesh with the cleared message, and a backend result is handed to the output handlers on that scene |
| Engine.BackendOutcomeHandled | api_traitements_maillage/api_traitements_maillage.py:514-533 | a backend error is the run's error, on the prepared mesh with the cleared message; a backend result whose names are a prefix followed by the rest is handled prefix first, in order |
| Engine.PreparedMesh | api_traitements_maillage/api_traitements_maillage.py:479-480 | the mesh after preparation is the prepared mesh on success, the pipeline's mesh when there is a pipeline, and the original when there is none or it does not triangulate |
| Engine.LateFailureKeepsPipelineMesh | api_traitements_maillage/api_traitements_maillage.py:479-507 | a preparation step failing after the pipeline ran raises its error with the cleared message, on the mesh the pipeline produced |
| Engine.SilentBackend | api_traitements_maillage/api_traitements_maillage.py:473-533 | a backend that names no output leaves the prepared mesh, an empty message and no error |
| Engine.AnyUnchosen | api_traitements_maillage/api_traitements_maillage.py:693-699 | with every property present the check succeeds, and it answers true exactly when some property still holds "DEFAULT" |
| Engine.IsOptionSelected | api_traitements_maillage/api_traitements_maillage.py:689-701 | true without a property group; with a group, an unregistered algorithm raises KeyError, a group holding every property succeeds, and the answer is true exactly when no property holds "DEFAULT" |
| Configuration.Coerce | api_traitements_maillage/api_traitements_maillage.py:751 | a vector property receives a vector of its own size and kind (mathutils-wrapped or plain), a float property a float, a string property only a string, unchanged |
| Configuration.VectorOf | api_traitements_maillage/api_traitements_maillage.py:751 | a sequence becomes a vector of the property's kind only at the expected size, component k being float(item k) |
| Configuration.Reals | api_traitements_maillage/api_traitements_maillage.py:751 | float() of every item, succeeding exactly when every item is a number |
| Configuration.SetAttr | api_traitements_maillage/api_traitements_maillage.py:751 | an unknown property raises AttributeError; otherwise only that property changes, to the converted value, and the key order stays |
| Configuration.SetAll | api_traitements_maillage/api_traitements_maillage.py:750-751 | the assignments keep the group's keys, and an unknown name among the pairs makes the loop report an error |
| Configuration.Assigned | api_traitements_maillage/api_traitements_maillage.py:750-751 | in-place assignment keeps the group's length and keys |
| Configuration.SetAllInOrder | api_traitements_maillage/api_traitements_maillage.py:750-751 | assigning each property in the group's own order with well-typed values replaces each in place and raises nothing |
| Configuration.AssignStep | api_traitements_maillage/api_traitements_maillage.py:751 | one assignment of the in-order walk advances it by one property |
| Configuration.ResetProperties | api_traitements_maillage/api_traitements_maillage.py:858-869 | without a property group nothing happens; an unregistered algorithm raises KeyError; the choice, the mesh and the set of groups never change |
| Configuration.CoerceKeepsStrings | api_traitements_maillage/api_traitements_maillage.py:867 | a string property receives exactly the string assigned |
| Configuration.ResetAssignsInOrder | api_traitements_maillage/api_traitements_maillage.py:865-867 | reset assigns every default in place, in order, without error |
| Configuration.ResetUnselectsOptions | api_traitements_maillage/api_traitements_maillage.py:865-867 | after a reset an algorithm with an option menu is no longer ready to run |
| Configuration.JsonExtension | api_traitements_maillage/api_traitements_maillage.py:759-761 | a path passes exactly when the text after its last dot lower-cases to "json" |
| Configuration.LoadConfiguration | api_traitements_maillage/api_traitements_maillage.py:741-755 | a non-dict raises AttributeError; a missing algorithm raises RuntimeError; meshes never change; on success the menu shows the upper-cased name and the group exists |
| Configuration.LoadFile | api_traitements_maillage/api_traitements_maillage.py:757-772 | a non-JSON path raises RuntimeError untouched, a parse error propagates, otherwise the parsed document is loaded |
| Configuration.Translate | api_traitements_maillage/api_traitements_maillage.py:810 | the translated name keeps its length, has no bracket, dot or comma, and keeps every other character |
| Configuration.Rounded | api_traitements_maillage/api_traitements_maillage.py:816-823 | only floats and mathutils Colors and Vectors have a written value (a plain property array has none); such a vector writes its first three components rounded, and a shorter one raises IndexError |
| Configuration.RoundedComponents | api_traitements_maillage/api_traitements_maillage.py:820-821 | a vector of at least three components gives the list of its first three, each rounded; a shorter one raises IndexError |
| Configuration.ExportLoopAsWritten | api_traitements_maillage/api_traitements_maillage.py:812-827 | the exported properties are the group's keys, in order; its failures on the first non-float, non-Color/Vector value and its stale values are exhibited by Configuration.FirstPlainValueIsUnbound and Configuration.StaleValueExported |
| Configuration.ExportLoop | api_traitements_maillage/api_traitements_maillage.py:812-827 | the corrected loop succeeds when every property is present and exportable, and then writes each property's own exported value under its name, in order |
| Configuration.Exported | api_traitements_maillage/api_traitements_maillage.py:816-825 | a float is written rounded, every vector (wrapped or not) as its first three components rounded or IndexError when shorter, a value that is neither float nor vector unchanged |
| Configuration.ExportWith | api_traitements_maillage/api_traitements_maillage.py:795-830 | without a property group the file holds only the algorithm and is named after it; the file name always starts with the algorithm identifier |
| Configuration.ExportAsWritten | api_traitements_maillage/api_traitements_maillage.py:795-830 | without a property group the export succeeds; with one, Configuration.FirstPlainValueIsUnbound shows the UnboundLocalError of a first menu, integer, boolean or plain float array |
| Configuration.ExportConfiguration | api_traitements_maillage/api_traitements_maillage.py:795-830 | without a property group the corrected export succeeds |
| Configuration.FirstPlainValueIsUnbound | api_traitements_maillage/api_traitements_maillage.py:816-825 | as written, a first property that is a menu, an integer, a boolean or a float array Blender does not wrap as a Color or Vector (such as one of subtype "NONE") raises UnboundLocalError; the corrected export never does |
| Configuration.ExportLoopNeverUnbound | api_traitements_maillage/api_traitements_maillage.py:812-827 | the corrected loop fails only on a missing property or a short vector |
| Configuration.StaleValueExported | api_traitements_maillage/api_traitements_maillage.py:816-825 | as written, an integer after a float is exported as the float's rounded value; the corrected loop writes the integer |
| Configuration.ExportedRestores | api_traitements_maillage/api_traitements_maillage.py:816-825 | loading an exported value back into its property gives the value, rounded to two decimals for floats and vectors |
| Configuration.ExportThenLoad | api_traitements_maillage/api_traitements_maillage.py:741-830 | exporting then loading selects the same algorithm and restores every property, rounded for floats and vectors, leaving other groups alone |
| Configuration.ExportWritesEachValue | api_traitements_maillage/api_traitements_maillage.py:803-825 | the file holds the algorithm identifier and each property's exported value in the group's order |
| Configuration.LoadAssignsInOrder | api_traitements_maillage/api_traitements_maillage.py:745-751 | loading a file that lists a group's properties in order with well-typed values selects the algorithm and assigns them all in place |
| SurfaceMeshes.Triangles | src/SurfaceMeshSegmentation.cpp:43-46 | triangle k is the three indices at 3k, 3k+1, 3k+2 |
| SurfaceMeshes.AddFaces | src/SurfaceMeshSegmentation.cpp:43-46 | adding faces keeps the points, vertices and earlier faces, and adds only given triangles, at most one each |
| SurfaceMeshes.Build | src/SurfaceMeshSegmentation.cpp:35-46 | one vertex per row of coordinates, numbered in order, and only triangles of the index array as faces |
| SurfaceMeshes.AddFacesAll | src/SurfaceMeshSegmentation.cpp:43-46 | when CGAL accepts every face the mesh has exactly the given triangles, in order |
| SurfaceMeshes.FlatPoints | src/SurfaceMeshSimplification.cpp:59-81 | the coordinates of the k-th visited vertex sit at 3k, 3k+1, 3k+2 |
| SurfaceMeshes.FlatFaces | src/SurfaceMeshSegmentation.cpp:131-145 | the corners of face j, numbered, sit at 3j, 3j+1, 3j+2 |
| Segmentation.CastList | src/SurfaceMeshSegmentation.cpp:17 | only a list casts to a list; anything else fails the cast |
| Segmentation.CastDict | src/SurfaceMeshSegmentation.cpp:18 | only a dict casts to a dict; anything else fails the cast |
| Segmentation.ReadInputs | src/SurfaceMeshSegmentation.cpp:13-21 | missing faces, vertices or params raise KeyError in that order, an empty params list IndexError; a success reads clusters and smoothness from the first parameter dictionary and the option from the options |
| Segmentation.New | src/SurfaceMeshSegmentation.cpp:13-49 | construction succeeds exactly when the reads do; the mesh is built from the arrays and the face count is the number Blender sent |
| Segmentation.BuildWellFormed | src/SurfaceMeshSegmentation.cpp:35-46 | a mesh built from well-formed arrays only refers to stored points |
| Segmentation.FaceColors | src/SurfaceMeshSegmentation.cpp:168-185 | face k gets its segment's colour and alpha 1 |
| Segmentation.SameSegmentSameColor | src/SurfaceMeshSegmentation.cpp:175-183 | faces of one segment get one colour |
| Segmentation.SegmentsToColors | src/SurfaceMeshSegmentation.cpp:99-187 | the mesh is sent back, before the colours, exactly when CGAL kept a different number of faces; it holds each vertex's coordinates and each face's corners; one colour per face |
| Segmentation.Compute | src/SurfaceMeshSegmentation.cpp:51-97 | any option other than "SEGMENTS_COLOR" yields only a message naming the parameters and segment count; that option yields the colours |
| Segmentation.WholeMeshOnlyColored | src/SurfaceMeshSegmentation.cpp:103-149 | when CGAL accepts every face, only "face_coloration" is returned |
| Segmentation.RebuiltMeshColored | src/SurfaceMeshSegmentation.cpp:103-186 | a rebuilt mesh goes through the output handlers without error: it replaces the active one and carries the segment colours |
| Segmentation.ReplacedAndColored | src/SurfaceMeshSegmentation.cpp:103-186 | a result asking to replace then colour, with 3·n face indices, leaves n polygons carrying exactly the given face colours |
| Simplification.ReadInputs | src/SurfaceMeshSimplification.cpp:12-17 | missing faces, vertices or decimation factor raise KeyError in that order; a success reads the factor as a number |
| Simplification.New | src/SurfaceMeshSimplification.cpp:12-32 | construction succeeds exactly when the reads do, with the mesh built from the arrays |
| Simplification.CallerOmitsDecimationFactor | src/SurfaceMeshSimplification.cpp:17 | the data the add-on prepares never holds a decimation factor, so construction always raises KeyError |
| Simplification.Reindex | src/SurfaceMeshSimplification.cpp:102-112 | visited vertices are numbered by visiting position, each number naming back its vertex |
| Simplification.ReindexPositions | src/SurfaceMeshSimplification.cpp:102-112 | with distinct descriptors the k-th visited vertex is numbered k |
| Simplification.NewFaces | src/SurfaceMeshSimplification.cpp:83-100 | face j's corners get their new numbers at 3j, 3j+1, 3j+2, all naming a vertex of the new array |
| Simplification.NewIndexInRange | src/SurfaceMeshSimplification.cpp:95 | every new number, including the default 0 for an unseen descriptor, names a vertex |
| Simplification.Compute | src/SurfaceMeshSimplification.cpp:34-57 | the result holds the flattened coordinates, the renumbered faces and the tag "new_mesh" |
| Simplification.CornerKeepsGeometry | src/SurfaceMeshSimplification.cpp:52-54 | a visited vertex's new number leads to its own coordinates |
| Simplification.CornerAt | src/SurfaceMeshSimplification.cpp:52-54 | the a-th visited vertex gets number a, and the a-th coordinate triple is its own point |
| Simplification.RenumberingKeepsGeometry | src/SurfaceMeshSimplification.cpp:52-100 | each corner of each face points, in the new arrays, at the coordinates it had after the collapse |
| Simplification.NewMeshTagFails | src/SurfaceMeshSimplification.cpp:56 | the bare "new_mesh" tag makes the output loop raise KeyError on "n" with the scene untouched |
| Router.LanguageId | src/Router.cpp:48 | the row index is accepted from ints and booleans, equal to the value; anything else raises TypeError |
| Router.Route | src/Router.cpp:11-24 | a name in the row yields its class; an unknown name raises bad_function_call |
| Router.New | src/Router.cpp:24 | a non-integer language raises TypeError, an unknown name bad_function_call; a router holds the constructed algorithm and an empty result |
| Router.Init | src/Router.cpp:34-37 | `init` runs `compute_algorithm` on the algorithm object, its own state and its result dictionary together, and keeps the state it leaves, so a second call starts from the first call's mesh and result |
| Router.GetResult | src/Router.cpp:39-42 | `get_result` is the stored result |
| Router.Invoke | api_traitements_maillage/api_traitements_maillage.py:518-528 | constructing, initialising and reading a router succeeds exactly when construction does, with what the freshly constructed algorithm computes from an empty result dictionary |
| Router.ResultBeforeInitIsEmpty | src/Router.cpp:24-42 | before `init`, `get_result` is empty |
| Router.KindsAreDistinct | src/Router.cpp:11-21 | each class appears once in the table |
| Router.TableNames | src/Router.cpp:11-21 | row 0 knows the segmentation, simplification, area and test names; row 1 only the curvature colouring |
| Router.MeshLabRowUnreachable | api_traitements_maillage/api_traitements_maillage.py:514-518 | a router built by the add-on never uses row 1 |
| PyMesh.New | api_traitements_maillage/api_modules/py_mesh.py:7-9 | the backend keeps the data and starts with an empty result |
| PyMesh.Reshape | api_traitements_maillage/api_modules/py_mesh.py:19 | reshaping succeeds exactly for lengths that are multiples of three, with rows that flatten back to the array; otherwise ValueError |
| PyMesh.Init | api_traitements_maillage/api_modules/py_mesh.py:11-56 | in reading order: missing vertices raise RuntimeError, vertices of bad length ValueError, missing faces RuntimeError, faces of bad length ValueError, a missing function name RuntimeError, and non-mapping params TypeError; a filter error propagates, and a filter that succeeds makes `init` succeed; a success had a function name and a mapping of parameters; only the curvature filter sets "vertex_coloration" and the filter's colours, leaving the rest of the result alone; any other filter leaves the backend unchanged |
| PyMesh.GetResult | api_traitements_maillage/api_modules/py_mesh.py:59-60 | `get_result` is the stored result |
| PyMesh.PreparedParamsRejected | api_traitements_maillage/api_modules/py_mesh.py:36-48 | with the data the add-on prepares, `init` raises TypeError on `**params` before any filter runs |
| PyMesh.ListParamsRejected | api_traitements_maillage/api_modules/py_mesh.py:36-48 | data with a function name and a list under "params" makes `init` raise TypeError |
| PyMesh.ColorTagFails | api_traitements_maillage/api_modules/py_mesh.py:54-56 | the bare "vertex_coloration" tag makes the output loop raise KeyError on "v" |
| TestAlgorithm.New | src/TestCpp.cpp:5-8 | missing options or option raise KeyError, a non-dict TypeError, a non-string fails the cast; a success holds the option string |
| TestAlgorithm.Compute | src/TestCpp.cpp:10-26 | "DISPLAY_TEXT" yields the message and no geometry; any other option yields the twelve coordinates and twelve indices of a well-formed mesh |
| TestAlgorithm.Tetrahedron | src/TestCpp.cpp:23 | four triangles over corners 0 to 3 |
| TestAlgorithm.EdgeUses | src/TestCpp.cpp:23 | no triangle uses an edge exactly when the count is zero |
| TestAlgorithm.TetrahedronClosed | src/TestCpp.cpp:16-24 | four distinct corners, triangles with distinct corners, and every edge bordering exactly two triangles |
| TestAlgorithm.EdgeUsesOfTetrahedron | src/TestCpp.cpp:23-24 | each of the six corner pairs is an edge of exactly two of the four triangles |
| TestAlgorithm.TetrahedronMixedOrientation | src/TestCpp.cpp:23 | the first two triangles run along edge 1 to 2 the same way, so the faces are not consistently oriented |
| TestAlgorithm.BareTagsFail | src/TestCpp.cpp:10-15 | both bare tags make the output loop raise KeyError on their first character |

## Left out

- Blender UI: panels, operators' `invoke`, registration, `draw_properties`,
  the description toggle and the camera alignment are not modelled.
- Screen effects are left out: `mode_set`, shading changes, selection,
  `view_selected`, `tag_redraw`, `print` and timing.
- File I/O is a parameter:
  - the catalogue is modelled as an already-parsed document;
  - `LoadFile` receives the parse outcome;
  - the export's file write (`execute`) is not modelled.
- Floating point is a parameter: `round(x, 2)`, `str(x)` and the
  pymeshlab converters (`PercentageValue`, `PureValue`, `Color`, numpy
  arrays). Converted values are opaque `Converted` values.
- Blender's own conversions are simplified:
  - float32 colour storage;
  - the `.001` suffixing of repeated names;
  - `validate()` and `update()`.
- CGAL calls are parameters: `add_face` acceptance, SDF values and
  segmentation, edge collapse, and the random palette.
- CGAL exceptions are not modelled.
- pymeshlab is a parameter: building its mesh and applying a filter.
  - PyMesh.Init: the pymeshlab mesh is assumed to build. A failure there is
    folded into the filter parameter, so it comes after the `**params` check.
- Strings.Upper and Strings.Lower map ASCII letters only. Python's
  full Unicode case mapping is not modelled.
- Configuration.Coerce: the enum item check of `setattr` is not modelled. A
  string outside the menu's items is stored rather than raising TypeError.
  Blender's clamping of an int, float or vector component into the
  property's [min, max] range is not modelled either: the property group
  holds values only, not their bounds. So Configuration.SetAttr,
  Configuration.ResetProperties and Configuration.LoadConfiguration store the value
  unclamped. Configuration.ExportThenLoad's round trip therefore holds in
  Blender only for values whose rounding stays within the bounds.
- Configuration.LoadFile: the `configuration_is_loaded` flag set after a
  successful load is not modelled.
- The C++ constructors' unchecked reads are preconditions, not error
  paths. `Segmentation.New` and `Simplification.New` require face indices
  that name a vertex. `Router.New` requires a row index inside the table.
- Values.PyIntOf: `py::int_` of a string is treated as a TypeError, although
  Python's `int()` would parse it.
- Values.PyFloatOf: `py::float_` of a numeric string, such as a "smoothness"
  of "0.5" in the segmentation constructor, is treated as a TypeError,
  although pybind11 would parse the text. Parsing number text is not
  modelled. The other conversions it stands for (`cast<double>()`, `setattr`
  on a float property) do reject strings.
- OutputHandlers.ClearColors: when the removal takes away the active colour
  attribute, Blender may make a remaining colour attribute active. The model
  leaves none active, so a later colour extraction reads the last face
  colour layer where Blender might read that other attribute.
- OutputHandlers.SetNewMeshOn and OutputHandlers.SetMeshColorsOn: the
  length checks of Blender's `foreach_set` are not modelled. Blender raises
  when a vertex array's length is not a multiple of three, or when the
  colour array is not four entries per element of the layer's domain. The
  model succeeds with any lengths.
- Segmentation.Compute: the face colours are reals, not float32.
- `SurfaceAreaComputation` and the `MeshLab` stub class (src/SurfaceAreaComputation.cpp,
  src/MeshLab.cpp) are not part of this model beyond their table entries in
  `Router.AlgorithmsTable`. Their constructors and results are what
  `Router.New`'s `construct` and `Router.Init`'s `compute` parameters stand for.
- `check_required_modules` and install_pymeshlab.py (module installation)
  are I/O and not modelled.

## Findings

| source | as written | input that shows it | evidently intended | confidence | as-written member | corrected member |
|---|---|---|---|---|---|---|
| api_traitements_maillage/api_traitements_maillage.py:816-825 | `result` is assigned only for floats and mathutils Colors and Vectors, then written for every property | a group whose first property is an option menu, integer, boolean or float array of subtype "NONE" (UnboundLocalError); or ratio 0.5 then iterations 3 (iterations exported as 0.5) | every property's own value is written, rounded when it is a float or vector | high, not executed | Configuration.ExportAsWritten (shown by Configuration.FirstPlainValueIsUnbound and Configuration.StaleValueExported) | Configuration.ExportConfiguration (round trip proved by Configuration.ExportThenLoad) |

=== FILE: catalogue.dfy ===
/** Loading the algorithm catalogue (`load_algorithms`): the configuration
    document lists languages, each with libraries, each with algorithms, each
    with optional properties.  Loading fills the tables of `Globals` that the
    rest of the add-on reads: the algorithm menu, descriptions, input
    pipelines, per-algorithm records (language, property defaults, property
    types, MeshLab function names) and step tables, and registers one
    property group per algorithm that declares properties. */
module Catalogue {
  import opened Wrappers
  import opened Dicts
  import opened Values
  import opened Strings
  import opened PropertyFactory
  import Description

  /** One entry of an algorithm's `properties.data` list. */
  datatype PropertyDecl = PropertyDecl(
    idName: Option<string>,
    kind: Option<string>,
    algorithmStep: Option<Value>,
    data: Option<PropertyData>)

  /** An algorithm's `properties` object. */
  datatype PropertiesDecl = PropertiesDecl(className: Option<string>, data: Option<seq<PropertyDecl>>)

  /** One entry of a library's `algorithms` list. */
  datatype AlgorithmDecl = AlgorithmDecl(
    idName: Option<string>,
    name: Option<Value>,
    description: Option<string>,
    input: Option<seq<string>>,
    steps: Option<Value>,
    functionsName: Option<Value>,
    properties: Option<PropertiesDecl>)

  datatype LibraryDecl = LibraryDecl(idName: Option<string>, algorithms: Option<seq<AlgorithmDecl>>)

  /** One top-level value of the document: a programming language and its libraries. */
  datatype BackendDecl = BackendDecl(languageId: Option<Value>, libraries: Option<seq<LibraryDecl>>)

  /** A loaded property: its identifier, type, default value, sub-algorithm
      step and widget. */
  datatype Entry = Entry(id: string, kind: string, default: Value, step: Value, widget: Widget)

  /** An entry of the algorithm menu `(identifier, label, description)`. */
  datatype MenuItem = MenuItem(id: string, name: Value, description: string)

  /** `algorithm_properties[name]`: `[language, defaults, types, functions]`. */
  datatype Record = Record(language: Value, defaults: Dict<string, Value>, types: seq<string>, functions: Value)

  /** `algorithm_steps[name]`: `[steps, step of each property]`. */
  datatype StepTable = StepTable(count: Value, stepOf: seq<Value>)

  /** The tables filled by loading.  `groups` maps each algorithm that
      declared properties to the attributes of its property group. */
  datatype Registry = Registry(
    items: seq<MenuItem>,
    descriptions: map<string, seq<string>>,
    pipelines: map<string, seq<string>>,
    records: map<string, Record>,
    steps: map<string, StepTable>,
    groups: map<string, Dict<string, Widget>>)

  /** The menu's first entry, selected until the user picks an algorithm. */
  const NoAlgorithm: MenuItem := MenuItem("DEFAULT", Str("--Choix de l'algorithme--"), "")

  const Empty: Registry := Registry([NoAlgorithm], map[], map[], map[], map[], map[])

  /** One property: its type, then its factory, then its data, then the
      factory call, then its identifier; the step defaults to -1 (unused). */
  function LoadProperty(p: PropertyDecl): (r: Outcome<Entry>)
    ensures p.kind.None? ==> r == Err(KeyError(Str("type")))
    ensures p.kind.Some? && FactoryFor(p.kind.value).None? ==> r == Err(KeyError(Str(p.kind.value)))
    ensures r.Ok? ==> p.idName == Some(r.value.id) && p.kind == Some(r.value.kind)
                      && r.value.step == p.algorithmStep.GetOr(Int(-1))
                      && WidgetDefault(r.value.widget) == r.value.default
  {
    var kind :- Need(p.kind, "type");
    var maker :- Need(FactoryFor(kind), kind);
    var data :- Need(p.data, "data");
    var made :- Make(maker, data);
    var id :- Need(p.idName, "id_name");
    Ok(Entry(id, kind, made.1, p.algorithmStep.GetOr(Int(-1)), made.0))
  }

  /** All properties of an algorithm, in order; the first failure aborts. */
  function LoadProperties(ps: seq<PropertyDecl>): (r: Outcome<seq<Entry>>)
    ensures r.Ok? <==> forall i :: 0 <= i < |ps| ==> LoadProperty(ps[i]).Ok?
    ensures r.Ok? ==> |r.value| == |ps| && forall i :: 0 <= i < |ps| ==> LoadProperty(ps[i]) == Ok(r.value[i])
  {
    MapAll(ps, LoadProperty)
  }

  /** The error of a failed load is that of its first failing property. */
  lemma LoadPropertiesFirstFailure(ps: seq<PropertyDecl>) returns (i: nat)
    requires LoadProperties(ps).Err?
    ensures i < |ps| && LoadProperty(ps[i]).Err?
    ensures forall j :: 0 <= j < i ==> LoadProperty(ps[j]).Ok?
    ensures LoadProperties(ps).error == LoadProperty(ps[i]).error
  {
    i := MapAllFirstFailure(ps, LoadProperty);
  }

  /** The defaults dictionary `{id: default}` built property by property. */
  function DefaultsOf(es: seq<Entry>): Dict<string, Value> {
    Collect(seq(|es|, i requires 0 <= i < |es| => (es[i].id, es[i].default)))
  }

  /** The attributes of the property group, set property by property. */
  function WidgetsOf(es: seq<Entry>): Dict<string, Widget> {
    Collect(seq(|es|, i requires 0 <= i < |es| => (es[i].id, es[i].widget)))
  }

  function TypesOf(es: seq<Entry>): (ts: seq<string>)
    ensures |ts| == |es| && forall i :: 0 <= i < |es| ==> ts[i] == es[i].kind
  {
    seq(|es|, i requires 0 <= i < |es| => es[i].kind)
  }

  function StepsOf(es: seq<Entry>): (ss: seq<Value>)
    ensures |ss| == |es| && forall i :: 0 <= i < |es| ==> ss[i] == es[i].step
  {
    seq(|es|, i requires 0 <= i < |es| => es[i].step)
  }

  /** The declared properties of an algorithm, or none. */
  function LoadAlgorithmProperties(a: AlgorithmDecl): (r: Outcome<seq<Entry>>)
    ensures a.properties.None? ==> r == Ok([])
    ensures a.properties.Some? && a.properties.value.data.None? ==> r == Err(KeyError(Str("data")))
    ensures r.Ok? && a.properties.Some? ==>
              && a.properties.value.data.Some? && a.properties.value.className.Some?
              && LoadProperties(a.properties.value.data.value) == r
    ensures a.properties.Some? && a.properties.value.data.Some? ==>
              r == if a.properties.value.className.None? then Err(KeyError(Str("class_name")))
                   else LoadProperties(a.properties.value.data.value)
  {
    match a.properties
    case None => Ok([])
    case Some(props) =>
      var ps :- Need(props.data, "data");
      var _ :- Need(props.className, "class_name");
      LoadProperties(ps)
  }

  /** One algorithm: a menu entry labelled with its upper-cased identifier,
      and its description, input pipeline, record and step table stored
      under its identifier, replacing those of an earlier algorithm with the
      same identifier; a property group when it declares properties. */
  function LoadAlgorithm(a: AlgorithmDecl, language: Value, reg: Registry): (r: Outcome<Registry>)
    ensures a.idName.None? ==> r == Err(KeyError(Str("id_name")))
    ensures a.idName.Some? && a.name.None? ==> r == Err(KeyError(Str("name")))
    ensures r.Ok? ==> (a.idName.Some? && a.name.Some?
                       && r.value.items == reg.items + [MenuItem(Upper(a.idName.value), a.name.value, a.description.GetOr(""))])
    ensures a.idName.Some? && a.name.Some? && LoadAlgorithmProperties(a).Ok? ==> r.Ok?
    ensures a.idName.Some? && a.name.Some? && LoadAlgorithmProperties(a).Err? ==>
              r == Err(LoadAlgorithmProperties(a).error)
  {
    var id :- Need(a.idName, "id_name");
    var description := a.description.GetOr("");
    var name :- Need(a.name, "name");
    var es :- LoadAlgorithmProperties(a);
    Ok(Store(reg, a, id, name, language, es))
  }

  /** The tables with one more algorithm stored under `id`. */
  function Store(reg: Registry, a: AlgorithmDecl, id: string, name: Value, language: Value, es: seq<Entry>): Registry {
    var description := a.description.GetOr("");
    Insert(reg, id, MenuItem(Upper(id), name, description), Description.CreateDescription(description),
           a.input.GetOr([]), Record(language, DefaultsOf(es), TypesOf(es), a.functionsName.GetOr(List([]))),
           StepTable(a.steps.GetOr(Nothing), StepsOf(es)),
           if a.properties.Some? then Some(WidgetsOf(es)) else None)
  }

  /** The tables with one more menu entry, and the given description,
      pipeline, record, step table and (if any) property group stored under
      `id`. */
  function Insert(reg: Registry, id: string, item: MenuItem, lines: seq<string>, pipeline: seq<string>,
                  record: Record, table: StepTable, group: Option<Dict<string, Widget>>): Registry {
    Registry(
      reg.items + [item],
      reg.descriptions[id := lines],
      reg.pipelines[id := pipeline],
      reg.records[id := record],
      reg.steps[id := table],
      if group.Some? then reg.groups[id := group.value] else reg.groups)
  }

  /** Inserting keeps the menu's head and adds the identifier to every table. */
  lemma InsertKeys(reg: Registry, id: string, item: MenuItem, lines: seq<string>, pipeline: seq<string>,
                   record: Record, table: StepTable, group: Option<Dict<string, Widget>>)
    requires KeysAgree(reg)
    ensures KeysAgree(Insert(reg, id, item, lines, pipeline, record, table, group))
  {
    var r := Insert(reg, id, item, lines, pipeline, record, table, group);
    assert r.items[0] == reg.items[0];
    assert r.records.Keys == reg.records.Keys + {id};
    assert r.steps.Keys == reg.steps.Keys + {id};
    assert r.descriptions.Keys == reg.descriptions.Keys + {id};
    assert r.pipelines.Keys == reg.pipelines.Keys + {id};
  }

  /** A successful load is a store of the algorithm's loaded properties. */
  lemma LoadAlgorithmIsStore(a: AlgorithmDecl, language: Value, reg: Registry)
    requires LoadAlgorithm(a, language, reg).Ok?
    ensures a.idName.Some? && a.name.Some? && LoadAlgorithmProperties(a).Ok?
    ensures LoadAlgorithm(a, language, reg)
            == Ok(Store(reg, a, a.idName.value, a.name.value, language, LoadAlgorithmProperties(a).value))
  {
  }

  /** The tables after loading one algorithm: its description, pipeline,
      record and step table are stored under its identifier, replacing those
      of an earlier algorithm with the same identifier and leaving the other
      algorithms' untouched; it gets a property group exactly when it declares
      properties, and an earlier group of the same name stays otherwise. */
  lemma LoadAlgorithmStores(a: AlgorithmDecl, language: Value, reg: Registry)
    requires LoadAlgorithm(a, language, reg).Ok?
    ensures var r := LoadAlgorithm(a, language, reg).value;
            var id := a.idName.value;
            && r.descriptions == reg.descriptions[id := Description.CreateDescription(a.description.GetOr(""))]
            && r.pipelines == reg.pipelines[id := a.input.GetOr([])]
            && r.records.Keys == reg.records.Keys + {id}
            && r.steps.Keys == reg.steps.Keys + {id}
            && r.records[id].language == language
            && r.records[id].functions == a.functionsName.GetOr(List([]))
            && r.steps[id].count == a.steps.GetOr(Nothing)
            && (forall other :: other in reg.records && other != id ==> r.records[other] == reg.records[other])
            && (forall other :: other in reg.steps && other != id ==> r.steps[other] == reg.steps[other])
            && r.groups.Keys == (if a.properties.Some? then reg.groups.Keys + {id} else reg.groups.Keys)
  {
    LoadAlgorithmIsStore(a, language, reg);
    var id, description := a.idName.value, a.description.GetOr("");
    var es := LoadAlgorithmProperties(a).value;
    var item, lines := MenuItem(Upper(id), a.name.value, description), Description.CreateDescription(description);
    var record := Record(language, DefaultsOf(es), TypesOf(es), a.functionsName.GetOr(List([])));
    var table := StepTable(a.steps.GetOr(Nothing), StepsOf(es));
    var group := if a.properties.Some? then Some(WidgetsOf(es)) else None;
    InsertReplaces(reg, id, item, lines, a.input.GetOr([]), record, table, group);
    forall other | other != id {
      InsertKeepsOther(reg, id, item, lines, a.input.GetOr([]), record, table, group, other);
    }
  }

  /** Inserting under `id` replaces what was stored under it and leaves every
      other identifier's record and step table alone. */
  lemma InsertReplaces(reg: Registry, id: string, item: MenuItem, lines: seq<string>, pipeline: seq<string>,
                       record: Record, table: StepTable, group: Option<Dict<string, Widget>>)
    ensures var r := Insert(reg, id, item, lines, pipeline, record, table, group);
            && r.records.Keys == reg.records.Keys + {id}
            && r.steps.Keys == reg.steps.Keys + {id}
            && r.records[id] == record && r.steps[id] == table
            && r.groups.Keys == (if group.Some? then reg.groups.Keys + {id} else reg.groups.Keys)
  {
  }

  /** Inserting under `id` leaves what is stored under any other identifier
      as it was. */
  lemma InsertKeepsOther(reg: Registry, id: string, item: MenuItem, lines: seq<string>, pipeline: seq<string>,
                         record: Record, table: StepTable, group: Option<Dict<string, Widget>>, other: string)
    requires other != id
    ensures var r := Insert(reg, id, item, lines, pipeline, record, table, group);
            && (other in r.records <==> other in reg.records)
            && (other in r.steps <==> other in reg.steps)
            && (other in reg.records ==> r.records[other] == reg.records[other])
            && (other in reg.steps ==> r.steps[other] == reg.steps[other])
            && GroupOf(r, other) == GroupOf(reg, other)
  {
  }

  /** An algorithm's record lists its properties' types, and its step table
      their steps, in declaration order. */
  lemma LoadAlgorithmTypes(a: AlgorithmDecl, language: Value, reg: Registry)
    requires LoadAlgorithm(a, language, reg).Ok?
    requires a.properties.Some?
    ensures a.properties.value.data.Some?
    ensures var r := LoadAlgorithm(a, language, reg).value;
            var ps := a.properties.value.data.value;
            var id := a.idName.value;
            && |r.records[id].types| == |ps| == |r.steps[id].stepOf|
            && forall i :: 0 <= i < |ps| ==>
                 && ps[i].kind == Some(r.records[id].types[i])
                 && r.steps[id].stepOf[i] == ps[i].algorithmStep.GetOr(Int(-1))
  {
    LoadAlgorithmIsStore(a, language, reg);
    var es := LoadAlgorithmProperties(a).value;
    var ps := a.properties.value.data.value;
    var id := a.idName.value;
    var r := LoadAlgorithm(a, language, reg).value;
    assert r.records[id].types == TypesOf(es) && r.steps[id].stepOf == StepsOf(es);
    forall i | 0 <= i < |ps|
      ensures ps[i].kind == Some(TypesOf(es)[i]) && StepsOf(es)[i] == ps[i].algorithmStep.GetOr(Int(-1))
    {
      assert LoadProperty(ps[i]) == Ok(es[i]);
    }
  }

  /** The algorithms of one library, in order. */
  function LoadAlgorithms(algs: seq<AlgorithmDecl>, language: Value, reg: Registry): (r: Outcome<Registry>)
    ensures r.Ok? ==> |r.value.items| == |reg.items| + |algs| && r.value.items[..|reg.items|] == reg.items
  {
    if |algs| == 0 then Ok(reg)
    else
      var next :- LoadAlgorithm(algs[0], language, reg);
      assert |next.items| == |reg.items| + 1 && next.items[..|reg.items|] == reg.items;
      var r :- LoadAlgorithms(algs[1..], language, next);
      assert r.items[..|reg.items|] == r.items[..|next.items|][..|reg.items|];
      Ok(r)
  }

  /** One library: a library without an `algorithms` list is an error naming it. */
  function LoadLibrary(lib: LibraryDecl, language: Value, reg: Registry): (r: Outcome<Registry>)
    ensures lib.algorithms.None? ==> r == Err(RuntimeError(MissingAlgorithms(lib.idName.GetOr(""))))
    ensures r.Ok? ==> |r.value.items| == |reg.items| + |lib.algorithms.value| && r.value.items[..|reg.items|] == reg.items
  {
    match lib.algorithms
    case None => Err(RuntimeError(MissingAlgorithms(lib.idName.GetOr(""))))
    case Some(algs) => LoadAlgorithms(algs, language, reg)
  }

  function LoadLibraries(libs: seq<LibraryDecl>, language: Value, reg: Registry): (r: Outcome<Registry>)
    ensures r.Ok? ==> |reg.items| <= |r.value.items| && r.value.items[..|reg.items|] == reg.items
  {
    if |libs| == 0 then Ok(reg)
    else
      var next :- LoadLibrary(libs[0], language, reg);
      var r :- LoadLibraries(libs[1..], language, next);
      assert r.items[..|reg.items|] == r.items[..|next.items|][..|reg.items|];
      Ok(r)
  }

  /** One language: its `language_id` is required, its libraries are optional. */
  function LoadBackend(b: BackendDecl, reg: Registry): (r: Outcome<Registry>)
    ensures b.languageId.None? ==> r == Err(KeyError(Str("language_id")))
    ensures b.languageId.Some? && b.libraries.None? ==> r == Ok(reg)
    ensures r.Ok? ==> |reg.items| <= |r.value.items| && r.value.items[..|reg.items|] == reg.items
  {
    var language :- Need(b.languageId, "language_id");
    match b.libraries
    case None => Ok(reg)
    case Some(libs) => LoadLibraries(libs, language, reg)
  }

  function LoadBackends(bs: seq<BackendDecl>, reg: Registry): (r: Outcome<Registry>)
    ensures r.Ok? ==> |reg.items| <= |r.value.items| && r.value.items[..|reg.items|] == reg.items
  {
    if |bs| == 0 then Ok(reg)
    else
      var next :- LoadBackend(bs[0], reg);
      var r :- LoadBackends(bs[1..], next);
      assert r.items[..|reg.items|] == r.items[..|next.items|][..|reg.items|];
      Ok(r)
  }

  /** `load_algorithms` on a parsed document: the menu always starts with the
      "no algorithm" entry. */
  function LoadCatalogue(bs: seq<BackendDecl>): (r: Outcome<Registry>)
    ensures r.Ok? ==> |r.value.items| >= 1 && r.value.items[0] == NoAlgorithm
  {
    var r :- LoadBackends(bs, Empty);
    assert |Empty.items| == 1 && Empty.items[0] == NoAlgorithm;
    assert r.items[0] == r.items[..|Empty.items|][0];
    Ok(r)
  }

  /** What the rest of the add-on relies on for one loaded algorithm: one step
      per property type, no more defaults than types, no repeated property,
      and, when it has properties, a property group whose attributes are
      exactly its defaults' names. */
  predicate WellFormedRecord(rec: Record, table: StepTable, group: Option<Dict<string, Widget>>) {
    && |rec.types| == |table.stepOf|
    && |rec.defaults| <= |rec.types|
    && DistinctKeys(rec.defaults)
    && (rec.defaults == [] || (group.Some? && Keys(group.value) == Keys(rec.defaults)))
  }

  function GroupOf(reg: Registry, id: string): Option<Dict<string, Widget>> {
    if id in reg.groups then Some(reg.groups[id]) else None
  }

  /** The menu starts with the "no algorithm" entry, and the tables have the
      same identifiers. */
  predicate KeysAgree(reg: Registry) {
    && |reg.items| >= 1 && reg.items[0] == NoAlgorithm
    && reg.records.Keys == reg.steps.Keys == reg.descriptions.Keys == reg.pipelines.Keys
    && reg.groups.Keys <= reg.records.Keys
  }

  /** The tables agree with one another. */
  predicate Consistent(reg: Registry) {
    && KeysAgree(reg)
    && forall id :: id in reg.records ==> id in reg.steps && WellFormedRecord(reg.records[id], reg.steps[id], GroupOf(reg, id))
  }

  /** The tables built from one algorithm's properties agree with one another. */
  lemma EntriesWellFormed(es: seq<Entry>)
    ensures WellFormedRecord(Record(Nothing, DefaultsOf(es), TypesOf(es), Nothing),
                             StepTable(Nothing, StepsOf(es)), Some(WidgetsOf(es)))
  {
    var dp := seq(|es|, i requires 0 <= i < |es| => (es[i].id, es[i].default));
    var wp := seq(|es|, i requires 0 <= i < |es| => (es[i].id, es[i].widget));
    CollectDistinct(dp);
    CollectSameKeys(wp, dp);
  }

  /** Loading one algorithm keeps the tables consistent. */
  lemma LoadAlgorithmConsistent(a: AlgorithmDecl, language: Value, reg: Registry)
    requires Consistent(reg)
    requires LoadAlgorithm(a, language, reg).Ok?
    ensures Consistent(LoadAlgorithm(a, language, reg).value)
  {
    LoadAlgorithmIsStore(a, language, reg);
    var es := LoadAlgorithmProperties(a).value;
    assert a.properties.None? ==> es == [];
    StoreConsistent(reg, a, a.idName.value, a.name.value, language, es);
  }

  /** Storing an algorithm keeps the tables consistent. */
  lemma StoreConsistent(reg: Registry, a: AlgorithmDecl, id: string, name: Value, language: Value, es: seq<Entry>)
    requires Consistent(reg)
    requires a.properties.None? ==> es == []
    ensures Consistent(Store(reg, a, id, name, language, es))
  {
    var r := Store(reg, a, id, name, language, es);
    StoredRecordWellFormed(reg, a, id, name, language, es);
    StoreKeys(reg, a, id, name, language, es);
    forall other | other in r.records && other != id
      ensures other in r.steps && WellFormedRecord(r.records[other], r.steps[other], GroupOf(r, other))
    {
      StoreKeepsOther(reg, a, id, name, language, es, other);
    }
  }

  /** Storing adds the identifier to every table and keeps the menu's head. */
  lemma StoreKeys(reg: Registry, a: AlgorithmDecl, id: string, name: Value, language: Value, es: seq<Entry>)
    requires KeysAgree(reg)
    ensures KeysAgree(Store(reg, a, id, name, language, es))
  {
    var description := a.description.GetOr("");
    InsertKeys(reg, id, MenuItem(Upper(id), name, description), Description.CreateDescription(description),
               a.input.GetOr([]), Record(language, DefaultsOf(es), TypesOf(es), a.functionsName.GetOr(List([]))),
               StepTable(a.steps.GetOr(Nothing), StepsOf(es)),
               if a.properties.Some? then Some(WidgetsOf(es)) else None);
  }

  /** Storing leaves the entries of every other algorithm as they were. */
  lemma StoreKeepsOther(reg: Registry, a: AlgorithmDecl, id: string, name: Value, language: Value, es: seq<Entry>,
                        other: string)
    requires Consistent(reg)
    requires other != id && other in Store(reg, a, id, name, language, es).records
    ensures var r := Store(reg, a, id, name, language, es);
            other in r.steps && WellFormedRecord(r.records[other], r.steps[other], GroupOf(r, other))
  {
    var description := a.description.GetOr("");
    InsertKeepsOther(reg, id, MenuItem(Upper(id), name, description), Description.CreateDescription(description),
                     a.input.GetOr([]), Record(language, DefaultsOf(es), TypesOf(es), a.functionsName.GetOr(List([]))),
                     StepTable(a.steps.GetOr(Nothing), StepsOf(es)),
                     if a.properties.Some? then Some(WidgetsOf(es)) else None, other);
  }

  /** The record, step table and group stored for an algorithm agree. */
  lemma StoredRecordWellFormed(reg: Registry, a: AlgorithmDecl, id: string, name: Value, language: Value, es: seq<Entry>)
    requires a.properties.None? ==> es == []
    ensures var r := Store(reg, a, id, name, language, es);
            WellFormedRecord(r.records[id], r.steps[id], GroupOf(r, id))
  {
    var r := Store(reg, a, id, name, language, es);
    EntriesWellFormed(es);
    assert r.records[id].defaults == DefaultsOf(es) && r.records[id].types == TypesOf(es);
    assert r.steps[id].stepOf == StepsOf(es);
    assert a.properties.Some? ==> GroupOf(r, id) == Some(WidgetsOf(es));
  }

  lemma {:induction false} LoadAlgorithmsConsistent(algs: seq<AlgorithmDecl>, language: Value, reg: Registry)
    requires Consistent(reg)
    requires LoadAlgorithms(algs, language, reg).Ok?
    ensures Consistent(LoadAlgorithms(algs, language, reg).value)
  {
    if |algs| > 0 {
      LoadAlgorithmConsistent(algs[0], language, reg);
      LoadAlgorithmsConsistent(algs[1..], language, LoadAlgorithm(algs[0], language, reg).value);
    }
  }

  lemma {:induction false} LoadLibrariesConsistent(libs: seq<LibraryDecl>, language: Value, reg: Registry)
    requires Consistent(reg)
    requires LoadLibraries(libs, language, reg).Ok?
    ensures Consistent(LoadLibraries(libs, language, reg).value)
  {
    if |libs| > 0 {
      LoadAlgorithmsConsistent(libs[0].algorithms.value, language, reg);
      LoadLibrariesConsistent(libs[1..], language, LoadLibrary(libs[0], language, reg).value);
    }
  }

  lemma {:induction false} LoadBackendsConsistent(bs: seq<BackendDecl>, reg: Registry)
    requires Consistent(reg)
    requires LoadBackends(bs, reg).Ok?
    ensures Consistent(LoadBackends(bs, reg).value)
  {
    if |bs| > 0 {
      if bs[0].libraries.Some? {
        LoadLibrariesConsistent(bs[0].libraries.value, bs[0].languageId.value, reg);
      }
      LoadBackendsConsistent(bs[1..], LoadBackend(bs[0], reg).value);
    }
  }

  /** Every successfully loaded catalogue has consistent tables. */
  lemma CatalogueConsistent(bs: seq<BackendDecl>)
    requires LoadCatalogue(bs).Ok?
    ensures Consistent(LoadCatalogue(bs).value)
  {
    LoadBackendsConsistent(bs, Empty);
  }

  /** When an algorithm's property identifiers are all different, its
      defaults hold one entry per property, in declaration order, so that the
      i-th default is the i-th property and has the i-th type and step. */
  lemma DistinctPropertiesAlign(es: seq<Entry>)
    requires forall i, j :: 0 <= i < j < |es| ==> es[i].id != es[j].id
    ensures |DefaultsOf(es)| == |TypesOf(es)|
    ensures forall i :: 0 <= i < |es| ==> DefaultsOf(es)[i] == (es[i].id, es[i].default)
  {
    var dp := seq(|es|, i requires 0 <= i < |es| => (es[i].id, es[i].default));
    CollectFresh(dp);
  }

  /** A property identifier declared twice keeps the default of its last
      declaration. */
  lemma LastDeclarationWins(es: seq<Entry>, i: nat)
    requires i < |es|
    requires forall j :: i < j < |es| ==> es[j].id != es[i].id
    ensures Lookup(DefaultsOf(es), es[i].id) == Some(es[i].default)
  {
    var dp := seq(|es|, i requires 0 <= i < |es| => (es[i].id, es[i].default));
    CollectLastWins(dp, i);
  }
}

=== FILE: configuration.dfy ===
/** Saving, loading and resetting an algorithm's parameters: the JSON
    configuration operators and the reset operator of the panel. */
module Configuration {
  import opened Wrappers
  import opened Dicts
  import opened Values
  import opened Strings
  import opened Blender
  import opened Catalogue
  import opened OutputHandlers
  import opened Engine

  /** What `setattr(group, name, v)` stores in a property whose current value
      is `slot`: Blender converts numbers to the property's type and a
      sequence of numbers to a vector of the same size; anything else of
      the wrong type raises TypeError. */
  function Coerce(slot: Value, v: Value): (r: Outcome<Value>)
    ensures slot.Vector? && r.Ok? ==> r.value.Vector? && |r.value.components| == |slot.components|
                                      && r.value.wrapped == slot.wrapped
    ensures slot.Float? && r.Ok? ==> r.value.Float?
    ensures slot.Str? ==> (r.Ok? <==> v.Str?)
    ensures r.Ok? && v.Str? ==> r.value == v
  {
    match slot
    case Vector(cs, wrapped) =>
      (match v
       case List(xs) => VectorOf(xs, |cs|, wrapped)
       case Tuple(xs) => VectorOf(xs, |cs|, wrapped)
       case _ => Err(TypeError))
    case Float(_) =>
      var x :- PyFloatOf(v);
      Ok(Float(x))
    case Int(_) =>
      var n :- AsInt(v);
      Ok(Int(n))
    case Bool(_) =>
      (match v
       case Bool(b) => Ok(v)
       case Int(n) => if n == 0 || n == 1 then Ok(Bool(n == 1)) else Err(TypeError)
       case _ => Err(TypeError))
    case Str(_) => if v.Str? then Ok(v) else Err(TypeError)
    case _ => Ok(v)
  }

  /** A sequence of numbers of the expected size, as a vector of the
      property's kind. */
  function VectorOf(xs: seq<Value>, size: nat, wrapped: bool): (r: Outcome<Value>)
    ensures r.Ok? ==> r.value.Vector? && |r.value.components| == size == |xs| && r.value.wrapped == wrapped
    ensures r.Ok? ==> forall k :: 0 <= k < size ==> PyFloatOf(xs[k]) == Ok(r.value.components[k])
  {
    if |xs| != size then Err(TypeError)
    else
      var cs :- Reals(xs);
      Ok(Vector(cs, wrapped))
  }

  /** `float(x)` of every item, failing on the first that is not a number. */
  function Reals(xs: seq<Value>): (r: Outcome<seq<real>>)
    ensures r.Ok? <==> forall k :: 0 <= k < |xs| ==> PyFloatOf(xs[k]).Ok?
    ensures r.Ok? ==> |r.value| == |xs| && forall k :: 0 <= k < |xs| ==> PyFloatOf(xs[k]) == Ok(r.value[k])
  {
    if |xs| == 0 then Ok([])
    else
      var x :- PyFloatOf(xs[0]);
      var rest :- Reals(xs[1..]);
      assert forall k :: 1 <= k < |xs| ==> xs[k] == xs[1..][k - 1];
      Ok([x] + rest)
  }

  /** `setattr(group, name, v)`: AttributeError when the group has no such
      property, otherwise the converted value replaces the old one. */
  function SetAttr(group: Dict<string, Value>, name: string, v: Value): (r: Outcome<Dict<string, Value>>)
    ensures name !in Keys(group) ==> r == Err(AttributeError(name))
    ensures r.Ok? ==> Keys(r.value) == Keys(group)
    ensures r.Ok? ==> forall other :: other != name ==> Lookup(r.value, other) == Lookup(group, other)
    ensures r.Ok? ==> && name in Keys(group) && Coerce(Lookup(group, name).value, v).Ok?
                      && Lookup(r.value, name) == Some(Coerce(Lookup(group, name).value, v).value)
  {
    var slot :- GetAttr(group, name);
    var stored :- Coerce(slot, v);
    Ok(Put(group, name, stored))
  }

  /** One `setattr` per pair, in order.  There is no rollback: the
      assignments made before a failure stay, and the error is returned
      beside them. */
  function SetAll(group: Dict<string, Value>, pairs: seq<(string, Value)>): (r: (Dict<string, Value>, Option<Error>))
    ensures Keys(r.0) == Keys(group)
    ensures (exists k :: 0 <= k < |pairs| && pairs[k].0 !in Keys(group)) ==> r.1.Some?
    decreases |pairs|
  {
    if |pairs| == 0 then (group, None)
    else
      match SetAttr(group, pairs[0].0, pairs[0].1)
      case Err(e) => (group, Some(e))
      case Ok(next) =>
        var r := SetAll(next, pairs[1..]);
        assert forall k :: 1 <= k < |pairs| ==> pairs[k] == pairs[1..][k - 1];
        r
  }

  /** The group after the first `k` of `pairs` have been assigned in place. */
  function Assigned(group: Dict<string, Value>, pairs: seq<(string, Value)>, k: nat): (r: Dict<string, Value>)
    requires |pairs| == |group| && k <= |group|
    ensures |r| == |group| && Keys(r) == Keys(group)
  {
    var r := seq(|group|, i requires 0 <= i < |group| =>
               if i < k && Coerce(group[i].1, pairs[i].1).Ok? then (group[i].0, Coerce(group[i].1, pairs[i].1).value)
               else group[i]);
    assert forall i :: 0 <= i < |group| ==> Keys(r)[i] == Keys(group)[i];
    r
  }

  /** Assigning every property of a group, in the group's own order, with
      values of the right types replaces each value where it stands and
      raises nothing. */
  lemma {:induction false} SetAllInOrder(group: Dict<string, Value>, pairs: seq<(string, Value)>, k: nat)
    requires DistinctKeys(group)
    requires |pairs| == |group| && k <= |group|
    requires forall i :: 0 <= i < |group| ==> pairs[i].0 == group[i].0 && Coerce(group[i].1, pairs[i].1).Ok?
    ensures SetAll(Assigned(group, pairs, k), pairs[k..]) == (Assigned(group, pairs, |group|), None)
    decreases |group| - k
  {
    if k == |group| {
      assert pairs[k..] == [];
    } else {
      AssignStep(group, pairs, k);
      assert pairs[k..][0] == pairs[k] && pairs[k..][1..] == pairs[k + 1..];
      SetAllInOrder(group, pairs, k + 1);
    }
  }

  /** One assignment of the in-order walk. */
  lemma AssignStep(group: Dict<string, Value>, pairs: seq<(string, Value)>, k: nat)
    requires DistinctKeys(group)
    requires |pairs| == |group| && k < |group|
    requires forall i :: 0 <= i < |group| ==> pairs[i].0 == group[i].0 && Coerce(group[i].1, pairs[i].1).Ok?
    ensures SetAttr(Assigned(group, pairs, k), pairs[k].0, pairs[k].1) == Ok(Assigned(group, pairs, k + 1))
  {
    var h := Assigned(group, pairs, k);
    assert DistinctKeys(h) by {
      forall a, b | 0 <= a < b < |h| ensures h[a].0 != h[b].0 {
        assert h[a].0 == group[a].0 && h[b].0 == group[b].0;
      }
    }
    assert h[k] == group[k];
    LookupDistinct(h, k);
    var c := Coerce(group[k].1, pairs[k].1).value;
    PutAt(h, k, c);
    assert h[k := (group[k].0, c)] == Assigned(group, pairs, k + 1);
  }

  /** `reset_properties`: every property of the chosen algorithm gets its
      catalogue default back.  Without a property group nothing happens. */
  function ResetProperties(scene: Scene, reg: Registry): (r: Run)
    ensures Lower(scene.choice) !in scene.groups ==> r == Run(scene, None)
    ensures Lower(scene.choice) in scene.groups && Lower(scene.choice) !in reg.records ==>
              r == Run(scene, Some(KeyError(Str(Lower(scene.choice)))))
    ensures r.scene.choice == scene.choice && r.scene.active == scene.active
    ensures r.scene.groups.Keys == scene.groups.Keys
  {
    var name := Lower(scene.choice);
    match GroupValues(scene, name)
    case None => Run(scene, None)
    case Some(group) =>
      if name !in reg.records then Run(scene, Some(KeyError(Str(name))))
      else
        var (after, error) := SetAll(group, reg.records[name].defaults);
        Run(scene.(groups := scene.groups[name := after]), error)
  }

  /** A property that holds a string only ever receives a string: resetting
      an option menu to "DEFAULT" leaves exactly "DEFAULT" in it. */
  lemma CoerceKeepsStrings(slot: Value, s: string)
    requires Coerce(slot, Str(s)).Ok?
    ensures Coerce(slot, Str(s)).value == Str(s)
  {
  }

  /** Resetting a group laid out like its catalogue record assigns every
      default, in place, without error. */
  lemma ResetAssignsInOrder(scene: Scene, reg: Registry)
    requires Lower(scene.choice) in scene.groups && Lower(scene.choice) in reg.records
    requires var group := scene.groups[Lower(scene.choice)];
             var defaults := reg.records[Lower(scene.choice)].defaults;
             && DistinctKeys(group) && |defaults| == |group|
             && (forall i :: 0 <= i < |group| ==> defaults[i].0 == group[i].0 && Coerce(group[i].1, defaults[i].1).Ok?)
    ensures var name := Lower(scene.choice);
            var group := scene.groups[name];
            ResetProperties(scene, reg)
            == Run(scene.(groups := scene.groups[name := Assigned(group, reg.records[name].defaults, |group|)]), None)
  {
    var name := Lower(scene.choice);
    var group := scene.groups[name];
    var defaults := reg.records[name].defaults;
    assert Assigned(group, defaults, 0) == group;
    SetAllInOrder(group, defaults, 0);
    assert defaults[0..] == defaults;
  }

  /** After such a reset, an algorithm with an option menu is no longer
      ready to run: the menu is back on "DEFAULT". */
  lemma ResetUnselectsOptions(scene: Scene, reg: Registry, j: nat)
    requires Lower(scene.choice) in scene.groups && Lower(scene.choice) in reg.records
    requires var group := scene.groups[Lower(scene.choice)];
             var defaults := reg.records[Lower(scene.choice)].defaults;
             && DistinctKeys(group) && |defaults| == |group|
             && (forall i :: 0 <= i < |group| ==> defaults[i].0 == group[i].0 && Coerce(group[i].1, defaults[i].1).Ok?)
             && j < |defaults| && defaults[j].1 == Str("DEFAULT")
    ensures var r := ResetProperties(scene, reg);
            r.error.None? && IsOptionSelected(r.scene, reg, scene.choice) == Ok(false)
  {
    var name := Lower(scene.choice);
    var group := scene.groups[name];
    var defaults := reg.records[name].defaults;
    ResetAssignsInOrder(scene, reg);
    AssignedUnselects(group, defaults, j);
    var r := ResetProperties(scene, reg);
    assert r.scene.groups[name] == Assigned(group, defaults, |group|);
  }

  /** Assigning the defaults in place puts "DEFAULT" back into a menu, which
      `is_option_selected` then finds. */
  lemma AssignedUnselects(group: Dict<string, Value>, defaults: seq<(string, Value)>, j: nat)
    requires DistinctKeys(group) && |defaults| == |group|
    requires forall i :: 0 <= i < |group| ==> defaults[i].0 == group[i].0 && Coerce(group[i].1, defaults[i].1).Ok?
    requires j < |defaults| && defaults[j].1 == Str("DEFAULT")
    ensures AnyUnchosen(Keys(defaults), Assigned(group, defaults, |group|)) == Ok(true)
  {
    var after := Assigned(group, defaults, |group|);
    assert after[j] == (defaults[j].0, Str("DEFAULT")) by {
      CoerceKeepsStrings(group[j].1, "DEFAULT");
    }
    assert Lookup(after, defaults[j].0) == Some(Str("DEFAULT")) by {
      AssignedKeepsDistinct(group, defaults, |group|);
      LookupDistinct(after, j);
    }
    assert Keys(defaults) == Keys(after);
    UnchosenAt(Keys(defaults), after, j);
  }

  /** A name that is present and still holds "DEFAULT" makes the check
      answer that an option is unchosen. */
  lemma UnchosenAt(names: seq<string>, group: Dict<string, Value>, j: nat)
    requires forall i :: 0 <= i < |names| ==> names[i] in Keys(group)
    requires j < |names| && Lookup(group, names[j]) == Some(Str("DEFAULT"))
    ensures AnyUnchosen(names, group) == Ok(true)
  {
  }

  /** In-place assignment keeps the keys distinct. */
  lemma AssignedKeepsDistinct(group: Dict<string, Value>, pairs: seq<(string, Value)>, k: nat)
    requires |pairs| == |group| && k <= |group| && DistinctKeys(group)
    ensures DistinctKeys(Assigned(group, pairs, k))
  {
    var after := Assigned(group, pairs, k);
    forall a, b | 0 <= a < b < |after| ensures after[a].0 != after[b].0 {
      assert after[a].0 == Keys(after)[a] == Keys(group)[a] == group[a].0;
      assert after[b].0 == Keys(after)[b] == Keys(group)[b] == group[b].0;
    }
  }

  /** The check `execute` makes on the chosen file: the text after its last
      dot, lower-cased, must be "json". */
  predicate IsJsonPath(path: string) {
    var parts := Split(path, '.');
    Lower(parts[|parts| - 1]) == "json"
  }

  /** A path ending in ".json" or ".JSON" passes; one ending in a dot, or one
      whose last dot is followed by anything else, does not. */
  lemma JsonExtension(stem: string, ext: string)
    requires '.' !in ext
    ensures IsJsonPath(stem + "." + ext) <==> Lower(ext) == "json"
  {
    var parts := Split(stem, '.');
    SplitJoin(parts + [ext], '.');
    JoinSplit(stem, '.');
    JoinAppend(parts, ext, '.');
    assert forall i :: 0 <= i < |parts + [ext]| ==> '.' !in (parts + [ext])[i];
    assert Join(parts + [ext], '.') == stem + "." + ext;
  }

  /** `load_configuration`: select the algorithm the file names and assign
      each of its properties.  The menu choice is set before the property
      group is looked up, and property assignments made before a failure
      stay. */
  function LoadConfiguration(config: Value, scene: Scene): (r: Run)
    ensures !config.Dict? ==> r == Run(scene, Some(AttributeError("get")))
    ensures config.Dict? && Lookup(config.entries, "algorithm") in {None, Some(Nothing)} ==>
              r == Run(scene, Some(RuntimeError(MissingAlgorithmField)))
    ensures r.scene.active == scene.active && r.scene.others == scene.others
    ensures r.error.None? ==> && config.Dict?
                              && Lookup(config.entries, "algorithm").Some?
                              && Lookup(config.entries, "algorithm").value.Str?
                              && var name := Lookup(config.entries, "algorithm").value.s;
                              && r.scene.choice == Upper(name)
                              && name in scene.groups && r.scene.groups.Keys == scene.groups.Keys
  {
    if !config.Dict? then Run(scene, Some(AttributeError("get")))
    else
      match Lookup(config.entries, "algorithm")
      case None => Run(scene, Some(RuntimeError(MissingAlgorithmField)))
      case Some(algorithm) =>
        if algorithm == Nothing then Run(scene, Some(RuntimeError(MissingAlgorithmField)))
        else if !algorithm.Str? then Run(scene, Some(AttributeError("upper")))
        else
          var name := algorithm.s;
          var chosen := scene.(choice := Upper(name));
          if name !in chosen.groups then Run(chosen, Some(AttributeError(name)))
          else
            match Lookup(config.entries, "properties")
            case None => Run(chosen, Some(KeyError(Str("properties"))))
            case Some(properties) =>
              if !properties.Dict? then Run(chosen, Some(AttributeError("items")))
              else
                var (after, error) := SetAll(chosen.groups[name], properties.entries);
                Run(chosen.(groups := chosen.groups[name := after]), error)
  }

  /** `execute` of the load operator: `parsed` stands for opening the file
      and `json.load`, which may raise. */
  function LoadFile(path: string, parsed: Outcome<Value>, scene: Scene): (r: Run)
    ensures !IsJsonPath(path) ==> r == Run(scene, Some(RuntimeError(NotJson)))
    ensures IsJsonPath(path) && parsed.Err? ==> r == Run(scene, Some(parsed.error))
    ensures IsJsonPath(path) && parsed.Ok? ==> r == LoadConfiguration(parsed.value, scene)
  {
    if !IsJsonPath(path) then Run(scene, Some(RuntimeError(NotJson)))
    else
      match parsed
      case Err(e) => Run(scene, Some(e))
      case Ok(config) => LoadConfiguration(config, scene)
  }

  /** The characters `str.maketrans` maps to '_' in a file name. */
  predicate IsFileNameSeparator(c: char) {
    c == '[' || c == ']' || c == '.' || c == ','
  }

  /** `text.translate(...)`: brackets, dots and commas become underscores. */
  function Translate(text: string): (r: string)
    ensures |r| == |text|
    ensures forall k :: 0 <= k < |text| ==> !IsFileNameSeparator(r[k])
    ensures forall k :: 0 <= k < |text| && !IsFileNameSeparator(text[k]) ==> r[k] == text[k]
  {
    seq(|text|, k requires 0 <= k < |text| => if IsFileNameSeparator(text[k]) then '_' else text[k])
  }

  /** A vector's first three components, rounded to two decimals by
      `round2`; IndexError when it has fewer. */
  function RoundedComponents(cs: seq<real>, round2: real -> real): (r: Outcome<Value>)
    ensures r.Ok? <==> |cs| >= 3
    ensures r.Ok? ==> r.value.List? && |r.value.items| == 3
                      && forall k :: 0 <= k < 3 ==> r.value.items[k] == Float(round2(cs[k]))
    ensures r.Err? ==> r.error == IndexError
  {
    if |cs| < 3 then Err(IndexError)
    else Ok(List([Float(round2(cs[0])), Float(round2(cs[1])), Float(round2(cs[2]))]))
  }

  /** The value written for a float (rounded to two decimals by `round2`) or
      for a mathutils Color or Vector (its first three components, rounded);
      `None` for every other value, a plain property array included, which
      neither branch of the export handles. */
  function Rounded(value: Value, round2: real -> real): (r: Option<Outcome<Value>>)
    ensures r.None? <==> !value.Float? && !(value.Vector? && value.wrapped)
    ensures value.Float? ==> r == Some(Ok(Float(round2(value.r))))
    ensures value.Vector? && value.wrapped && |value.components| >= 3 ==>
              r == Some(Ok(List([Float(round2(value.components[0])), Float(round2(value.components[1])),
                                 Float(round2(value.components[2]))])))
    ensures value.Vector? && value.wrapped && |value.components| < 3 ==> r == Some(Err(IndexError))
  {
    match value
    case Float(x) => Some(Ok(Float(round2(x))))
    case Vector(cs, wrapped) => if wrapped then Some(RoundedComponents(cs, round2)) else None
    case _ => None
  }

  /** One property's contribution to the file name. */
  function NamePart(key: string, result: Value, str: Value -> string): string {
    key + "_" + Translate(str(result)) + "_"
  }

  /** The export loop as written: for a value that is neither a float nor a
      mathutils Color or Vector, `result` keeps whatever the previous property left in it, and
      is unbound on the first one.  Returns the written properties and the
      file-name parts. */
  function ExportLoopAsWritten(keys: seq<string>, group: Dict<string, Value>, result: Option<Value>,
                               round2: real -> real, str: Value -> string)
    : (r: Outcome<(Dict<string, Value>, string)>)
    ensures r.Ok? ==> Keys(r.value.0) == keys
  {
    if |keys| == 0 then Ok(([], ""))
    else
      var value :- GetAttr(group, keys[0]);
      var current :- match Rounded(value, round2)
                     case Some(o) => o
                     case None => if result.Some? then Ok(result.value) else Err(UnboundLocalError("result"));
      var rest :- ExportLoopAsWritten(keys[1..], group, Some(current), round2, str);
      Ok(([(keys[0], current)] + rest.0, NamePart(keys[0], current, str) + rest.1))
  }

  /** The export loop as intended: a value that is neither a float nor a
      vector is written unchanged, and every vector is rounded, whether
      Blender wraps it or not. */
  function ExportLoop(keys: seq<string>, group: Dict<string, Value>, round2: real -> real, str: Value -> string)
    : (r: Outcome<(Dict<string, Value>, string)>)
    ensures r.Ok? ==> Keys(r.value.0) == keys
    ensures r.Ok? ==> forall i :: 0 <= i < |keys| ==> keys[i] in Keys(group)
    ensures (forall i :: 0 <= i < |keys| ==> Lookup(group, keys[i]).Some? && Exported(Lookup(group, keys[i]).value, round2).Ok?)
              ==> r.Ok?
    ensures r.Ok? ==> forall i :: 0 <= i < |keys| ==>
              Lookup(group, keys[i]).Some? && Exported(Lookup(group, keys[i]).value, round2) == Ok(r.value.0[i].1)
  {
    if |keys| == 0 then Ok(([], ""))
    else
      var value :- GetAttr(group, keys[0]);
      var current :- Exported(value, round2);
      var rest :- ExportLoop(keys[1..], group, round2, str);
      assert forall i :: 1 <= i < |keys| ==> keys[i] == keys[1..][i - 1];
      Ok(([(keys[0], current)] + rest.0, NamePart(keys[0], current, str) + rest.1))
  }

  /** The value the intended export writes for a property value. */
  function Exported(value: Value, round2: real -> real): (r: Outcome<Value>)
    ensures !value.Float? && !value.Vector? ==> r == Ok(value)
    ensures value.Float? ==> r == Ok(Float(round2(value.r)))
    ensures value.Vector? && |value.components| >= 3 ==>
              r == Ok(List([Float(round2(value.components[0])), Float(round2(value.components[1])),
                            Float(round2(value.components[2]))]))
    ensures value.Vector? && |value.components| < 3 ==> r == Err(IndexError)
  {
    match value
    case Vector(cs, _) => RoundedComponents(cs, round2)
    case _ =>
      match Rounded(value, round2)
      case Some(o) => o
      case None => Ok(value)
  }

  /** `get_current_configuration` and its file name, from the loop given:
      the name is the algorithm identifier followed by each property's name
      and value, separated by underscores. */
  function ExportWith(scene: Scene, reg: Registry,
                      loop: (seq<string>, Dict<string, Value>) -> Outcome<(Dict<string, Value>, string)>)
    : (r: Outcome<(string, Value)>)
    ensures Lower(scene.choice) !in scene.groups ==>
              r == Ok((Lower(scene.choice), Value.Dict([("algorithm", Str(Lower(scene.choice)))])))
    ensures r.Ok? ==> |r.value.0| >= |Lower(scene.choice)| && r.value.0[..|Lower(scene.choice)|] == Lower(scene.choice)
  {
    var name := Lower(scene.choice);
    match GroupValues(scene, name)
    case None =>
      assert (name + "_")[..|name + "_"| - 1] == name;
      Ok((name, Value.Dict([("algorithm", Str(name))])))
    case Some(group) =>
      if name !in reg.records then Err(KeyError(Str(name)))
      else
        var written :- loop(Keys(reg.records[name].defaults), group);
        var filename := name + "_" + written.1;
        assert filename[..|name|] == name;
        Ok((filename[..|filename| - 1], Value.Dict([("algorithm", Str(name)), ("properties", Value.Dict(written.0))])))
  }

  /** The export as the source writes it. */
  function ExportAsWritten(scene: Scene, reg: Registry, round2: real -> real, str: Value -> string)
    : (r: Outcome<(string, Value)>)
    ensures Lower(scene.choice) !in scene.groups ==> r.Ok?
  {
    ExportWith(scene, reg, (keys, group) => ExportLoopAsWritten(keys, group, None, round2, str))
  }

  /** The export as intended: every property's own value is written. */
  function ExportConfiguration(scene: Scene, reg: Registry, round2: real -> real, str: Value -> string)
    : (r: Outcome<(string, Value)>)
    ensures Lower(scene.choice) !in scene.groups ==> r.Ok?
  {
    ExportWith(scene, reg, (keys, group) => ExportLoop(keys, group, round2, str))
  }

  /** As written, exporting an algorithm whose first property is an option
      menu, an integer, a boolean or a float array Blender does not wrap as
      a Color or Vector raises UnboundLocalError. */
  lemma FirstPlainValueIsUnbound(scene: Scene, reg: Registry, round2: real -> real, str: Value -> string)
    requires Lower(scene.choice) in scene.groups && Lower(scene.choice) in reg.records
    requires var defaults := reg.records[Lower(scene.choice)].defaults;
             && |defaults| > 0
             && Lookup(scene.groups[Lower(scene.choice)], defaults[0].0).Some?
             && var v := Lookup(scene.groups[Lower(scene.choice)], defaults[0].0).value;
             && (v.Str? || v.Int? || v.Bool? || (v.Vector? && !v.wrapped))
    ensures ExportAsWritten(scene, reg, round2, str) == Err(UnboundLocalError("result"))
    ensures ExportConfiguration(scene, reg, round2, str).Ok? || ExportConfiguration(scene, reg, round2, str).error != UnboundLocalError("result")
  {
    var name := Lower(scene.choice);
    var keys := Keys(reg.records[name].defaults);
    assert keys[0] == reg.records[name].defaults[0].0;
    assert ExportLoopAsWritten(keys, scene.groups[name], None, round2, str) == Err(UnboundLocalError("result"));
    ExportLoopNeverUnbound(keys, scene.groups[name], round2, str);
  }

  /** The intended loop fails only on a missing property or a short vector. */
  lemma {:induction false} ExportLoopNeverUnbound(keys: seq<string>, group: Dict<string, Value>, round2: real -> real,
                                                  str: Value -> string)
    ensures ExportLoop(keys, group, round2, str).Err? ==>
              ExportLoop(keys, group, round2, str).error in {IndexError} + set k | k in keys :: AttributeError(k)
  {
    if |keys| > 0 {
      ExportLoopNeverUnbound(keys[1..], group, round2, str);
    }
  }

  /** As written, an integer after a float is exported as the float's
      rounded value. */
  lemma StaleValueExported(x: real, n: int, round2: real -> real, str: Value -> string)
    ensures var group := [("ratio", Float(x)), ("iterations", Int(n))];
            var r := ExportLoopAsWritten(["ratio", "iterations"], group, None, round2, str);
            && r.Ok? && r.value.0 == [("ratio", Float(round2(x))), ("iterations", Float(round2(x)))]
            && ExportLoop(["ratio", "iterations"], group, round2, str).Ok?
            && ExportLoop(["ratio", "iterations"], group, round2, str).value.0
               == [("ratio", Float(round2(x))), ("iterations", Int(n))]
  {
    var group := [("ratio", Float(x)), ("iterations", Int(n))];
    var keys := ["ratio", "iterations"];
    assert keys[1..] == ["iterations"] && keys[1..][1..] == [];
    assert GetAttr(group, "ratio") == Ok(Float(x));
    assert "ratio" != "iterations" by { assert "ratio"[0] != "iterations"[0]; }
    assert group[1..] == [("iterations", Int(n))];
    assert Lookup(group[1..], "iterations") == Some(Int(n));
    assert Lookup(group, "iterations") == Lookup(group[1..], "iterations");
    assert GetAttr(group, "iterations") == Ok(Int(n));
    var one: seq<string> := ["iterations"];
    assert one[1..] == [] && one[0] == "iterations";
    assert ExportLoopAsWritten([], group, Some(Float(round2(x))), round2, str) == Ok(([], ""));
    assert ExportLoop([], group, round2, str) == Ok(([], ""));
    assert NamePart("iterations", Float(round2(x)), str) + "" == NamePart("iterations", Float(round2(x)), str);
    assert NamePart("iterations", Int(n), str) + "" == NamePart("iterations", Int(n), str);
    assert Rounded(Int(n), round2) == None;
    assert Exported(Int(n), round2) == Ok(Int(n));
    assert ExportLoop(one, group, round2, str) == Ok(([("iterations", Int(n))] + [], NamePart("iterations", Int(n), str) + ""));
    assert [("iterations", Int(n))] + [] == [("iterations", Int(n))];
    assert [("iterations", Float(round2(x)))] + [] == [("iterations", Float(round2(x)))];
    assert ExportLoopAsWritten(one, group, Some(Float(round2(x))), round2, str)
        == Ok(([("iterations", Float(round2(x)))] + [], NamePart("iterations", Float(round2(x)), str) + ""));
    var second := ExportLoopAsWritten(["iterations"], group, Some(Float(round2(x))), round2, str);
    assert second == Ok(([("iterations", Float(round2(x)))], NamePart("iterations", Float(round2(x)), str)));
    var fixed := ExportLoop(["iterations"], group, round2, str);
    assert fixed == Ok(([("iterations", Int(n))], NamePart("iterations", Int(n), str)));
  }

  /** What a property holds after its exported value is loaded back: floats
      and vector components rounded to two decimals, anything else as it was. */
  function Restored(v: Value, round2: real -> real): Value {
    match v
    case Float(x) => Float(round2(x))
    case Vector(cs, wrapped) => Vector(seq(|cs|, k requires 0 <= k < |cs| => round2(cs[k])), wrapped)
    case _ => v
  }

  /** Loading one exported value back into the property it came from. */
  lemma ExportedRestores(v: Value, round2: real -> real)
    requires v.Vector? ==> |v.components| == 3
    ensures Exported(v, round2).Ok?
    ensures Coerce(v, Exported(v, round2).value) == Ok(Restored(v, round2))
  {
    if v.Vector? {
      var cs := v.components;
      var xs := [Float(round2(cs[0])), Float(round2(cs[1])), Float(round2(cs[2]))];
      assert Exported(v, round2) == Ok(List(xs));
      assert forall k :: 0 <= k < 3 ==> PyFloatOf(xs[k]) == Ok(round2(cs[k]));
      var r := VectorOf(xs, 3, v.wrapped);
      assert r.Ok?;
      assert r.value.components == seq(|cs|, k requires 0 <= k < |cs| => round2(cs[k]));
    }
  }

  /** Exporting a configuration and loading the file back selects the same
      algorithm and gives every property its own value again, floats and
      vector components rounded to two decimals; the other groups are left
      alone. */
  lemma ExportThenLoad(scene: Scene, reg: Registry, round2: real -> real, str: Value -> string)
    requires Lower(scene.choice) in scene.groups && Lower(scene.choice) in reg.records
    requires var group := scene.groups[Lower(scene.choice)];
             var defaults := reg.records[Lower(scene.choice)].defaults;
             && DistinctKeys(group) && |defaults| == |group|
             && forall i :: 0 <= i < |group| ==>
                  defaults[i].0 == group[i].0 && (group[i].1.Vector? ==> |group[i].1.components| == 3)
    ensures ExportConfiguration(scene, reg, round2, str).Ok?
    ensures var name := Lower(scene.choice);
            var group := scene.groups[name];
            var loaded := LoadConfiguration(ExportConfiguration(scene, reg, round2, str).value.1, scene);
            && loaded.error.None?
            && loaded.scene.choice == Upper(name)
            && loaded.scene.groups
               == scene.groups[name := seq(|group|, i requires 0 <= i < |group| => (group[i].0, Restored(group[i].1, round2)))]
  {
    var name := Lower(scene.choice);
    var group := scene.groups[name];
    var props := ExportWritesEachValue(scene, reg, round2, str);
    forall i | 0 <= i < |group|
      ensures Coerce(group[i].1, props[i].1) == Ok(Restored(group[i].1, round2))
    {
      ExportedRestores(group[i].1, round2);
    }
    LoadAssignsInOrder(scene, name, props);
    assert Assigned(group, props, |group|)
        == seq(|group|, i requires 0 <= i < |group| => (group[i].0, Restored(group[i].1, round2)));
  }

  /** The file written for a group laid out like its catalogue record holds
      the algorithm's identifier and each property's exported value, in the
      group's order. */
  lemma ExportWritesEachValue(scene: Scene, reg: Registry, round2: real -> real, str: Value -> string)
    returns (props: Dict<string, Value>)
    requires Lower(scene.choice) in scene.groups && Lower(scene.choice) in reg.records
    requires var group := scene.groups[Lower(scene.choice)];
             var defaults := reg.records[Lower(scene.choice)].defaults;
             && DistinctKeys(group) && |defaults| == |group|
             && forall i :: 0 <= i < |group| ==>
                  defaults[i].0 == group[i].0 && (group[i].1.Vector? ==> |group[i].1.components| == 3)
    ensures var name := Lower(scene.choice);
            var group := scene.groups[name];
            && ExportConfiguration(scene, reg, round2, str).Ok?
            && ExportConfiguration(scene, reg, round2, str).value.1
               == Value.Dict([("algorithm", Str(name)), ("properties", Value.Dict(props))])
            && |props| == |group|
            && forall i :: 0 <= i < |group| ==>
                 props[i].0 == group[i].0 && Exported(group[i].1, round2) == Ok(props[i].1)
  {
    var name := Lower(scene.choice);
    var group := scene.groups[name];
    var keys := Keys(reg.records[name].defaults);
    forall i | 0 <= i < |keys|
      ensures Lookup(group, keys[i]) == Some(group[i].1) && Exported(group[i].1, round2).Ok?
    {
      LookupDistinct(group, i);
      ExportedRestores(group[i].1, round2);
    }
    var written := ExportLoop(keys, group, round2, str);
    props := written.value.0;
    assert forall i :: 0 <= i < |keys| ==> props[i].0 == Keys(props)[i] == keys[i];
  }

  /** Loading a file that names a group and assigns each of its properties,
      in order, values of the right types. */
  lemma LoadAssignsInOrder(scene: Scene, name: string, props: Dict<string, Value>)
    requires name in scene.groups
    requires var group := scene.groups[name];
             && DistinctKeys(group) && |props| == |group|
             && forall i :: 0 <= i < |group| ==> props[i].0 == group[i].0 && Coerce(group[i].1, props[i].1).Ok?
    ensures var group := scene.groups[name];
            LoadConfiguration(Value.Dict([("algorithm", Str(name)), ("properties", Value.Dict(props))]), scene)
            == Run(scene.(choice := Upper(name), groups := scene.groups[name := Assigned(group, props, |group|)]), None)
  {
    var group := scene.groups[name];
    var data := Value.Dict([("algorithm", Str(name)), ("properties", Value.Dict(props))]);
    assert "algorithm" != "properties" by { assert "algorithm"[0] != "properties"[0]; }
    assert Lookup(data.entries, "algorithm") == Some(Str(name));
    assert Lookup(data.entries, "properties") == Some(Value.Dict(props));
    assert Assigned(group, props, 0) == group;
    SetAllInOrder(group, props, 0);
    assert props[0..] == props;
  }
}

=== FILE: description.dfy ===
/** The tooltip description of an algorithm (`create_description`): the
    catalogue text is split on spaces and wrapped greedily into lines of at
    most 59 characters, at most five lines are closed inside the loop, and the
    final line gets an ellipsis once there are five lines or more. */
module Description {
  import opened Strings

  /** `max_length` and `max_row_length` of the source; the loop bound is
      their quotient. */
  const MaxLength: nat := 300
  const MaxRowLength: nat := 60
  const MaxLines: nat := MaxLength / MaxRowLength

  /** The text of `current_line` after it received the words `ws`: each word
      followed by one space. */
  function Spaced(ws: seq<string>): string {
    if |ws| == 0 then "" else Spaced(ws[..|ws| - 1]) + ws[|ws| - 1] + " "
  }

  /** The `while` loop: `words[wc..]` remain to be read, `current` is the
      open line and `lines` the closed ones.  The source's counter `i` always
      equals `|lines|`, since it is incremented exactly when a line is closed. */
  function WrapLoop(words: seq<string>, wc: nat, current: string, lines: seq<string>)
    : (r: (seq<string>, string))
    requires wc <= |words|
    ensures |lines| <= |r.0|
    ensures |lines| <= MaxLines ==> |r.0| <= MaxLines
    decreases |words| - wc
  {
    if |lines| < MaxLines && wc < |words| then
      var word := words[wc];
      if |current| + |word| + 1 <= MaxRowLength then
        WrapLoop(words, wc + 1, current + word + " ", lines)
      else
        WrapLoop(words, wc + 1, word + " ", lines + [Strip(current)])
    else (lines, current)
  }

  /** The lines as they stand after the loop, before the ellipsis rule. */
  function Wrapped(content: string): (r: seq<string>)
    ensures 1 <= |r| <= MaxLines + 1
  {
    var (lines, current) := WrapLoop(Split(content, ' '), 0, "", []);
    lines + [Strip(current)]
  }

  /** Python's `s[:-3]`. */
  function DropLast3(s: string): (r: string)
    ensures |r| == if |s| >= 3 then |s| - 3 else 0
    ensures r == s[..|r|]
  {
    if |s| >= 3 then s[..|s| - 3] else ""
  }

  /** `create_description`: one to six lines; every line but the last is
      the wrapped line unchanged; with five lines or more the last line loses
      its last three characters and ends with "...". */
  function CreateDescription(content: string): (r: seq<string>)
    ensures 1 <= |r| <= MaxLines + 1
    ensures |r| == |Wrapped(content)|
    ensures forall i :: 0 <= i < |r| - 1 ==> r[i] == Wrapped(content)[i]
    ensures |r| < MaxLines ==> r == Wrapped(content)
    ensures MaxLines <= |r| ==> r[|r| - 1] == DropLast3(Wrapped(content)[|r| - 1]) + "..."
  {
    Ellipsize(Wrapped(content))
  }

  /** The ellipsis rule applied to the wrapped lines. */
  function Ellipsize(lines: seq<string>): (r: seq<string>)
    requires |lines| >= 1
    ensures |r| == |lines|
    ensures forall i :: 0 <= i < |r| - 1 ==> r[i] == lines[i]
    ensures |r| < MaxLines ==> r == lines
    ensures MaxLines <= |r| ==> r[|r| - 1] == DropLast3(lines[|r| - 1]) + "..."
  {
    if |lines| >= MaxLines then
      lines[..|lines| - 1] + [DropLast3(lines[|lines| - 1]) + "..."]
    else lines
  }

  // ---------------------------------------------------------------------
  // Reference description of the wrapping: runs of whole words.

  /** A word the wrapping never has to cut: non-empty, free of white space,
      and short enough to fit a line on its own. */
  predicate WellFormedWord(w: string) {
    0 < |w| < MaxRowLength && forall k :: 0 <= k < |w| ==> !IsSpace(w[k])
  }

  /** The words, in order, of a sequence of word runs. */
  function Concat(groups: seq<seq<string>>): seq<string> {
    if |groups| == 0 then [] else Concat(groups[..|groups| - 1]) + groups[|groups| - 1]
  }

  /** The lines a sequence of word runs prints as: words joined by single spaces. */
  function Lines(groups: seq<seq<string>>): (r: seq<string>)
    ensures |r| == |groups|
    ensures forall i :: 0 <= i < |groups| ==> r[i] == Join(groups[i], ' ')
  {
    seq(|groups|, i requires 0 <= i < |groups| => Join(groups[i], ' '))
  }

  /** A run of words that prints within one line. */
  predicate Fits(g: seq<string>) {
    |g| > 0 && |Join(g, ' ')| < MaxRowLength
  }

  /** Greedy choice: the run `g` could not also take the first word of `h`. */
  predicate Overflows(g: seq<string>, h: seq<string>) {
    |h| > 0 && |Join(g, ' ')| + 1 + |h[0]| >= MaxRowLength
  }

  /** Every run fits a line and each run was closed only because the next
      word would not fit. */
  predicate GreedyLayout(groups: seq<seq<string>>) {
    && (forall i :: 0 <= i < |groups| ==> Fits(groups[i]))
    && (forall i :: 0 <= i < |groups| - 1 ==> Overflows(groups[i], groups[i + 1]))
  }

  lemma {:induction false} SpacedIsJoinPlusSpace(ws: seq<string>)
    requires |ws| > 0
    ensures Spaced(ws) == Join(ws, ' ') + " "
  {
    if |ws| > 1 {
      var init := ws[..|ws| - 1];
      SpacedIsJoinPlusSpace(init);
      JoinAppend(init, ws[|ws| - 1], ' ');
      assert init + [ws[|ws| - 1]] == ws;
    } else {
      assert ws[..0] == [];
    }
  }

  lemma {:induction false} JoinEnds(ws: seq<string>)
    requires |ws| > 0
    requires forall i :: 0 <= i < |ws| ==> WellFormedWord(ws[i])
    ensures var j := Join(ws, ' ');
            |ws[0]| > 0 && |ws[|ws| - 1]| > 0 && |j| > 0 && j[0] == ws[0][0] && j[|j| - 1] == ws[|ws| - 1][|ws[|ws| - 1]| - 1]
  {
    if |ws| > 1 {
      var init := ws[..|ws| - 1];
      JoinAppend(init, ws[|ws| - 1], ' ');
      assert init + [ws[|ws| - 1]] == ws;
      JoinEnds(init);
    }
  }

  /** Closing a line strips it back to its words joined by single spaces. */
  lemma StripSpaced(ws: seq<string>)
    requires |ws| > 0
    requires forall i :: 0 <= i < |ws| ==> WellFormedWord(ws[i])
    ensures Strip(Spaced(ws)) == Join(ws, ' ')
  {
    SpacedIsJoinPlusSpace(ws);
    JoinEnds(ws);
    StripTrailingSpace(Join(ws, ' '));
  }

  /** The loop invariant: the closed lines and the open line are whole-word
      runs that together hold the words read so far, laid out greedily. */
  predicate LoopInvariant(words: seq<string>, wc: nat, groups: seq<seq<string>>, cur: seq<string>)
    requires wc <= |words|
  {
    && Concat(groups) + cur == words[..wc]
    && |groups| <= MaxLines
    && (if wc == 0 then groups == [] && cur == []
        else |cur| > 0 && GreedyLayout(groups + [cur]))
  }

  /** The words the open line holds are among the words read, so they are well formed. */
  lemma CurrentWordsWellFormed(words: seq<string>, wc: nat, groups: seq<seq<string>>, cur: seq<string>)
    requires forall i :: 0 <= i < |words| ==> WellFormedWord(words[i])
    requires wc <= |words|
    requires Concat(groups) + cur == words[..wc]
    ensures forall i :: 0 <= i < |cur| ==> WellFormedWord(cur[i])
  {
    forall i | 0 <= i < |cur| ensures WellFormedWord(cur[i]) {
      assert cur[i] == (Concat(groups) + cur)[|Concat(groups)| + i];
    }
  }

  /** A line of one word prints as the word, and its open text is the word
      and a space. */
  lemma OneWord(w: string)
    ensures Join([w], ' ') == w
    ensures Spaced([w]) == w + " "
  {
    assert [w][..0] == [];
  }

  /** Reading one more word extends the prefix read by that word. */
  lemma TakeOneMore<T>(s: seq<T>, n: nat)
    requires n < |s|
    ensures s[..n + 1] == s[..n] + [s[n]]
  {
  }

  /** Loop step on an empty line: the first word always fits. */
  lemma StepFirstWord(words: seq<string>, wc: nat, groups: seq<seq<string>>)
    requires forall i :: 0 <= i < |words| ==> WellFormedWord(words[i])
    requires wc < |words|
    requires LoopInvariant(words, wc, groups, [])
    ensures |Spaced([])| + |words[wc]| + 1 <= MaxRowLength
    ensures Spaced([words[wc]]) == Spaced([]) + words[wc] + " "
    ensures LoopInvariant(words, wc + 1, groups, [words[wc]])
  {
    var word := words[wc];
    TakeOneMore(words, wc);
    OneWord(word);
    assert wc == 0;
    assert groups + [[word]] == [[word]];
  }

  /** Loop step when the word fits on the open line. */
  lemma StepFits(words: seq<string>, wc: nat, groups: seq<seq<string>>, cur: seq<string>)
    requires forall i :: 0 <= i < |words| ==> WellFormedWord(words[i])
    requires wc < |words|
    requires LoopInvariant(words, wc, groups, cur)
    requires cur != []
    requires |Spaced(cur)| + |words[wc]| + 1 <= MaxRowLength
    ensures Spaced(cur + [words[wc]]) == Spaced(cur) + words[wc] + " "
    ensures LoopInvariant(words, wc + 1, groups, cur + [words[wc]])
  {
    var word := words[wc];
    var ext := cur + [word];
    TakeOneMore(words, wc);
    assert ext[..|ext| - 1] == cur;
    SpacedIsJoinPlusSpace(cur);
    JoinAppend(cur, word, ' ');
    assert Fits(ext);
    var old_ := groups + [cur];
    var layout := groups + [ext];
    forall i | 0 <= i < |layout| - 1 ensures Overflows(layout[i], layout[i + 1]) {
      assert old_[i] == layout[i];
      if i < |layout| - 2 {
        assert old_[i + 1] == layout[i + 1];
      } else {
        assert Overflows(old_[i], old_[i + 1]);
        assert old_[i + 1][0] == layout[i + 1][0];
      }
    }
    forall i | 0 <= i < |layout| ensures Fits(layout[i]) {
      if i < |groups| { assert old_[i] == layout[i]; }
    }
  }

  lemma LinesAppend(groups: seq<seq<string>>, g: seq<string>)
    ensures Lines(groups + [g]) == Lines(groups) + [Join(g, ' ')]
  {
  }

  lemma ConcatAppend(groups: seq<seq<string>>, g: seq<string>)
    ensures Concat(groups + [g]) == Concat(groups) + g
  {
    assert (groups + [g])[..|groups|] == groups;
  }

  /** A greedy layout stays greedy when a run that fits, and that the last
      run could not absorb the first word of, is added. */
  lemma LayoutExtend(layout: seq<seq<string>>, g: seq<string>)
    requires |layout| > 0
    requires GreedyLayout(layout)
    requires Fits(g) && Overflows(layout[|layout| - 1], g)
    ensures GreedyLayout(layout + [g])
  {
    var l' := layout + [g];
    forall i | 0 <= i < |l'| - 1 ensures Overflows(l'[i], l'[i + 1]) {
      if i < |layout| - 1 {
        assert layout[i] == l'[i] && layout[i + 1] == l'[i + 1];
      }
    }
    forall i | 0 <= i < |l'| ensures Fits(l'[i]) {
      if i < |layout| { assert layout[i] == l'[i]; }
    }
  }

  /** Loop step when the word overflows: the open line is closed. */
  lemma StepOverflows(words: seq<string>, wc: nat, groups: seq<seq<string>>, cur: seq<string>)
    requires forall i :: 0 <= i < |words| ==> WellFormedWord(words[i])
    requires wc < |words|
    requires LoopInvariant(words, wc, groups, cur)
    requires |groups| < MaxLines
    requires cur != []
    requires |Spaced(cur)| + |words[wc]| + 1 > MaxRowLength
    ensures Lines(groups) + [Strip(Spaced(cur))] == Lines(groups + [cur])
    ensures Spaced([words[wc]]) == words[wc] + " "
    ensures LoopInvariant(words, wc + 1, groups + [cur], [words[wc]])
  {
    var word := words[wc];
    var groups' := groups + [cur];
    assert Lines(groups) + [Strip(Spaced(cur))] == Lines(groups') by {
      CurrentWordsWellFormed(words, wc, groups, cur);
      StripSpaced(cur);
      LinesAppend(groups, cur);
    }
    OneWord(word);
    assert Concat(groups' + [[word]]) == words[..wc + 1] by {
      TakeOneMore(words, wc);
      ConcatAppend(groups, cur);
      ConcatAppend(groups', [word]);
    }
    assert GreedyLayout(groups' + [[word]]) by {
      assert Overflows(cur, [word]) by {
        SpacedIsJoinPlusSpace(cur);
      }
      LayoutExtend(groups', [word]);
    }
  }

  /** One iteration of the loop on whole-word runs: the next word opens the
      line, joins it, or closes it and opens the next. */
  function Next(words: seq<string>, wc: nat, groups: seq<seq<string>>, cur: seq<string>)
    : (r: (seq<seq<string>>, seq<string>))
    requires wc < |words|
    ensures r.1 != [] && r.1[|r.1| - 1] == words[wc]
    ensures r.0 == groups || r.0 == groups + [cur]
  {
    var word := words[wc];
    if cur == [] then (groups, [word])
    else if |Spaced(cur)| + |word| + 1 <= MaxRowLength then (groups, cur + [word])
    else (groups + [cur], [word])
  }

  /** The runs when the loop stops, and the number of words read. */
  function Final(words: seq<string>, wc: nat, groups: seq<seq<string>>, cur: seq<string>)
    : (r: (seq<seq<string>>, seq<string>, nat))
    requires wc <= |words|
    ensures wc <= r.2 <= |words|
    decreases |words| - wc
  {
    if |groups| < MaxLines && wc < |words| then
      var (g, c) := Next(words, wc, groups, cur);
      Final(words, wc + 1, g, c)
    else (groups, cur, wc)
  }

  /** The loop keeps its invariant to the end, and stops early only after
      five closed lines. */
  lemma {:induction false} WrapLoopStructure(words: seq<string>, wc: nat, groups: seq<seq<string>>, cur: seq<string>)
    requires forall i :: 0 <= i < |words| ==> WellFormedWord(words[i])
    requires wc <= |words|
    requires LoopInvariant(words, wc, groups, cur)
    ensures var (G, C, k) := Final(words, wc, groups, cur);
            && LoopInvariant(words, k, G, C)
            && (k < |words| ==> |G| == MaxLines)
            && (|groups| < MaxLines && wc < |words| ==> wc < k)
    decreases |words| - wc, 1
  {
    if |groups| < MaxLines && wc < |words| {
      WrapLoopStructureStep(words, wc, groups, cur);
    }
  }

  /** The recursive case of `WrapLoopStructure`: one step, then the rest. */
  lemma {:induction false} WrapLoopStructureStep(words: seq<string>, wc: nat, groups: seq<seq<string>>, cur: seq<string>)
    requires forall i :: 0 <= i < |words| ==> WellFormedWord(words[i])
    requires wc < |words| && |groups| < MaxLines
    requires LoopInvariant(words, wc, groups, cur)
    ensures var (G, C, k) := Final(words, wc, groups, cur);
            && LoopInvariant(words, k, G, C)
            && (k < |words| ==> |G| == MaxLines)
            && wc < k
    decreases |words| - wc, 0
  {
    WrapStep(words, wc, groups, cur);
    var (g, c) := Next(words, wc, groups, cur);
    WrapLoopStructure(words, wc + 1, g, c);
    assert Final(words, wc, groups, cur) == Final(words, wc + 1, g, c);
  }

  /** The source's loop, run on the texts of whole-word runs, ends with the
      texts of the final runs. */
  lemma {:induction false} WrapLoopLines(words: seq<string>, wc: nat, groups: seq<seq<string>>, cur: seq<string>)
    requires forall i :: 0 <= i < |words| ==> WellFormedWord(words[i])
    requires forall i :: 0 <= i < |cur| ==> WellFormedWord(cur[i])
    requires wc <= |words|
    ensures var (G, C, k) := Final(words, wc, groups, cur);
            WrapLoop(words, wc, Spaced(cur), Lines(groups)) == (Lines(G), Spaced(C))
    decreases |words| - wc, 1
  {
    if |groups| < MaxLines && wc < |words| {
      WrapLoopLinesStep(words, wc, groups, cur);
    } else {
      assert !(|Lines(groups)| < MaxLines && wc < |words|);
    }
  }

  /** The recursive case of `WrapLoopLines`: one step, then the rest. */
  lemma {:induction false} WrapLoopLinesStep(words: seq<string>, wc: nat, groups: seq<seq<string>>, cur: seq<string>)
    requires forall i :: 0 <= i < |words| ==> WellFormedWord(words[i])
    requires forall i :: 0 <= i < |cur| ==> WellFormedWord(cur[i])
    requires wc < |words| && |groups| < MaxLines
    ensures var (G, C, k) := Final(words, wc, groups, cur);
            WrapLoop(words, wc, Spaced(cur), Lines(groups)) == (Lines(G), Spaced(C))
    decreases |words| - wc, 0
  {
    TextStep(words, wc, groups, cur);
    var (g, c) := Next(words, wc, groups, cur);
    WrapLoopLines(words, wc + 1, g, c);
    assert Final(words, wc, groups, cur) == Final(words, wc + 1, g, c);
  }

  /** The source's loop takes the same step on the texts of the runs as
      `Next` takes on the runs. */
  lemma TextStep(words: seq<string>, wc: nat, groups: seq<seq<string>>, cur: seq<string>)
    requires forall i :: 0 <= i < |words| ==> WellFormedWord(words[i])
    requires forall i :: 0 <= i < |cur| ==> WellFormedWord(cur[i])
    requires wc < |words| && |groups| < MaxLines
    ensures var (g, c) := Next(words, wc, groups, cur);
            && (forall i :: 0 <= i < |c| ==> WellFormedWord(c[i]))
            && WrapLoop(words, wc, Spaced(cur), Lines(groups)) == WrapLoop(words, wc + 1, Spaced(c), Lines(g))
  {
    var word := words[wc];
    var lines := Lines(groups);
    assert |lines| < MaxLines;
    OneWord(word);
    if cur == [] {
      assert WrapLoop(words, wc, Spaced(cur), lines) == WrapLoop(words, wc + 1, Spaced([word]), lines);
    } else if |Spaced(cur)| + |word| + 1 <= MaxRowLength {
      var ext := cur + [word];
      assert ext[..|ext| - 1] == cur;
      assert WrapLoop(words, wc, Spaced(cur), lines) == WrapLoop(words, wc + 1, Spaced(ext), lines);
    } else {
      StripSpaced(cur);
      LinesAppend(groups, cur);
      assert WrapLoop(words, wc, Spaced(cur), lines) == WrapLoop(words, wc + 1, Spaced([word]), lines + [Strip(Spaced(cur))]);
    }
  }

  /** One iteration of the loop keeps the invariant. */
  lemma WrapStep(words: seq<string>, wc: nat, groups: seq<seq<string>>, cur: seq<string>)
    requires forall i :: 0 <= i < |words| ==> WellFormedWord(words[i])
    requires wc < |words| && |groups| < MaxLines
    requires LoopInvariant(words, wc, groups, cur)
    ensures var (g, c) := Next(words, wc, groups, cur);
            LoopInvariant(words, wc + 1, g, c)
  {
    if cur == [] {
      StepFirstWord(words, wc, groups);
    } else if |Spaced(cur)| + |words[wc]| + 1 <= MaxRowLength {
      StepFits(words, wc, groups, cur);
    } else {
      StepOverflows(words, wc, groups, cur);
    }
  }

  /** With well-formed words, the wrapped lines are runs of consecutive words
      joined by single spaces, covering a prefix of the words with no word
      cut, each under 60 characters and closed greedily; words are dropped
      only once six lines have been produced. */
  lemma DescriptionLinesAreWordRuns(content: string) returns (groups: seq<seq<string>>, k: nat)
    requires forall i :: 0 <= i < |Split(content, ' ')| ==> WellFormedWord(Split(content, ' ')[i])
    ensures Wrapped(content) == Lines(groups)
    ensures GreedyLayout(groups)
    ensures 0 < k <= |Split(content, ' ')| && Concat(groups) == Split(content, ' ')[..k]
    ensures k < |Split(content, ' ')| ==> |groups| == MaxLines + 1
  {
    var words := Split(content, ' ');
    assert Spaced([]) == "" && Lines([]) == [];
    assert LoopInvariant(words, 0, [], []);
    WrapLoopStructure(words, 0, [], []);
    WrapLoopLines(words, 0, [], []);
    var (G, C, k') := Final(words, 0, [], []);
    k := k';
    CurrentWordsWellFormed(words, k, G, C);
    StripSpaced(C);
    groups := G + [C];
    LinesAppend(G, C);
    assert Wrapped(content) == Lines(G) + [Strip(Spaced(C))];
    ConcatAppend(G, C);
  }

  /** With well-formed words every line of the description, ellipsis
      included, is shorter than 60 characters. */
  lemma DescriptionLinesFitRow(content: string)
    requires forall i :: 0 <= i < |Split(content, ' ')| ==> WellFormedWord(Split(content, ' ')[i])
    ensures forall i :: 0 <= i < |CreateDescription(content)| ==> |CreateDescription(content)[i]| < MaxRowLength
  {
    var groups, k := DescriptionLinesAreWordRuns(content);
    var r := CreateDescription(content);
    var w := Wrapped(content);
    forall i | 0 <= i < |r| ensures |r[i]| < MaxRowLength {
      assert Fits(groups[i]);
      if i < |r| - 1 {
        assert r[i] == r[..|r| - 1][i] == w[..|r| - 1][i] == w[i];
      }
    }
  }

  /** The ellipsis is added exactly when there are five or more lines, even
      when every word fitted: a text of five full lines is still marked as
      truncated, and a shorter text is left untouched. */
  lemma EllipsisExactlyFromFiveLines(lines: seq<string>)
    requires |lines| >= 1
    ensures var r := Ellipsize(lines);
            |r| >= MaxLines ==> |r[|r| - 1]| >= 3 && r[|r| - 1][|r[|r| - 1]| - 3..] == "..."
    ensures Ellipsize(lines) != lines ==> |lines| >= MaxLines
  {
    var r := Ellipsize(lines);
    var last := r[|r| - 1];
    if |r| >= MaxLines {
      assert last == DropLast3(lines[|r| - 1]) + "...";
      assert last[|last| - 3..] == "...";
    }
  }
}

=== FILE: dicts.dfy ===
/** Python dictionaries, which remember insertion order, modelled as a
    sequence of key/value pairs.  Assigning an existing key replaces its value
    in place; assigning a new key appends it. */
module Dicts {
  import opened Wrappers

  type Dict<K, V> = seq<(K, V)>

  function Keys<K, V>(d: Dict<K, V>): (ks: seq<K>)
    ensures |ks| == |d|
    ensures forall i :: 0 <= i < |d| ==> ks[i] == d[i].0
  {
    if |d| == 0 then [] else [d[0].0] + Keys(d[1..])
  }

  /** Python's invariant: no key occurs twice. */
  predicate DistinctKeys<K(==), V>(d: Dict<K, V>) {
    forall i, j :: 0 <= i < j < |d| ==> d[i].0 != d[j].0
  }

  /** `d.get(k)`: the value stored under `k`, if any. */
  function Lookup<K(==), V>(d: Dict<K, V>, k: K): (r: Option<V>)
    ensures r.Some? <==> k in Keys(d)
  {
    if |d| == 0 then None
    else if d[0].0 == k then Some(d[0].1)
    else Lookup(d[1..], k)
  }

  /** `d[k] = v`. */
  function Put<K(==,!new), V>(d: Dict<K, V>, k: K, v: V): (r: Dict<K, V>)
    ensures Lookup(r, k) == Some(v)
    ensures forall k' :: k' != k ==> Lookup(r, k') == Lookup(d, k')
    ensures k in Keys(d) ==> Keys(r) == Keys(d)
    ensures k !in Keys(d) ==> Keys(r) == Keys(d) + [k]
  {
    if |d| == 0 then [(k, v)]
    else if d[0].0 == k then
      assert Keys([(k, v)] + d[1..]) == Keys(d);
      [(k, v)] + d[1..]
    else
      var rest := Put(d[1..], k, v);
      KeysCons(d[0], rest);
      [d[0]] + rest
  }

  /** The keys of a dictionary with one more pair in front. */
  lemma KeysCons<K, V>(p: (K, V), d: Dict<K, V>)
    ensures Keys([p] + d) == [p.0] + Keys(d)
  {
    assert ([p] + d)[1..] == d;
  }

  /** Assigning keeps keys distinct. */
  lemma PutKeepsDistinct<K(!new), V>(d: Dict<K, V>, k: K, v: V)
    requires DistinctKeys(d)
    ensures DistinctKeys(Put(d, k, v))
  {
    var r := Put(d, k, v);
    assert Keys(r) == Keys(d) || Keys(r) == Keys(d) + [k];
    forall i, j | 0 <= i < j < |r| ensures r[i].0 != r[j].0 {
      if k !in Keys(d) && j == |d| {
        assert r[i].0 == Keys(d)[i];
      } else {
        assert r[i].0 == Keys(r)[i] == Keys(d)[i] == d[i].0;
        assert r[j].0 == Keys(r)[j] == Keys(d)[j] == d[j].0;
      }
    }
  }

  /** Putting a fresh key is appending the pair: the dictionary keeps the
      order in which keys were first assigned. */
  lemma {:induction false} PutFreshAppends<K(!new), V>(d: Dict<K, V>, k: K, v: V)
    requires k !in Keys(d)
    ensures Put(d, k, v) == d + [(k, v)]
  {
    if |d| > 0 {
      assert d[0].0 != k by {
        assert Keys(d)[0] == d[0].0;
      }
      assert k !in Keys(d[1..]) by {
        forall i | 0 <= i < |d| - 1 ensures Keys(d[1..])[i] != k {
          assert Keys(d[1..])[i] == d[i + 1].0 == Keys(d)[i + 1];
        }
      }
      PutFreshAppends(d[1..], k, v);
      assert Put(d, k, v) == [d[0]] + Put(d[1..], k, v);
      assert [d[0]] + (d[1..] + [(k, v)]) == d + [(k, v)];
    }
  }

  /** The dictionary built by assigning the pairs one after the other
      (`for k, v in pairs: d[k] = v`, starting from `{}`). */
  function Collect<K(==,!new), V>(pairs: seq<(K, V)>): (r: Dict<K, V>)
    ensures |r| <= |pairs|
  {
    if |pairs| == 0 then []
    else
      var last := pairs[|pairs| - 1];
      Put(Collect(pairs[..|pairs| - 1]), last.0, last.1)
  }

  /** No key occurs twice in a collected dictionary. */
  lemma {:induction false} CollectDistinct<K(!new), V>(pairs: seq<(K, V)>)
    ensures DistinctKeys(Collect(pairs))
  {
    if |pairs| > 0 {
      var last := pairs[|pairs| - 1];
      CollectDistinct(pairs[..|pairs| - 1]);
      PutKeepsDistinct(Collect(pairs[..|pairs| - 1]), last.0, last.1);
    }
  }

  /** The keys of a collected dictionary depend only on the sequence of keys
      assigned, not on the values. */
  lemma {:induction false} CollectSameKeys<K(!new), V, W>(p: seq<(K, V)>, q: seq<(K, W)>)
    requires |p| == |q|
    requires forall i :: 0 <= i < |p| ==> p[i].0 == q[i].0
    ensures Keys(Collect(p)) == Keys(Collect(q))
  {
    if |p| > 0 {
      var n := |p| - 1;
      CollectSameKeys(p[..n], q[..n]);
      assert p[n].0 == q[n].0;
    }
  }

  /** Assigning pairwise distinct keys keeps every pair, in order. */
  lemma {:induction false} CollectFresh<K(!new), V>(pairs: seq<(K, V)>)
    requires forall i, j :: 0 <= i < j < |pairs| ==> pairs[i].0 != pairs[j].0
    ensures Collect(pairs) == pairs
  {
    if |pairs| > 0 {
      var n := |pairs| - 1;
      var init := pairs[..n];
      FreshPrefix(pairs);
      CollectFresh(init);
      PutFreshAppends(init, pairs[n].0, pairs[n].1);
      assert Collect(pairs) == Put(init, pairs[n].0, pairs[n].1);
      assert init + [pairs[n]] == pairs;
    }
  }

  /** With pairwise distinct keys, the pairs before the last still have
      distinct keys, none of which is the last key. */
  lemma FreshPrefix<K, V>(pairs: seq<(K, V)>)
    requires |pairs| > 0
    requires forall i, j :: 0 <= i < j < |pairs| ==> pairs[i].0 != pairs[j].0
    ensures var n := |pairs| - 1;
            && (forall i, j :: 0 <= i < j < n ==> pairs[..n][i].0 != pairs[..n][j].0)
            && pairs[n].0 !in Keys(pairs[..n])
  {
    var n := |pairs| - 1;
    var init := pairs[..n];
    forall i | 0 <= i < n ensures Keys(init)[i] != pairs[n].0 {
      assert Keys(init)[i] == init[i].0 == pairs[i].0;
    }
  }

  /** A later assignment of the same key wins: the value stored under a key
      is the one of its last pair. */
  lemma {:induction false} CollectLastWins<K(!new), V>(pairs: seq<(K, V)>, i: nat)
    requires i < |pairs|
    requires forall j :: i < j < |pairs| ==> pairs[j].0 != pairs[i].0
    ensures Lookup(Collect(pairs), pairs[i].0) == Some(pairs[i].1)
  {
    var n := |pairs| - 1;
    var init := pairs[..n];
    var c := Collect(init);
    assert Collect(pairs) == Put(c, pairs[n].0, pairs[n].1);
    if i < n {
      assert init[i] == pairs[i];
      assert forall j :: i < j < n ==> init[j] == pairs[j];
      CollectLastWins(init, i);
      assert pairs[n].0 != pairs[i].0;
      assert Lookup(Put(c, pairs[n].0, pairs[n].1), pairs[i].0) == Lookup(c, pairs[i].0);
    }
  }

  /** In a dictionary without repeated keys, each pair is found by its key. */
  lemma {:induction false} LookupDistinct<K, V>(d: Dict<K, V>, i: nat)
    requires DistinctKeys(d)
    requires i < |d|
    ensures Lookup(d, d[i].0) == Some(d[i].1)
  {
    if i > 0 {
      assert d[0].0 != d[i].0;
      assert d[1..][i - 1] == d[i];
      LookupDistinct(d[1..], i - 1);
    }
  }

  /** A key found in a dictionary is the key of one of its pairs. */
  lemma KeyIndex<K, V>(d: Dict<K, V>, k: K) returns (i: nat)
    requires k in Keys(d)
    ensures i < |d| && d[i].0 == k
  {
    var ks := Keys(d);
    i :| 0 <= i < |ks| && ks[i] == k;
  }

  /** Assigning a key already present replaces its pair where it stands. */
  lemma {:induction false} PutAt<K(!new), V>(d: Dict<K, V>, i: nat, v: V)
    requires DistinctKeys(d)
    requires i < |d|
    ensures Put(d, d[i].0, v) == d[i := (d[i].0, v)]
  {
    var k := d[i].0;
    if i == 0 {
      assert Put(d, k, v) == [(k, v)] + d[1..];
      assert [(k, v)] + d[1..] == d[0 := (k, v)];
    } else {
      assert d[0].0 != k;
      assert d[1..][i - 1] == d[i];
      assert DistinctKeys(d[1..]) by {
        forall a, b | 0 <= a < b < |d[1..]| ensures d[1..][a].0 != d[1..][b].0 {
          assert d[1..][a] == d[a + 1] && d[1..][b] == d[b + 1];
        }
      }
      assert Put(d, k, v) == [d[0]] + Put(d[1..], k, v);
      PutAt(d[1..], i - 1, v);
      UpdateTail(d, i, (k, v));
    }
  }

  /** Updating position `i` of the tail is updating position `i + 1` of the whole. */
  lemma UpdateTail<T>(s: seq<T>, i: nat, x: T)
    requires 0 < i < |s|
    ensures [s[0]] + s[1..][i - 1 := x] == s[i := x]
  {
  }
}

=== FILE: engine.dfy ===
/** `compute_algorithm`: run the chosen algorithm on the active mesh.  It
    prepares the `data` dictionary (input pipeline, MeshLab function names,
    parameter partition), hands it to the backend of the algorithm's
    language, and runs the output handlers the backend names.  Also the
    option check the panel uses to enable the run button. */
module Engine {
  import opened Wrappers
  import opened Dicts
  import opened Values
  import opened Strings
  import opened Blender
  import opened MeshAttributes
  import opened Payloads
  import opened Catalogue
  import opened Partition
  import InputPipeline
  import opened OutputHandlers

  /** The backend an algorithm runs on: pymeshlab through `PyMeshApi`, or a
      compiled library through `Router(language, name, data)`. */
  datatype Backend = MeshLabPy | Native(language: Value, name: string)

  /** `algorithm_data[0] == 1` selects pymeshlab. */
  function BackendFor(rec: Record, name: string): (b: Backend)
    ensures b == MeshLabPy <==> PyEqInt(rec.language, 1)
    ensures b.Native? ==> b.language == rec.language && b.name == name
  {
    if PyEqInt(rec.language, 1) then MeshLabPy else Native(rec.language, name)
  }

  /** `d[key]` on one of the loaded tables. */
  function Get<V>(m: map<string, V>, key: string): (r: Outcome<V>)
    ensures key in m ==> r == Ok(m[key])
    ensures key !in m ==> r == Err(KeyError(Str(key)))
  {
    if key in m then Ok(m[key]) else Err(KeyError(Str(key)))
  }

  /** The parameter dictionaries and options of the chosen algorithm: all
      empty when the scene has no property group for it. */
  function Parameters(rec: Record, table: StepTable, count: nat, group: Option<Dict<string, Value>>)
    : (r: Outcome<(seq<Dict<string, Value>>, Dict<string, Value>)>)
    ensures group.None? ==> r == Ok((seq(count, _ => []), []))
    ensures group.Some? ==> r == Partitioned(Keys(rec.defaults), rec.types, table.stepOf, count, group.value)
    ensures r.Ok? ==> |r.value.0| == count
  {
    match group
    case None => Ok((seq(count, _ => []), []))
    case Some(g) =>
      var parts :- Partitioned(Keys(rec.defaults), rec.types, table.stepOf, count, g);
      Ok(parts)
  }

  /** Everything `compute_algorithm` does before calling the backend: the
      mesh after the input pipeline, the `data` dictionary and the backend. */
  datatype Prepared = Prepared(mesh: MeshState, data: Payload, backend: Backend)

  /** The `data` dictionary `compute_algorithm` builds: the keys the input
      pipeline writes, then the MeshLab function names, then one parameter
      dictionary per step and the options dictionary, as the partition of
      the algorithm's property group fills them.  The tables are read in the
      source's order: pipeline, properties, steps. */
  function Prepare(scene: Scene, reg: Registry, triangulate: MeshState -> MeshState): (r: Outcome<Prepared>)
    requires scene.active.Some?
    ensures Lower(scene.choice) !in reg.pipelines ==> r == Err(KeyError(Str(Lower(scene.choice))))
    ensures r.Ok? <==>
              && var name := Lower(scene.choice);
              && name in reg.pipelines
              && InputPipeline.Run(reg.pipelines[name], scene.active.value, EmptyPayload, triangulate).Ok?
              && name in reg.records && name in reg.steps
              && StepCount(reg.steps[name].count).Ok?
              && Parameters(reg.records[name], reg.steps[name], StepCount(reg.steps[name].count).value,
                            GroupValues(scene, name)).Ok?
    ensures r.Ok? ==> && var name := Lower(scene.choice);
                      && name in reg.records && name in reg.steps && name in reg.pipelines
                      && var run := InputPipeline.Run(reg.pipelines[name], scene.active.value, EmptyPayload, triangulate);
                      && run.Ok?
                      && r.value.mesh == run.value.0
                      && r.value.data.(functions := None, params := None, options := None) == run.value.1
                      && r.value.backend == BackendFor(reg.records[name], name)
                      && r.value.data.functions == Some(reg.records[name].functions)
                      && StepCount(reg.steps[name].count).Ok?
                      && var count := StepCount(reg.steps[name].count).value;
                      && var parts := Parameters(reg.records[name], reg.steps[name], count, GroupValues(scene, name));
                      && parts.Ok?
                      && r.value.data.options == Some(Dict(parts.value.1))
                      && r.value.data.params.Some? && r.value.data.params.value.List?
                      && |r.value.data.params.value.items| == count
                      && (forall j :: 0 <= j < count ==> r.value.data.params.value.items[j] == Dict(parts.value.0[j]))
                      && r.value.data.decimationFactor.None?
  {
    var name := Lower(scene.choice);
    var pipeline :- Get(reg.pipelines, name);
    var prepared :- InputPipeline.Run(pipeline, scene.active.value, EmptyPayload, triangulate);
    var rec :- Get(reg.records, name);
    var table :- Get(reg.steps, name);
    var count :- StepCount(table.count);
    var parts :- Parameters(rec, table, count, GroupValues(scene, name));
    var params := List(seq(count, j requires 0 <= j < count => Dict(parts.0[j])));
    var data := prepared.1.(functions := Some(rec.functions), params := Some(params), options := Some(Dict(parts.1)));
    Ok(Prepared(prepared.0, data, BackendFor(rec, name)))
  }

  /** Each property of the chosen algorithm is sent exactly once: when the
      scene has its property group and the defaults have distinct names,
      property `i` is a key of the `options` dictionary of `data` exactly
      when its step is -1, and otherwise of the one parameter dictionary its
      step names, holding the value read from the group. */
  lemma PreparedPlacesEachProperty(scene: Scene, reg: Registry, triangulate: MeshState -> MeshState, i: nat)
    returns (d: Dest)
    requires scene.active.Some? && Prepare(scene, reg, triangulate).Ok?
    requires Lower(scene.choice) in scene.groups
    requires DistinctKeys(reg.records[Lower(scene.choice)].defaults)
    requires i < |reg.records[Lower(scene.choice)].defaults|
    ensures var name := Lower(scene.choice);
            var data := Prepare(scene, reg, triangulate).value.data;
            && SentOnce(data, Keys(reg.records[name].defaults), reg.records[name].types, reg.steps[name].stepOf,
                        scene.groups[name], i, d)
            && reg.records[name].defaults[i].0 == Keys(reg.records[name].defaults)[i]
  {
    var name := Lower(scene.choice);
    var rec := reg.records[name];
    var table := reg.steps[name];
    var count := StepCount(table.count).value;
    var names := Keys(rec.defaults);
    var g := scene.groups[name];
    var data := Prepare(scene, reg, triangulate).value.data;
    assert Parameters(rec, table, count, GroupValues(scene, name)) == Partitioned(names, rec.types, table.stepOf, count, g);
    d := SentPlacesOnce(data, names, rec.types, table.stepOf, count, g, i);
  }

  /** What "property `i` is sent exactly once, to `d`" means for a `data`
      dictionary: `d` is the options dictionary exactly when the step is
      -1, and otherwise the parameter dictionary the step names; the
      property is a key of that dictionary alone, holding the group's value,
      converted when its type is a MeshLab one. */
  predicate SentOnce(data: Payload, names: seq<string>, types: seq<string>, stepOf: seq<Value>,
                     group: Dict<string, Value>, i: nat, d: Dest)
  {
    && i < |names| && i < |stepOf|
    && data.options.Some? && data.options.value.Dict?
    && data.params.Some? && data.params.value.List?
    && var options := data.options.value.entries;
    && var params := data.params.value.items;
    && (forall j :: 0 <= j < |params| ==> params[j].Dict?)
    && (d == Options <==> PyEqInt(stepOf[i], -1))
    && (d.Step? ==> d.index < |params|)
    && (stepOf[i].Int? && 1 <= stepOf[i].i <= |params| ==> d == Step(stepOf[i].i - 1))
    && (names[i] in Keys(options) <==> d == Options)
    && (forall j :: 0 <= j < |params| ==> (names[i] in Keys(params[j].entries) <==> d == Step(j)))
    && (d == Options ==> Lookup(options, names[i]) == Lookup(group, names[i]))
    && (d.Step? ==> && i < |types| && Lookup(group, names[i]).Some?
                    && Lookup(params[d.index].entries, names[i]) == Some(Convert(types[i], Lookup(group, names[i]).value)))
  }

  /** A `data` dictionary whose `params` and `options` are the partition of
      the group sends each property exactly once. */
  lemma SentPlacesOnce(data: Payload, names: seq<string>, types: seq<string>, stepOf: seq<Value>, count: nat,
                       group: Dict<string, Value>, i: nat) returns (d: Dest)
    requires forall a, b :: 0 <= a < b < |names| ==> names[a] != names[b]
    requires i < |names|
    requires Partitioned(names, types, stepOf, count, group).Ok?
    requires data.options == Some(Dict(Partitioned(names, types, stepOf, count, group).value.1))
    requires data.params.Some? && data.params.value.List? && |data.params.value.items| == count
    requires forall j :: 0 <= j < count ==>
               data.params.value.items[j] == Dict(Partitioned(names, types, stepOf, count, group).value.0[j])
    ensures SentOnce(data, names, types, stepOf, group, i, d)
  {
    d := PartitionedPlacesOnce(names, types, stepOf, count, group, i);
  }

  /** The active mesh once preparation ends, whether it succeeds or not: the
      mesh the input pipeline left, which is the prepared one on success and
      keeps a triangulation made before a failing step; the original mesh
      when the algorithm has no pipeline. */
  function PreparedMesh(scene: Scene, reg: Registry, triangulate: MeshState -> MeshState): (m: MeshState)
    requires scene.active.Some?
    ensures Prepare(scene, reg, triangulate).Ok? ==> m == Prepare(scene, reg, triangulate).value.mesh
    ensures Lower(scene.choice) !in reg.pipelines ==> m == scene.active.value
    ensures Lower(scene.choice) in reg.pipelines && "triangulation" !in reg.pipelines[Lower(scene.choice)] ==>
              m == scene.active.value
    ensures Lower(scene.choice) in reg.pipelines ==>
              m == InputPipeline.Reached(reg.pipelines[Lower(scene.choice)], scene.active.value, EmptyPayload, triangulate)
  {
    var name := Lower(scene.choice);
    if name in reg.pipelines then InputPipeline.Reached(reg.pipelines[name], scene.active.value, EmptyPayload, triangulate)
    else scene.active.value
  }

  /** `compute_algorithm`; `invoke` stands for constructing the backend and
      calling its `init` and `get_result`.  Without an active mesh it raises
      RuntimeError and changes nothing; otherwise the message is cleared
      first and whatever ran before a failure stays done, a triangulation of
      the mesh included. */
  function ComputeAlgorithm(scene: Scene, reg: Registry, triangulate: MeshState -> MeshState,
                            invoke: (Backend, Payload) -> Outcome<Output>): (r: Run)
    ensures scene.active.None? ==> r == Run(scene, Some(RuntimeError(NoActiveMesh)))
    ensures scene.active.Some? && Prepare(scene.(resultInfos := Str("")), reg, triangulate).Err? ==>
              r == Run(scene.(resultInfos := Str(""),
                              active := Some(PreparedMesh(scene.(resultInfos := Str("")), reg, triangulate))),
                       Some(Prepare(scene.(resultInfos := Str("")), reg, triangulate).error))
    ensures scene.active.Some? && Prepare(scene.(resultInfos := Str("")), reg, triangulate).Ok? ==>
              && var p := Prepare(scene.(resultInfos := Str("")), reg, triangulate).value;
              && var current := scene.(resultInfos := Str(""), active := Some(p.mesh));
              && (invoke(p.backend, p.data).Err? ==> r == Run(current, Some(invoke(p.backend, p.data).error)))
              && (invoke(p.backend, p.data).Ok? ==> r == Dispatch(invoke(p.backend, p.data).value, current))
  {
    if scene.active.None? then Run(scene, Some(RuntimeError(NoActiveMesh)))
    else
      var cleared := scene.(resultInfos := Str(""));
      match Prepare(cleared, reg, triangulate)
      case Err(e) => Run(cleared.(active := Some(PreparedMesh(cleared, reg, triangulate))), Some(e))
      case Ok(p) =>
        var current := cleared.(active := Some(p.mesh));
        match invoke(p.backend, p.data)
        case Err(e) => Run(current, Some(e))
        case Ok(out) => Dispatch(out, current)
  }

  /** A preparation step that fails after the input pipeline has run (a
      missing record or step table, a bad step count, a failing placement)
      leaves the mesh as the pipeline made it, triangulated when the
      pipeline triangulates, with the cleared message and that step's error. */
  lemma LateFailureKeepsPipelineMesh(scene: Scene, reg: Registry, triangulate: MeshState -> MeshState,
                                     invoke: (Backend, Payload) -> Outcome<Output>)
    requires scene.active.Some? && Lower(scene.choice) in reg.pipelines
    requires InputPipeline.Run(reg.pipelines[Lower(scene.choice)], scene.active.value, EmptyPayload, triangulate).Ok?
    requires Prepare(scene.(resultInfos := Str("")), reg, triangulate).Err?
    ensures var r := ComputeAlgorithm(scene, reg, triangulate, invoke);
            && r.error == Some(Prepare(scene.(resultInfos := Str("")), reg, triangulate).error)
            && r.scene.resultInfos == Str("")
            && r.scene.active
               == Some(InputPipeline.Run(reg.pipelines[Lower(scene.choice)], scene.active.value, EmptyPayload,
                                         triangulate).value.0)
  {
    var cleared := scene.(resultInfos := Str(""));
    assert cleared.choice == scene.choice && cleared.active == scene.active;
    assert PreparedMesh(cleared, reg, triangulate)
        == InputPipeline.Reached(reg.pipelines[Lower(scene.choice)], scene.active.value, EmptyPayload, triangulate);
  }

  /** When the backend's result names no output, the run ends with the
      prepared mesh, an empty message and no error. */
  lemma SilentBackend(scene: Scene, reg: Registry, triangulate: MeshState -> MeshState,
                      invoke: (Backend, Payload) -> Outcome<Output>)
    requires scene.active.Some?
    requires Prepare(scene.(resultInfos := Str("")), reg, triangulate).Ok?
    requires var p := Prepare(scene.(resultInfos := Str("")), reg, triangulate).value;
             invoke(p.backend, p.data) == Ok(NoOutput)
    ensures var r := ComputeAlgorithm(scene, reg, triangulate, invoke);
            && r.error.None? && r.scene.resultInfos == Str("")
            && r.scene.active == Some(Prepare(scene.(resultInfos := Str("")), reg, triangulate).value.mesh)
  {
  }

  /** A backend error ends the run with that error, the prepared mesh and
      the cleared message; a backend result naming a list of outputs has
      them handled in order on the prepared mesh, the later names only when
      the earlier ones succeeded. */
  lemma BackendOutcomeHandled(scene: Scene, reg: Registry, triangulate: MeshState -> MeshState,
                              invoke: (Backend, Payload) -> Outcome<Output>, xs: seq<Value>, ys: seq<Value>)
    requires scene.active.Some?
    requires Prepare(scene.(resultInfos := Str("")), reg, triangulate).Ok?
    ensures var p := Prepare(scene.(resultInfos := Str("")), reg, triangulate).value;
            var current := scene.(resultInfos := Str(""), active := Some(p.mesh));
            var res := invoke(p.backend, p.data);
            var r := ComputeAlgorithm(scene, reg, triangulate, invoke);
            && (res.Err? ==> r.error == Some(res.error) && r.scene.active == Some(p.mesh) && r.scene.resultInfos == Str(""))
            && (res.Ok? && res.value.outputResult == Some(List(xs + ys)) ==>
                  r == (var first := HandleAll(xs, res.value, current);
                        if first.error.Some? then first else HandleAll(ys, res.value, first.scene)))
  {
    var p := Prepare(scene.(resultInfos := Str("")), reg, triangulate).value;
    var current := scene.(resultInfos := Str(""), active := Some(p.mesh));
    var res := invoke(p.backend, p.data);
    if res.Ok? && res.value.outputResult == Some(List(xs + ys)) {
      DispatchInOrder(xs, ys, res.value, current);
    }
  }

  /** The property values `is_option_selected` compares, in the order of the
      defaults' keys: it stops at the first one equal to "DEFAULT". */
  function AnyUnchosen(names: seq<string>, group: Dict<string, Value>): (r: Outcome<bool>)
    ensures (forall i :: 0 <= i < |names| ==> names[i] in Keys(group)) ==> r.Ok?
    ensures r.Ok? ==> (r.value <==> exists i :: 0 <= i < |names| && Lookup(group, names[i]) == Some(Str("DEFAULT")))
  {
    if |names| == 0 then Ok(false)
    else
      var v :- GetAttr(group, names[0]);
      if v == Str("DEFAULT") then Ok(true)
      else
        var rest :- AnyUnchosen(names[1..], group);
        UnchosenTail(names, group);
        Ok(rest)
  }

  /** Past a first name that is not "DEFAULT", some name holds "DEFAULT"
      exactly when some later name does. */
  lemma UnchosenTail(names: seq<string>, group: Dict<string, Value>)
    requires |names| > 0 && Lookup(group, names[0]) != Some(Str("DEFAULT"))
    ensures (exists i :: 0 <= i < |names| && Lookup(group, names[i]) == Some(Str("DEFAULT")))
            <==> (exists i :: 0 <= i < |names[1..]| && Lookup(group, names[1..][i]) == Some(Str("DEFAULT")))
  {
    var tail := names[1..];
    if exists i :: 0 <= i < |names| && Lookup(group, names[i]) == Some(Str("DEFAULT")) {
      var i :| 0 <= i < |names| && Lookup(group, names[i]) == Some(Str("DEFAULT"));
      assert tail[i - 1] == names[i];
    }
    if exists i :: 0 <= i < |tail| && Lookup(group, tail[i]) == Some(Str("DEFAULT")) {
      var i :| 0 <= i < |tail| && Lookup(group, tail[i]) == Some(Str("DEFAULT"));
      assert names[i + 1] == tail[i];
    }
  }

  /** `is_option_selected`: true when the algorithm has no property group,
      otherwise false exactly when one of its properties still holds
      "DEFAULT". */
  function IsOptionSelected(scene: Scene, reg: Registry, algorithm: string): (r: Outcome<bool>)
    ensures Lower(algorithm) !in scene.groups ==> r == Ok(true)
    ensures Lower(algorithm) in scene.groups && Lower(algorithm) !in reg.records ==>
              r == Err(KeyError(Str(Lower(algorithm))))
    ensures (&& Lower(algorithm) in scene.groups && Lower(algorithm) in reg.records
             && forall i :: 0 <= i < |reg.records[Lower(algorithm)].defaults| ==>
                  reg.records[Lower(algorithm)].defaults[i].0 in Keys(scene.groups[Lower(algorithm)]))
            ==> r.Ok?
    ensures Lower(algorithm) in scene.groups && Lower(algorithm) in reg.records && r.Ok? ==>
              (r.value <==> forall i :: 0 <= i < |reg.records[Lower(algorithm)].defaults| ==>
                              Lookup(scene.groups[Lower(algorithm)], reg.records[Lower(algorithm)].defaults[i].0)
                              != Some(Str("DEFAULT")))
  {
    var name := Lower(algorithm);
    match GroupValues(scene, name)
    case None => Ok(true)
    case Some(group) =>
      var rec :- Get(reg.records, name);
      var unchosen :- AnyUnchosen(Keys(rec.defaults), group);
      Ok(!unchosen)
  }
}

=== FILE: input_pipeline.dfy ===
/** The operations run on the active mesh before a backend is called
    (`inputs_factory`): each either changes the mesh or adds one key to the
    `data` dictionary.  An algorithm's `input` list names them in the order
    they run. */
module InputPipeline {
  import opened Wrappers
  import opened Values
  import opened Triples
  import opened Blender
  import opened MeshAttributes
  import opened Payloads

  datatype Operation = Triangulation | VertexCoordinates | FaceIndices | ColorData

  /** `inputs_factory`: the operation registered under each name. */
  function OperationNamed(name: string): (r: Option<Operation>)
    ensures r.Some? <==> name in {"triangulation", "vertex_coordinates", "face_indices", "color_data"}
  {
    match name
    case "triangulation" => Some(Triangulation)
    case "vertex_coordinates" => Some(VertexCoordinates)
    case "face_indices" => Some(FaceIndices)
    case "color_data" => Some(ColorData)
    case _ => None
  }

  /** `get_face_indices`: three indices per polygon read into an array of
      three slots per polygon, which only fits a triangulated mesh. */
  function FlatFaces(polys: seq<seq<int>>): (r: Outcome<seq<int>>)
    ensures r.Ok? <==> forall k :: 0 <= k < |polys| ==> |polys[k]| == 3
    ensures r.Err? ==> r.error == RuntimeError(ArraySizeMismatch)
    ensures r.Ok? ==> |r.value| == 3 * |polys|
    ensures r.Ok? ==> forall k :: 0 <= k < |polys| ==> r.value[3 * k..3 * k + 3] == polys[k]
  {
    if |polys| == 0 then Ok([])
    else if |polys[0]| != 3 then Err(RuntimeError(ArraySizeMismatch))
    else
      var rest :- FlatFaces(polys[1..]);
      var r := polys[0] + rest;
      assert forall k :: 1 <= k < |polys| ==> polys[k] == polys[1..][k - 1]
                                        && r[3 * k..3 * k + 3] == rest[3 * (k - 1)..3 * (k - 1) + 3];
      Ok(r)
  }

  /** `layer.data.foreach_get("color", np.zeros(count * 4))`: the layer's
      flat RGBA data, which must be exactly four entries per element, or
      Blender's length-mismatch TypeError. */
  function CopyColors(layer: seq<real>, count: nat): (r: Outcome<seq<real>>)
    ensures r.Ok? <==> |layer| == 4 * count
    ensures r.Ok? ==> r.value == layer
    ensures r.Err? ==> r.error == TypeError
  {
    if |layer| == 4 * count then Ok(layer) else Err(TypeError)
  }

  /** One operation on the mesh and the data dictionary; `triangulate` stands
      for bmesh's duplicate removal and triangulation. */
  function Apply(op: Operation, mesh: MeshState, data: Payload, triangulate: MeshState -> MeshState)
    : (r: Outcome<(MeshState, Payload)>)
    ensures op != Triangulation && r.Ok? ==> r.value.0 == mesh
    ensures op == VertexCoordinates ==> r == Ok((mesh, data.(vertices := Some(Flatten3(mesh.vertices)))))
    ensures op == ColorData && ActiveLayer(mesh).Some? ==>
              r == if |ActiveLayer(mesh).value.colors| == 4 * |mesh.vertices|
                   then Ok((mesh, data.(vertexColor := Some(ActiveLayer(mesh).value.colors))))
                   else Err(TypeError)
    ensures op == ColorData && ActiveLayer(mesh).None? ==>
              match LastFaceColorLayer(mesh.attributes)
              case Some(i) => r == if |mesh.attributes[i].colors| == 4 * |mesh.polygons|
                                   then Ok((mesh, data.(faceColor := Some(mesh.attributes[i].colors))))
                                   else Err(TypeError)
              case None => r == Ok((mesh, data))
  {
    match op
    case Triangulation => Ok((triangulate(mesh), data))
    case VertexCoordinates => Ok((mesh, data.(vertices := Some(Flatten3(mesh.vertices)))))
    case FaceIndices =>
      var faces :- FlatFaces(mesh.polygons);
      Ok((mesh, data.(faces := Some(faces))))
    case ColorData =>
      if ActiveLayer(mesh).Some? then
        var colors :- CopyColors(ActiveLayer(mesh).value.colors, |mesh.vertices|);
        Ok((mesh, data.(vertexColor := Some(colors))))
      else
        match LastFaceColorLayer(mesh.attributes)
        case Some(i) =>
          var colors :- CopyColors(mesh.attributes[i].colors, |mesh.polygons|);
          Ok((mesh, data.(faceColor := Some(colors))))
        case None => Ok((mesh, data))
  }

  /** The input pipeline, in list order; an unknown name raises KeyError.
      It never touches the keys the dispatcher sets afterwards, and it leaves
      the mesh alone unless it triangulates. */
  function Run(names: seq<string>, mesh: MeshState, data: Payload, triangulate: MeshState -> MeshState)
    : (r: Outcome<(MeshState, Payload)>)
    ensures r.Ok? ==> && r.value.1.functions == data.functions
                      && r.value.1.params == data.params
                      && r.value.1.options == data.options
                      && r.value.1.decimationFactor == data.decimationFactor
    ensures r.Ok? && "triangulation" !in names ==> r.value.0 == mesh
    ensures (exists i :: 0 <= i < |names| && OperationNamed(names[i]).None?) ==> r.Err?
  {
    if |names| == 0 then Ok((mesh, data))
    else
      var op :- Need(OperationNamed(names[0]), names[0]);
      var next :- Apply(op, mesh, data, triangulate);
      assert names == [names[0]] + names[1..];
      Run(names[1..], next.0, next.1, triangulate)
  }

  /** The active mesh once the pipeline stops.  Triangulation rewrites
      Blender's mesh in place, so the steps that ran before a failing one
      keep their effect on it. */
  function Reached(names: seq<string>, mesh: MeshState, data: Payload, triangulate: MeshState -> MeshState)
    : (m: MeshState)
    ensures Run(names, mesh, data, triangulate).Ok? ==> m == Run(names, mesh, data, triangulate).value.0
    ensures "triangulation" !in names ==> m == mesh
  {
    if |names| == 0 then mesh
    else
      match OperationNamed(names[0])
      case None => mesh
      case Some(op) =>
        match Apply(op, mesh, data, triangulate)
        case Err(_) => mesh
        case Ok(next) =>
          assert names == [names[0]] + names[1..];
          Reached(names[1..], next.0, next.1, triangulate)
  }

  /** A pipeline that triangulates and then fails, at its next step or
      later, leaves the mesh triangulated. */
  lemma {:induction false} FailureKeepsTriangulation(rest: seq<string>, mesh: MeshState, data: Payload,
                                                     triangulate: MeshState -> MeshState)
    requires "triangulation" !in rest
    requires Run(["triangulation"] + rest, mesh, data, triangulate).Err?
    ensures Reached(["triangulation"] + rest, mesh, data, triangulate) == triangulate(mesh)
  {
    var names := ["triangulation"] + rest;
    assert names[0] == "triangulation" && names[1..] == rest;
    assert Apply(Triangulation, mesh, data, triangulate) == Ok((triangulate(mesh), data));
  }

  /** Running two lists one after the other is running their concatenation. */
  lemma {:induction false} RunAppend(xs: seq<string>, ys: seq<string>, mesh: MeshState, data: Payload,
                                     triangulate: MeshState -> MeshState)
    ensures Run(xs + ys, mesh, data, triangulate)
            == (match Run(xs, mesh, data, triangulate)
                case Ok(mid) => Run(ys, mid.0, mid.1, triangulate)
                case Err(e) => Err(e))
  {
    if |xs| == 0 {
      assert xs + ys == ys;
    } else {
      assert (xs + ys)[0] == xs[0];
      assert (xs + ys)[1..] == xs[1..] + ys;
      var op := OperationNamed(xs[0]);
      if op.Some? && Apply(op.value, mesh, data, triangulate).Ok? {
        var next := Apply(op.value, mesh, data, triangulate).value;
        RunAppend(xs[1..], ys, next.0, next.1, triangulate);
      }
    }
  }
}

=== FILE: mesh_attributes.dfy ===
/** Reading and clearing colour layers of a mesh: `get_color_data` picks the
    most recently created face colour attribute when there is no active
    colour attribute, and `set_mesh_colors` can remove the colour layers earlier
    runs created (those named `Face_Col…` or `Vertex_Col…`). */
module MeshAttributes {
  import opened Wrappers
  import opened Strings
  import opened Blender

  /** An attribute holding one RGBA colour per face. */
  predicate IsFaceColorLayer(a: Attribute) {
    a.dataType == "FLOAT_COLOR" && a.domain == "FACE"
  }

  /** The index of the last face colour attribute, found by scanning from the
      end (the loop over `range(len(attributes) - 1, -1, -1)` that breaks at
      the first match). */
  function LastFaceColorLayer(attrs: seq<Attribute>): (r: Option<nat>)
    ensures r.Some? ==> r.value < |attrs| && IsFaceColorLayer(attrs[r.value])
                        && forall j :: r.value < j < |attrs| ==> !IsFaceColorLayer(attrs[j])
    ensures r.None? <==> forall j :: 0 <= j < |attrs| ==> !IsFaceColorLayer(attrs[j])
  {
    if |attrs| == 0 then None
    else if IsFaceColorLayer(attrs[|attrs| - 1]) then Some(|attrs| - 1)
    else LastFaceColorLayer(attrs[..|attrs| - 1])
  }

  /** A layer an earlier colouring created: the part of its name before the
      first `.` (Blender appends `.001`, `.002`, … to repeated names) is
      `Face_Col` or `Vertex_Col`. */
  predicate IsColorLayerName(name: string) {
    var stem := Split(name, '.')[0];
    stem == "Face_Col" || stem == "Vertex_Col"
  }

  /** The attributes that are not colour layers, in their original order. */
  function Keep(attrs: seq<Attribute>): (r: seq<Attribute>)
    ensures |r| <= |attrs|
  {
    if |attrs| == 0 then []
    else (if IsColorLayerName(attrs[0].name) then [] else [attrs[0]]) + Keep(attrs[1..])
  }

  /** Exactly the attributes that are not colour layers are kept. */
  lemma {:induction false} KeepMembers(attrs: seq<Attribute>, a: Attribute)
    ensures a in Keep(attrs) <==> a in attrs && !IsColorLayerName(a.name)
  {
    if |attrs| > 0 {
      KeepMembers(attrs[1..], a);
      assert attrs == [attrs[0]] + attrs[1..];
    }
  }

  /** Filtering distributes over concatenation. */
  lemma {:induction false} KeepAppend(a: seq<Attribute>, b: seq<Attribute>)
    ensures Keep(a + b) == Keep(a) + Keep(b)
  {
    if |a| == 0 {
      assert a + b == b;
    } else {
      assert (a + b)[0] == a[0] && (a + b)[1..] == a[1..] + b;
      KeepAppend(a[1..], b);
    }
  }

  /** Where attribute `i` sits once the colour layers are removed; none when
      it is one of them. */
  function KeptPosition(attrs: seq<Attribute>, i: nat): (r: Option<nat>)
    requires i < |attrs|
    ensures r.None? <==> IsColorLayerName(attrs[i].name)
    ensures r.Some? ==> r.value < |Keep(attrs)| && Keep(attrs)[r.value] == attrs[i]
  {
    if IsColorLayerName(attrs[i].name) then None
    else
      KeepAppend(attrs[..i], attrs[i..]);
      assert attrs == attrs[..i] + attrs[i..];
      assert attrs[i..][0] == attrs[i] && attrs[i..][1..] == attrs[i + 1..];
      Some(|Keep(attrs[..i])|)
  }

  /** The active colour reference once the colour layers are removed: it
      follows its attribute to its new position, and names nothing once that
      attribute is removed. */
  function KeptActive(m: MeshState): (r: Option<nat>)
    ensures ActiveLayer(m).Some? && !IsColorLayerName(ActiveLayer(m).value.name) ==>
              r.Some? && r.value < |Keep(m.attributes)| && Keep(m.attributes)[r.value] == ActiveLayer(m).value
    ensures ActiveLayer(m).None? || IsColorLayerName(ActiveLayer(m).value.name) ==> r.None?
  {
    match ActiveLayer(m)
    case None => None
    case Some(_) => KeptPosition(m.attributes, m.activeColor.value)
  }

  /** The removal loop of `set_mesh_colors`: it walks the attributes from the
      last to the first and removes each colour layer in place, so the indices
      still to visit are never shifted. */
  method RemoveColorLayers(attrs: seq<Attribute>) returns (r: seq<Attribute>)
    ensures r == Keep(attrs)
  {
    r := attrs;
    var i := |attrs|;
    assert attrs[|attrs|..] == [];
    while i > 0
      invariant 0 <= i <= |attrs|
      invariant r == attrs[..i] + Keep(attrs[i..])
    {
      i := i - 1;
      RemoveStep(attrs, r, i);
      if IsColorLayerName(r[i].name) {
        r := r[..i] + r[i + 1..];
      }
    }
    assert attrs[..0] == [];
  }

  /** One iteration of the removal loop: position `i` holds the attribute
      `attrs[i]`, and dropping it when it is a colour layer extends the
      filtered suffix by one. */
  lemma RemoveStep(attrs: seq<Attribute>, r: seq<Attribute>, i: nat)
    requires i < |attrs|
    requires r == attrs[..i + 1] + Keep(attrs[i + 1..])
    ensures i < |r| && r[i] == attrs[i]
    ensures (if IsColorLayerName(r[i].name) then r[..i] + r[i + 1..] else r) == attrs[..i] + Keep(attrs[i..])
  {
    assert attrs[i..][1..] == attrs[i + 1..];
    assert attrs[..i + 1] == attrs[..i] + [attrs[i]];
    if IsColorLayerName(attrs[i].name) {
      assert r[..i] == attrs[..i];
      assert r[i + 1..] == Keep(attrs[i + 1..]);
    }
  }
}

=== FILE: output_handlers.dfy ===
/** The output handlers of `outputs_table` and the loop that runs them: a
    backend's `output_result` names, in order, what to do with its result —
    show a message, colour the active mesh, or build a new mesh that replaces
    or joins the active one. */
module OutputHandlers {
  import opened Wrappers
  import opened Dicts
  import opened Values
  import opened Strings
  import opened Triples
  import opened Blender
  import opened MeshAttributes
  import opened Payloads
  import InputPipeline

  datatype Handler = DisplayResults | SetMeshColors | SetNewMesh

  /** `outputs_table[kind]`: unhashable keys raise TypeError, unknown ones KeyError. */
  function HandlerFor(kind: Value): (r: Outcome<Handler>)
    ensures r.Ok? <==> kind in {Str("message"), Str("face_coloration"), Str("vertex_coloration"),
                                Str("replace_mesh"), Str("add_mesh")}
    ensures r == Ok(DisplayResults) <==> kind == Str("message")
    ensures r == Ok(SetNewMesh) <==> kind in {Str("replace_mesh"), Str("add_mesh")}
    ensures r.Err? && kind.Str? ==> r.error == KeyError(kind)
  {
    match kind
    case Str("message") => Ok(DisplayResults)
    case Str("face_coloration") => Ok(SetMeshColors)
    case Str("vertex_coloration") => Ok(SetMeshColors)
    case Str("replace_mesh") => Ok(SetNewMesh)
    case Str("add_mesh") => Ok(SetNewMesh)
    case List(_) => Err(TypeError)
    case Dict(_) => Err(TypeError)
    case _ => Err(KeyError(kind))
  }

  /** The loop layout `set_new_mesh` gives a mesh built from flat arrays. */
  datatype Layout = Layout(
    coordinates: seq<real>,
    vertexCount: nat,
    loops: seq<int>,
    loopStart: seq<int>,
    loopTotal: seq<int>)

  /** `len(vertices) // 3` vertices, one loop per face index, and
      `len(faces) // 3` polygons of three consecutive loops each. */
  function MeshLayout(vertices: seq<real>, faces: seq<int>): (l: Layout)
    ensures l.vertexCount == |vertices| / 3 && l.coordinates == vertices && l.loops == faces
    ensures |l.loopStart| == |l.loopTotal| == |faces| / 3
    ensures forall k :: 0 <= k < |faces| / 3 ==> l.loopStart[k] == 3 * k && l.loopTotal[k] == 3
  {
    var n := |faces| / 3;
    Layout(vertices, |vertices| / 3, faces, seq(n, k requires 0 <= k < n => 3 * k), seq(n, _ => 3))
  }

  /** Polygon `k` of the layout uses face indices `3k`, `3k+1`, `3k+2`: the
      polygons are the rows of the reshaped face array, and they use every
      face index when its length is a multiple of three. */
  lemma LayoutPolygons(vertices: seq<real>, faces: seq<int>, k: nat)
    requires k < |faces| / 3
    ensures var l := MeshLayout(vertices, faces);
            && 0 <= l.loopStart[k] <= l.loopStart[k] + l.loopTotal[k] <= |l.loops|
            && var row := Group3(faces)[k];
               l.loops[l.loopStart[k]..l.loopStart[k] + l.loopTotal[k]] == [row.0, row.1, row.2]
    ensures |faces| % 3 == 0 && k == |faces| / 3 - 1 ==>
              MeshLayout(vertices, faces).loopStart[k] + MeshLayout(vertices, faces).loopTotal[k] == |faces|
  {
  }

  /** The mesh Blender holds after `set_new_mesh` fills it from a layout. */
  function BuiltMesh(l: Layout): (m: MeshState)
    requires |l.loopStart| == |l.loopTotal|
    requires forall k :: 0 <= k < |l.loopStart| ==> 0 <= l.loopStart[k] <= l.loopStart[k] + l.loopTotal[k] <= |l.loops|
    ensures |m.polygons| == |l.loopStart| && |m.vertices| == |l.coordinates| / 3
  {
    var n := |l.loopStart|;
    MeshState(Group3(l.coordinates),
              seq(n, k requires 0 <= k < n => l.loops[l.loopStart[k]..l.loopStart[k] + l.loopTotal[k]]),
              None, [], [], seq(n, _ => 0))
  }

  /** `set_new_mesh`: without both "vertices" and "faces" it raises
      RuntimeError; otherwise the new mesh becomes the active object, and the
      previous one is deleted for "replace_mesh" and kept otherwise. */
  function SetNewMeshOn(kind: string, out: Output, scene: Scene): (r: Outcome<Scene>)
    requires scene.active.Some?
    ensures out.vertices.None? || out.faces.None? ==> r == Err(RuntimeError(MeshCreationFailed))
    ensures r.Ok? ==> && out.vertices.Some? && out.faces.Some?
                      && r.value.active.Some?
                      && |r.value.active.value.polygons| == |out.faces.value| / 3
                      && (kind == "replace_mesh" ==> r.value.others == scene.others)
                      && (kind != "replace_mesh" ==> r.value.others == scene.others + [scene.active.value])
  {
    if out.vertices.None? || out.faces.None? then Err(RuntimeError(MeshCreationFailed))
    else
      var l := MeshLayout(out.vertices.value, out.faces.value);
      var mesh := BuiltMesh(l);
      if kind == "replace_mesh" then Ok(scene.(active := Some(mesh)))
      else Ok(scene.(active := Some(mesh), others := scene.others + [scene.active.value]))
  }

  /** Whether the current algorithm's "delete_materials" option is set. */
  predicate DeleteMaterials(scene: Scene) {
    match GroupValues(scene, Lower(scene.choice))
    case None => false
    case Some(group) =>
      match Lookup(group, "delete_materials")
      case None => false
      case Some(v) => PyTruthy(v)
  }

  /** `set_mesh_colors`: without "colors" it raises RuntimeError.  Otherwise,
      when "delete_materials" is set, it drops the materials and the earlier
      colour layers, and the active colour attribute with them when it is
      one; it then adds the colour layer (per face, or per vertex and made
      active) and one material that every polygon uses. */
  function SetMeshColorsOn(kind: string, out: Output, scene: Scene): (r: Outcome<Scene>)
    requires scene.active.Some?
    ensures out.colors.None? ==> r == Err(RuntimeError(ColorAssignmentFailed))
    ensures out.colors.Some? && kind !in {"face_coloration", "vertex_coloration"} ==> r == Err(RuntimeError(UnknownOutput))
    ensures r.Ok? ==>
              && r.value.others == scene.others && r.value.active.Some?
              && var before := scene.active.value;
                 var after := r.value.active.value;
                 && |after.attributes| >= 1
                 && var layer := after.attributes[|after.attributes| - 1];
                 && layer.colors == out.colors.value
                 && after.attributes[..|after.attributes| - 1]
                    == (if DeleteMaterials(scene) then Keep(before.attributes) else before.attributes)
                 && (kind == "face_coloration" <==> IsFaceColorLayer(layer))
                 && (kind == "vertex_coloration" ==> ActiveLayer(after) == Some(layer))
                 && (kind == "face_coloration" ==>
                       ActiveLayer(after)
                       == if DeleteMaterials(scene) && ActiveLayer(before).Some?
                             && IsColorLayerName(ActiveLayer(before).value.name)
                          then None else ActiveLayer(before))
                 && |after.materials| >= 1 && after.materials[|after.materials| - 1] == "Mesh_Color"
                 && |after.materialIndex| == |after.polygons| == |before.polygons|
                 && forall k :: 0 <= k < |after.materialIndex| ==> after.materialIndex[k] == |after.materials| - 1
  {
    if out.colors.None? then Err(RuntimeError(ColorAssignmentFailed))
    else
      var cleared := ClearColors(scene.active.value, DeleteMaterials(scene));
      var colored :- AddColorLayer(kind, cleared, out.colors.value);
      var offset := |colored.materials|;
      var done := colored.(materials := colored.materials + ["Mesh_Color"],
                           materialIndex := seq(|colored.polygons|, _ => offset));
      Ok(scene.(active := Some(done)))
  }

  /** The mesh once "delete_materials" is honoured (when `delete` holds): no
      materials and no colour layers, and no active colour attribute when the
      active one was a colour layer. */
  function ClearColors(mesh: MeshState, delete: bool): (m: MeshState)
    ensures m.attributes == if delete then Keep(mesh.attributes) else mesh.attributes
    ensures m.materials == if delete then [] else mesh.materials
    ensures m.polygons == mesh.polygons
    ensures ActiveLayer(m) == if delete && ActiveLayer(mesh).Some? && IsColorLayerName(ActiveLayer(mesh).value.name)
                              then None else ActiveLayer(mesh)
  {
    if delete then mesh.(materials := [], attributes := Keep(mesh.attributes), activeColor := KeptActive(mesh))
    else mesh
  }

  /** The new colour layer: "Face_Col" per face, or "Vertex_Col" per vertex,
      which becomes the active colour attribute; any other output name raises
      RuntimeError. */
  function AddColorLayer(kind: string, mesh: MeshState, colors: seq<real>): (r: Outcome<MeshState>)
    ensures r.Ok? <==> kind in {"face_coloration", "vertex_coloration"}
    ensures r.Err? ==> r.error == RuntimeError(UnknownOutput)
    ensures r.Ok? ==> && |r.value.attributes| == |mesh.attributes| + 1
                      && r.value.attributes[..|mesh.attributes|] == mesh.attributes
                      && var layer := r.value.attributes[|mesh.attributes|];
                      && layer.colors == colors
                      && (kind == "face_coloration" <==> IsFaceColorLayer(layer))
                      && ActiveLayer(r.value) == if kind == "face_coloration" then ActiveLayer(mesh) else Some(layer)
    ensures r.Ok? ==> r.value.polygons == mesh.polygons && r.value.materials == mesh.materials
  {
    if kind == "face_coloration" then
      var attrs := mesh.attributes + [Attribute("Face_Col", "FLOAT_COLOR", "FACE", colors)];
      assert forall i :: 0 <= i < |mesh.attributes| ==> attrs[i] == mesh.attributes[i];
      Ok(mesh.(attributes := attrs, activeColor := if ActiveLayer(mesh).Some? then mesh.activeColor else None))
    else if kind == "vertex_coloration" then
      Ok(mesh.(attributes := mesh.attributes + [Attribute("Vertex_Col", "FLOAT_COLOR", "POINT", colors)],
               activeColor := Some(|mesh.attributes|)))
    else Err(RuntimeError(UnknownOutput))
  }

  /** With "delete_materials" set, a face colouring removes an active
      colour layer an earlier colouring made, so the next colour extraction
      no longer reads that layer: it sends the new face colours instead. */
  lemma RemovedActiveLayerNotResent(out: Output, scene: Scene, data: Payload, triangulate: MeshState -> MeshState)
    requires scene.active.Some? && DeleteMaterials(scene)
    requires ActiveLayer(scene.active.value).Some? && IsColorLayerName(ActiveLayer(scene.active.value).value.name)
    requires out.colors.Some? && |out.colors.value| == 4 * |scene.active.value.polygons|
    ensures SetMeshColorsOn("face_coloration", out, scene).Ok?
    ensures var after := SetMeshColorsOn("face_coloration", out, scene).value.active.value;
            && ActiveLayer(after).None?
            && InputPipeline.Apply(InputPipeline.ColorData, after, data, triangulate)
               == Ok((after, data.(faceColor := out.colors)))
  {
    var after := SetMeshColorsOn("face_coloration", out, scene).value.active.value;
    var n := |after.attributes|;
    assert IsFaceColorLayer(after.attributes[n - 1]);
    assert LastFaceColorLayer(after.attributes) == Some(n - 1);
  }

  /** `display_results`: the message, or the empty string. */
  function DisplayResultsOn(out: Output, scene: Scene): (r: Scene)
    ensures r.resultInfos == out.resultInfos.GetOr(Str(""))
    ensures r.active == scene.active && r.others == scene.others
  {
    scene.(resultInfos := out.resultInfos.GetOr(Str("")))
  }

  /** The scene after some handlers ran, and the exception that stopped them,
      if any: what the handlers before a failure did stays done. */
  datatype Run = Run(scene: Scene, error: Option<Error>)

  /** One output name. */
  function Handle(kind: Value, out: Output, scene: Scene): (r: Outcome<Scene>)
    requires scene.active.Some?
    ensures r.Ok? ==> r.value.active.Some?
  {
    var h :- HandlerFor(kind);
    match h
    case DisplayResults => Ok(DisplayResultsOn(out, scene))
    case SetMeshColors => SetMeshColorsOn(kind.s, out, scene)
    case SetNewMesh => SetNewMeshOn(kind.s, out, scene)
  }

  /** The handlers named by `kinds`, in order, until one fails. */
  function HandleAll(kinds: seq<Value>, out: Output, scene: Scene): (r: Run)
    requires scene.active.Some?
    ensures r.scene.active.Some?
    ensures r.error.None? ==> forall i :: 0 <= i < |kinds| ==> HandlerFor(kinds[i]).Ok?
  {
    if |kinds| == 0 then Run(scene, None)
    else
      match Handle(kinds[0], out, scene)
      case Err(e) => Run(scene, Some(e))
      case Ok(next) =>
        var r := HandleAll(kinds[1..], out, next);
        assert forall i :: 1 <= i < |kinds| ==> kinds[i] == kinds[1..][i - 1];
        r
  }

  /** The dispatch loop of `compute_algorithm`: it iterates over
      `output_result` (an empty list when absent). */
  function Dispatch(out: Output, scene: Scene): (r: Run)
    requires scene.active.Some?
    ensures out.outputResult.None? ==> r == Run(scene, None)
    ensures out.outputResult.Some? && out.outputResult.value.List? ==>
              r == HandleAll(out.outputResult.value.items, out, scene)
    ensures out.outputResult.Some? && Iterate(out.outputResult.value).Err? ==> r == Run(scene, Some(TypeError))
  {
    match Iterate(out.outputResult.GetOr(List([])))
    case Err(e) => Run(scene, Some(e))
    case Ok(kinds) => HandleAll(kinds, out, scene)
  }

  /** A list of output names is handled in order: the names after a prefix
      run on the scene the prefix's handlers left, and only if none of them
      failed. */
  lemma DispatchInOrder(xs: seq<Value>, ys: seq<Value>, out: Output, scene: Scene)
    requires scene.active.Some? && out.outputResult == Some(List(xs + ys))
    ensures Dispatch(out, scene)
            == (var first := HandleAll(xs, out, scene);
                if first.error.Some? then first else HandleAll(ys, out, first.scene))
  {
    HandleAllAppend(xs, ys, out, scene);
  }

  /** Running the handlers of two lists one after the other is running those
      of their concatenation. */
  lemma {:induction false} HandleAllAppend(xs: seq<Value>, ys: seq<Value>, out: Output, scene: Scene)
    requires scene.active.Some?
    ensures HandleAll(xs + ys, out, scene)
            == (var first := HandleAll(xs, out, scene);
                if first.error.Some? then first else HandleAll(ys, out, first.scene))
  {
    if |xs| == 0 {
      assert xs + ys == ys;
    } else {
      assert (xs + ys)[0] == xs[0];
      assert (xs + ys)[1..] == xs[1..] + ys;
      if Handle(xs[0], out, scene).Ok? {
        HandleAllAppend(xs[1..], ys, out, Handle(xs[0], out, scene).value);
      }
    }
  }

  /** A bare string as `output_result` is iterated character by character:
      its first one-character string is not a handler name, so nothing runs
      and KeyError is raised. */
  lemma BareStringFails(s: string, out: Output, scene: Scene)
    requires scene.active.Some?
    requires out.outputResult == Some(Str(s)) && |s| > 0
    ensures Dispatch(out, scene) == Run(scene, Some(KeyError(Str([s[0]]))))
  {
    var kinds := Iterate(Str(s)).value;
    assert kinds[0] == Str([s[0]]);
  }

  /** "new_mesh", the tag simplification returns, names no handler. */
  lemma NewMeshHasNoHandler(out: Output, scene: Scene)
    requires scene.active.Some?
    requires out.outputResult == Some(List([Str("new_mesh")]))
    ensures Dispatch(out, scene) == Run(scene, Some(KeyError(Str("new_mesh"))))
  {
  }

  /** `["replace_mesh", "face_coloration"]`, as segmentation returns when it
      rebuilt the mesh: the rebuilt mesh replaces the active one and is the
      one coloured. */
  lemma ReplaceThenColor(out: Output, scene: Scene)
    requires scene.active.Some?
    requires out.outputResult == Some(Names(["replace_mesh", "face_coloration"]))
    requires out.vertices.Some? && out.faces.Some? && out.colors.Some?
    ensures var r := Dispatch(out, scene);
            && r.error.None? && r.scene.others == scene.others
            && var mesh := r.scene.active.value;
               && |mesh.polygons| == |out.faces.value| / 3
               && |mesh.attributes| >= 1
               && mesh.attributes[|mesh.attributes| - 1] == Attribute("Face_Col", "FLOAT_COLOR", "FACE", out.colors.value)
  {
    var kinds := [Str("replace_mesh"), Str("face_coloration")];
    assert Names(["replace_mesh", "face_coloration"]).items == kinds;
    var s1 := ReplaceMeshRuns(out, scene);
    var s2 := FaceColorationRuns(out, s1);
    HandleAllPair(kinds[0], kinds[1], out, scene);
  }

  /** "replace_mesh" with both arrays present succeeds and keeps the other
      objects. */
  lemma ReplaceMeshRuns(out: Output, scene: Scene) returns (next: Scene)
    requires scene.active.Some?
    requires out.vertices.Some? && out.faces.Some?
    ensures Handle(Str("replace_mesh"), out, scene) == Ok(next)
    ensures next.others == scene.others && next.active.Some?
    ensures |next.active.value.polygons| == |out.faces.value| / 3
  {
    next := SetNewMeshOn("replace_mesh", out, scene).value;
  }

  /** "face_coloration" with colours present succeeds and adds a face colour
      layer holding them. */
  lemma FaceColorationRuns(out: Output, scene: Scene) returns (next: Scene)
    requires scene.active.Some?
    requires out.colors.Some?
    ensures Handle(Str("face_coloration"), out, scene) == Ok(next)
    ensures next.others == scene.others && next.active.Some?
    ensures var before, after := scene.active.value, next.active.value;
            && |after.polygons| == |before.polygons|
            && |after.attributes| >= 1
            && after.attributes[|after.attributes| - 1] == Attribute("Face_Col", "FLOAT_COLOR", "FACE", out.colors.value)
  {
    next := SetMeshColorsOn("face_coloration", out, scene).value;
  }

  /** Two handlers that both succeed leave the scene the second one made. */
  lemma HandleAllPair(k1: Value, k2: Value, out: Output, scene: Scene)
    requires scene.active.Some?
    requires Handle(k1, out, scene).Ok?
    requires Handle(k2, out, Handle(k1, out, scene).value).Ok?
    ensures HandleAll([k1, k2], out, scene) == Run(Handle(k2, out, Handle(k1, out, scene).value).value, None)
  {
    var s1 := Handle(k1, out, scene).value;
    var s2 := Handle(k2, out, s1).value;
    assert [k1, k2][0] == k1 && [k1, k2][1..] == [k2];
    assert HandleAll([k1, k2], out, scene) == HandleAll([k2], out, s1);
    assert [k2][0] == k2 && [k2][1..] == [];
    assert HandleAll([k2], out, s1) == HandleAll([], out, s2);
  }
}

=== FILE: partition.dfy ===
/** The parameter partition of `compute_algorithm`: each property of the
    chosen algorithm is read from its property group and sent either to the
    `options` dictionary (step -1) or to the parameter dictionary of its
    sub-algorithm (steps count from 1), converted to a pymeshlab value when
    its type calls for one. */
module Partition {
  import opened Wrappers
  import opened Dicts
  import opened Values
  import opened Blender

  /** Where a property goes. */
  datatype Dest = Options | Step(index: nat)

  /** A property read from its group, with its destination. */
  datatype Placement = Placement(name: string, dest: Dest, value: Value)

  /** The property types `meshlab_types` converts. */
  const MeshlabTypes: set<string> := {"percentage_value", "pure_value", "color", "float_array"}

  /** `len(range(steps))`. */
  function StepCount(steps: Value): (r: Outcome<nat>)
    ensures steps.Int? && steps.i >= 0 ==> r == Ok(steps.i)
    ensures steps.Int? && steps.i < 0 ==> r == Ok(0)
    ensures r.Err? <==> !steps.Int? && !steps.Bool?
  {
    var n :- AsInt(steps);
    Ok(if n < 0 then 0 else n)
  }

  /** The value sent for a property of type `kind`. */
  function Convert(kind: string, v: Value): Value {
    if kind in MeshlabTypes then Converted(kind, v) else v
  }

  /** Iteration `i` of the partition loop, over `count` parameter
      dictionaries: its step is read first, then (unless -1) its type, then
      its value, and only then is the 1-based step turned into a position in
      the list of parameter dictionaries, Python's negative positions
      included. */
  function Place(names: seq<string>, types: seq<string>, stepOf: seq<Value>, count: nat,
                 group: Dict<string, Value>, i: nat): (r: Outcome<Placement>)
    requires i < |names|
    ensures r.Ok? ==> r.value.name == names[i] && names[i] in Keys(group)
    ensures r.Ok? ==> i < |stepOf| && (r.value.dest == Options <==> PyEqInt(stepOf[i], -1))
    ensures r.Ok? && r.value.dest == Options ==> Lookup(group, names[i]) == Some(r.value.value)
    ensures r.Ok? && r.value.dest.Step? ==>
              && i < |types| && r.value.dest.index < count
              && Some(r.value.value) == (match Lookup(group, names[i])
                                         case Some(v) => Some(Convert(types[i], v))
                                         case None => None)
    ensures i < |stepOf| && stepOf[i].Int? && 1 <= stepOf[i].i <= count && r.Ok? ==>
              r.value.dest == Step(stepOf[i].i - 1)
    ensures i < |stepOf| && stepOf[i] == Int(0) && r.Ok? ==> r.value.dest == Step(count - 1)
  {
    if i >= |stepOf| then Err(IndexError)
    else
      var s := stepOf[i];
      if PyEqInt(s, -1) then
        var v :- GetAttr(group, names[i]);
        Ok(Placement(names[i], Options, v))
      else if i >= |types| then Err(IndexError)
      else
        var v :- GetAttr(group, names[i]);
        var n :- AsInt(s);
        match PyIndex(count, n - 1)
        case None => Err(IndexError)
        case Some(j) => Ok(Placement(names[i], Step(j), Convert(types[i], v)))
  }

  /** The first `n` iterations; the first failure aborts. */
  function Placements(names: seq<string>, types: seq<string>, stepOf: seq<Value>, count: nat,
                      group: Dict<string, Value>, n: nat): (r: Outcome<seq<Placement>>)
    requires n <= |names|
    ensures r.Ok? ==> |r.value| == n
    ensures r.Ok? ==> forall i :: 0 <= i < n ==> Place(names, types, stepOf, count, group, i) == Ok(r.value[i])
  {
    if n == 0 then Ok([])
    else
      var ps :- Placements(names, types, stepOf, count, group, n - 1);
      var p :- Place(names, types, stepOf, count, group, n - 1);
      Ok(ps + [p])
  }

  /** The `(name, value)` pairs sent to one destination, in loop order. */
  function PairsTo(ps: seq<Placement>, d: Dest): (r: seq<(string, Value)>)
    ensures |r| <= |ps|
  {
    if |ps| == 0 then []
    else
      var last := ps[|ps| - 1];
      PairsTo(ps[..|ps| - 1], d) + (if last.dest == d then [(last.name, last.value)] else [])
  }

  /** The parameter dictionaries and the options dictionary the placements fill. */
  function Fill(ps: seq<Placement>, count: nat): (seq<Dict<string, Value>>, Dict<string, Value>) {
    (seq(count, j requires 0 <= j < count => Collect(PairsTo(ps, Step(j)))), Collect(PairsTo(ps, Options)))
  }

  /** What the partition computes: all placements succeed, and each
      destination holds the properties sent to it. */
  function Partitioned(names: seq<string>, types: seq<string>, stepOf: seq<Value>, count: nat,
                       group: Dict<string, Value>): Outcome<(seq<Dict<string, Value>>, Dict<string, Value>)> {
    var ps :- Placements(names, types, stepOf, count, group, |names|);
    Ok(Fill(ps, count))
  }

  /** The loop of `compute_algorithm` (lines building `params` and
      `options`): `count` empty dictionaries, then one assignment per property
      in the order of the defaults' keys. */
  method Partition(names: seq<string>, types: seq<string>, stepOf: seq<Value>, count: nat,
                   group: Dict<string, Value>)
    returns (r: Outcome<(seq<Dict<string, Value>>, Dict<string, Value>)>)
    ensures r == Partitioned(names, types, stepOf, count, group)
  {
    var params: seq<Dict<string, Value>> := seq(count, _ => []);
    var options: Dict<string, Value> := [];
    ghost var ps: seq<Placement> := [];
    FillEmpty(count);
    var i := 0;
    while i < |names|
      invariant 0 <= i <= |names|
      invariant Placements(names, types, stepOf, count, group, i) == Ok(ps)
      invariant (params, options) == Fill(ps, count)
    {
      var p := Place(names, types, stepOf, count, group, i);
      PlacementsStep(names, types, stepOf, count, group, i, ps);
      if p.Err? {
        FailureStops(names, types, stepOf, count, group, i + 1, |names|);
        return Err(p.error);
      }
      var pl := p.value;
      FillStep(ps, pl, count);
      if pl.dest == Options {
        options := Put(options, pl.name, pl.value);
      } else {
        var j := pl.dest.index;
        params := params[j := Put(params[j], pl.name, pl.value)];
      }
      ps := ps + [pl];
      i := i + 1;
    }
    return Ok((params, options));
  }

  /** One more iteration extends the placements, or ends them with its error. */
  lemma PlacementsStep(names: seq<string>, types: seq<string>, stepOf: seq<Value>, count: nat,
                       group: Dict<string, Value>, i: nat, ps: seq<Placement>)
    requires i < |names| && Placements(names, types, stepOf, count, group, i) == Ok(ps)
    ensures var p := Place(names, types, stepOf, count, group, i);
            Placements(names, types, stepOf, count, group, i + 1)
            == if p.Ok? then Ok(ps + [p.value]) else Err(p.error)
  {
  }

  /** Before the loop every dictionary is empty. */
  lemma FillEmpty(count: nat)
    ensures Fill([], count) == (seq(count, _ => []), [])
  {
    var empty: seq<Dict<string, Value>> := seq(count, _ => []);
    forall j | 0 <= j < count ensures Fill([], count).0[j] == empty[j] {
      assert PairsTo([], Step(j)) == [];
    }
    assert Fill([], count).0 == empty;
    assert PairsTo([], Options) == [];
  }

  /** Sending one more pair to a destination assigns it in that
      destination's dictionary. */
  lemma CollectStep(ps: seq<Placement>, pl: Placement, d: Dest)
    ensures Collect(PairsTo(ps + [pl], d))
            == if pl.dest == d then Put(Collect(PairsTo(ps, d)), pl.name, pl.value) else Collect(PairsTo(ps, d))
  {
    var next := ps + [pl];
    assert next[..|next| - 1] == ps;
    var pairs := PairsTo(next, d);
    if pl.dest == d {
      assert pairs == PairsTo(ps, d) + [(pl.name, pl.value)];
      assert pairs[..|pairs| - 1] == PairsTo(ps, d);
    } else {
      assert pairs == PairsTo(ps, d);
    }
  }

  /** One more placement is one more assignment to its destination. */
  lemma FillStep(ps: seq<Placement>, pl: Placement, count: nat)
    requires pl.dest.Step? ==> pl.dest.index < count
    ensures Fill(ps + [pl], count)
            == if pl.dest == Options then (Fill(ps, count).0, Put(Fill(ps, count).1, pl.name, pl.value))
               else (Fill(ps, count).0[pl.dest.index := Put(Fill(ps, count).0[pl.dest.index], pl.name, pl.value)],
                     Fill(ps, count).1)
  {
    CollectStep(ps, pl, Options);
    FillStepParams(ps, pl, count);
  }

  /** One more placement changes at most the parameter dictionary it is sent to. */
  lemma FillStepParams(ps: seq<Placement>, pl: Placement, count: nat)
    requires pl.dest.Step? ==> pl.dest.index < count
    ensures var params := Fill(ps, count).0;
            Fill(ps + [pl], count).0
            == if pl.dest.Step? then params[pl.dest.index := Put(params[pl.dest.index], pl.name, pl.value)] else params
  {
    var params := Fill(ps, count).0;
    var params' := Fill(ps + [pl], count).0;
    if pl.dest.Step? {
      var expected := params[pl.dest.index := Put(params[pl.dest.index], pl.name, pl.value)];
      forall k | 0 <= k < count ensures params'[k] == expected[k] {
        CollectStep(ps, pl, Step(k));
      }
      assert params' == expected;
    } else {
      forall k | 0 <= k < count ensures params'[k] == params[k] {
        CollectStep(ps, pl, Step(k));
      }
      assert params' == params;
    }
  }

  /** Once an iteration fails, the whole loop fails with its error. */
  lemma {:induction false} FailureStops(names: seq<string>, types: seq<string>, stepOf: seq<Value>, count: nat,
                                        group: Dict<string, Value>, m: nat, n: nat)
    requires 0 < m <= n <= |names|
    requires Placements(names, types, stepOf, count, group, m).Err?
    ensures Placements(names, types, stepOf, count, group, n) == Placements(names, types, stepOf, count, group, m)
  {
    if n > m {
      FailureStops(names, types, stepOf, count, group, m, n - 1);
    }
  }

  /** Every pair sent to a destination comes from a placement to it. */
  lemma {:induction false} PairsToSource(ps: seq<Placement>, d: Dest, q: nat) returns (i: nat)
    requires q < |PairsTo(ps, d)|
    ensures i < |ps| && ps[i].dest == d && PairsTo(ps, d)[q] == (ps[i].name, ps[i].value)
  {
    var n := |ps| - 1;
    var init := PairsTo(ps[..n], d);
    if q < |init| {
      var k := PairsToSource(ps[..n], d, q);
      i := k;
      assert ps[..n][k] == ps[k];
    } else {
      i := n;
    }
  }

  /** Every placement to a destination gives a pair sent to it. */
  lemma {:induction false} PairsToTarget(ps: seq<Placement>, d: Dest, i: nat) returns (q: nat)
    requires i < |ps| && ps[i].dest == d
    ensures q < |PairsTo(ps, d)| && PairsTo(ps, d)[q] == (ps[i].name, ps[i].value)
  {
    var n := |ps| - 1;
    if i < n {
      assert ps[..n][i] == ps[i];
      q := PairsToTarget(ps[..n], d, i);
    } else {
      q := |PairsTo(ps[..n], d)|;
    }
  }

  /** With distinct property names, the pairs sent to one destination have
      distinct names. */
  lemma {:induction false} PairsToDistinct(ps: seq<Placement>, d: Dest)
    requires forall i, j :: 0 <= i < j < |ps| ==> ps[i].name != ps[j].name
    ensures DistinctKeys(PairsTo(ps, d))
  {
    if |ps| > 0 {
      var n := |ps| - 1;
      var init := ps[..n];
      forall x, y | 0 <= x < y < n ensures init[x].name != init[y].name {
        assert init[x] == ps[x] && init[y] == ps[y];
      }
      PairsToDistinct(init, d);
      var head := PairsTo(init, d);
      var pairs := PairsTo(ps, d);
      if ps[n].dest == d {
        forall a | 0 <= a < |head| ensures head[a].0 != ps[n].name {
          var k := PairsToSource(init, d, a);
          assert init[k] == ps[k];
        }
        assert pairs == head + [(ps[n].name, ps[n].value)];
      } else {
        assert pairs == head;
      }
    }
  }

  /** With distinct property names, the pairs sent to one destination are
      stored as they are. */
  lemma DistinctPairs(ps: seq<Placement>, d: Dest)
    requires forall i, j :: 0 <= i < j < |ps| ==> ps[i].name != ps[j].name
    ensures Collect(PairsTo(ps, d)) == PairsTo(ps, d)
    ensures DistinctKeys(PairsTo(ps, d))
  {
    PairsToDistinct(ps, d);
    CollectFresh(PairsTo(ps, d));
  }

  /** Each property is placed exactly once: with distinct property names, a
      property is a key of its own destination's dictionary, holding its
      value, and of no other. */
  lemma PlacedExactlyOnce(ps: seq<Placement>, count: nat, i: nat, d: Dest)
    requires forall a, b :: 0 <= a < b < |ps| ==> ps[a].name != ps[b].name
    requires i < |ps|
    ensures ps[i].name in Keys(Collect(PairsTo(ps, d))) <==> ps[i].dest == d
    ensures ps[i].dest == d ==> Lookup(Collect(PairsTo(ps, d)), ps[i].name) == Some(ps[i].value)
  {
    DistinctPairs(ps, d);
    var pairs := PairsTo(ps, d);
    if ps[i].dest == d {
      var q := PairsToTarget(ps, d, i);
      LookupDistinct(pairs, q);
    }
    if ps[i].name in Keys(pairs) {
      var q := KeyIndex(pairs, ps[i].name);
      var j := PairsToSource(ps, d, q);
      assert ps[j].name == ps[i].name;
      assert j == i;
    }
  }

  /** The partition as a whole places property `i` exactly once: its
      destination is the options dictionary exactly when its step is -1,
      otherwise the parameter dictionary its step names; it is a key of that
      dictionary alone, holding the group's value (converted for a MeshLab
      type). */
  lemma PartitionedPlacesOnce(names: seq<string>, types: seq<string>, stepOf: seq<Value>, count: nat,
                              group: Dict<string, Value>, i: nat) returns (d: Dest)
    requires forall a, b :: 0 <= a < b < |names| ==> names[a] != names[b]
    requires i < |names|
    requires Partitioned(names, types, stepOf, count, group).Ok?
    ensures var parts := Partitioned(names, types, stepOf, count, group).value;
            && i < |stepOf|
            && (d == Options <==> PyEqInt(stepOf[i], -1))
            && (d.Step? ==> d.index < count)
            && (stepOf[i].Int? && 1 <= stepOf[i].i <= count ==> d == Step(stepOf[i].i - 1))
            && (names[i] in Keys(parts.1) <==> d == Options)
            && (forall j :: 0 <= j < count ==> (names[i] in Keys(parts.0[j]) <==> d == Step(j)))
            && (d == Options ==> Lookup(parts.1, names[i]) == Lookup(group, names[i]))
            && (d.Step? ==> && i < |types| && Lookup(group, names[i]).Some?
                            && Lookup(parts.0[d.index], names[i]) == Some(Convert(types[i], Lookup(group, names[i]).value)))
  {
    var ps := Placements(names, types, stepOf, count, group, |names|).value;
    assert Partitioned(names, types, stepOf, count, group) == Ok(Fill(ps, count));
    PlacementsNamed(names, types, stepOf, count, group, |names|);
    FillPlacesOnce(ps, count, i);
    assert Place(names, types, stepOf, count, group, i) == Ok(ps[i]);
    d := ps[i].dest;
  }

  /** The `a`-th placement is the `a`-th property's. */
  lemma PlacementsNamed(names: seq<string>, types: seq<string>, stepOf: seq<Value>, count: nat,
                        group: Dict<string, Value>, n: nat)
    requires n <= |names| && Placements(names, types, stepOf, count, group, n).Ok?
    ensures forall a :: 0 <= a < n ==> Placements(names, types, stepOf, count, group, n).value[a].name == names[a]
  {
    var ps := Placements(names, types, stepOf, count, group, n).value;
    forall a | 0 <= a < n ensures ps[a].name == names[a] {
      assert Place(names, types, stepOf, count, group, a) == Ok(ps[a]);
    }
  }

  /** With distinct names, the dictionaries the placements fill hold
      placement `i` in its own destination only. */
  lemma FillPlacesOnce(ps: seq<Placement>, count: nat, i: nat)
    requires forall a, b :: 0 <= a < b < |ps| ==> ps[a].name != ps[b].name
    requires i < |ps|
    requires ps[i].dest.Step? ==> ps[i].dest.index < count
    ensures ps[i].name in Keys(Fill(ps, count).1) <==> ps[i].dest == Options
    ensures forall j :: 0 <= j < count ==> (ps[i].name in Keys(Fill(ps, count).0[j]) <==> ps[i].dest == Step(j))
    ensures ps[i].dest == Options ==> Lookup(Fill(ps, count).1, ps[i].name) == Some(ps[i].value)
    ensures ps[i].dest.Step? ==> Lookup(Fill(ps, count).0[ps[i].dest.index], ps[i].name) == Some(ps[i].value)
  {
    PlacedExactlyOnce(ps, count, i, Options);
    forall j | 0 <= j < count ensures ps[i].name in Keys(Fill(ps, count).0[j]) <==> ps[i].dest == Step(j) {
      PlacedExactlyOnce(ps, count, i, Step(j));
    }
    if ps[i].dest.Step? {
      PlacedExactlyOnce(ps, count, i, ps[i].dest);
    }
  }

  /** With no property group nothing is read: every parameter dictionary and
      the options dictionary stay empty. */
  lemma NothingPlaced(count: nat)
    ensures Fill([], count).0 == seq(count, _ => []) && Fill([], count).1 == []
  {
  }
}

=== FILE: payloads.dfy ===
/** The two dictionaries that cross the boundary between the add-on and a
    backend: the `data` dictionary the add-on builds and each backend reads,
    and the result dictionary a backend fills and the add-on reads back. */
module Payloads {
  import opened Wrappers
  import opened Values

  /** The `data` dictionary: flat vertex coordinates, flat face indices, flat
      RGBA colours per vertex or per face, the MeshLab function names, the
      per-step parameter dictionaries, the options dictionary, and the
      decimation factor simplification reads.  An absent key is `None`. */
  datatype Payload = Payload(
    vertices: Option<seq<real>>,
    faces: Option<seq<int>>,
    vertexColor: Option<seq<real>>,
    faceColor: Option<seq<real>>,
    functions: Option<Value>,
    params: Option<Value>,
    options: Option<Value>,
    decimationFactor: Option<Value>)

  const EmptyPayload: Payload := Payload(None, None, None, None, None, None, None, None)

  /** The result dictionary: which output handlers to run (a list of names, or
      a bare string), the message to display, and the geometry or colours the
      handlers read.  An absent key is `None`. */
  datatype Output = Output(
    outputResult: Option<Value>,
    resultInfos: Option<Value>,
    vertices: Option<seq<real>>,
    faces: Option<seq<int>>,
    colors: Option<seq<real>>)

  /** The empty result dictionary `{}`. */
  const NoOutput: Output := Output(None, None, None, None, None)

  /** A list of output handler names. */
  function Names(names: seq<string>): (v: Value)
    ensures v.List? && |v.items| == |names|
    ensures forall i :: 0 <= i < |names| ==> v.items[i] == Str(names[i])
  {
    List(seq(|names|, i requires 0 <= i < |names| => Str(names[i])))
  }
}

=== FILE: property_factory.dfy ===
/** The property factories (`create_*_property` and `properties_factory`):
    each turns the declared `data` of one catalogue property into the
    description of a Blender property widget and the property's default
    value.  The widget description is kept as data; building the actual
    `bpy.props` object is host glue. */
module PropertyFactory {
  import opened Wrappers
  import opened Values
  import opened Strings

  /** One declared enum item: `{"id": …, "name": …, "description": …}`. */
  datatype ItemDecl = ItemDecl(id: Option<Value>, name: Option<Value>, description: Option<Value>)

  /** The `data` object of a catalogue property; every key is optional. */
  datatype PropertyData = PropertyData(
    name: Option<Value>,
    description: Option<Value>,
    default: Option<Value>,
    min: Option<Value>,
    max: Option<Value>,
    step: Option<Value>,
    items: Option<seq<ItemDecl>>,
    subtype: Option<Value>)

  /** An item of an EnumProperty: `(identifier, name, description)`. */
  datatype EnumItem = EnumItem(id: Value, name: Value, description: Value)

  /** The arguments given to the `bpy.props` constructor. */
  datatype Widget =
    | IntWidget(name: Value, description: Value, default: Value, min: Value, max: Value, step: Value)
    | FloatWidget(name: Value, description: Value, default: Value, min: Value, max: Value, step: Value)
    | BoolWidget(name: Value, description: Value, flag: bool)
    | EnumWidget(name: Value, items: seq<EnumItem>, choice: string)
    | VectorWidget(name: Value, description: Value, components: seq<Value>, min: Value, max: Value, subtype: string)

  /** The identifier of the "no option chosen yet" entry every enum starts with. */
  const Sentinel: string := "DEFAULT"
  const SentinelItem: EnumItem := EnumItem(Str(Sentinel), Str("--Choix de l'option--"), Str(""))

  /** The value a widget starts with, as Blender hands it back. */
  function WidgetDefault(w: Widget): Value {
    match w
    case IntWidget(_, _, d, _, _, _) => d
    case FloatWidget(_, _, d, _, _, _) => d
    case BoolWidget(_, _, b) => Bool(b)
    case EnumWidget(_, _, c) => Str(c)
    case VectorWidget(_, _, cs, _, _, _) => Tuple(cs)
  }

  /** `create_integer_property`: the declared default or 0; bounds default to [0, 1], step to 1. */
  function CreateIntegerProperty(data: PropertyData): (r: (Widget, Value))
    ensures r.1 == data.default.GetOr(Int(0))
    ensures r.0.IntWidget? && WidgetDefault(r.0) == r.1
    ensures r.0.min == data.min.GetOr(Int(0)) && r.0.max == data.max.GetOr(Int(1))
    ensures r.0.step == data.step.GetOr(Int(1))
  {
    var d := data.default.GetOr(Int(0));
    (IntWidget(data.name.GetOr(Str("")), data.description.GetOr(Str("")), d,
               data.min.GetOr(Int(0)), data.max.GetOr(Int(1)), data.step.GetOr(Int(1))), d)
  }

  /** `create_float_property`, also used for percentage and pure values. */
  function CreateFloatProperty(data: PropertyData): (r: (Widget, Value))
    ensures r.1 == data.default.GetOr(Int(0))
    ensures r.0.FloatWidget? && WidgetDefault(r.0) == r.1
    ensures r.0.min == data.min.GetOr(Int(0)) && r.0.max == data.max.GetOr(Int(1))
    ensures r.0.step == data.step.GetOr(Int(1))
  {
    var d := data.default.GetOr(Int(0));
    (FloatWidget(data.name.GetOr(Str("")), data.description.GetOr(Str("")), d,
                 data.min.GetOr(Int(0)), data.max.GetOr(Int(1)), data.step.GetOr(Int(1))), d)
  }

  /** `create_boolean_property`: true exactly when the declared default is the string "true". */
  function CreateBooleanProperty(data: PropertyData): (r: (Widget, Value))
    ensures r.1 == Bool(true) <==> data.default == Some(Str("true"))
    ensures r.1.Bool? && r.0.BoolWidget? && WidgetDefault(r.0) == r.1
  {
    var b := data.default.GetOr(Str("")) == Str("true");
    (BoolWidget(data.name.GetOr(Str("")), data.description.GetOr(Str("")), b), Bool(b))
  }

  /** The declared items, in order; an item without "id" or "name" raises KeyError. */
  function MakeItems(decls: seq<ItemDecl>): (r: Outcome<seq<EnumItem>>)
    ensures r.Ok? <==> forall i :: 0 <= i < |decls| ==> decls[i].id.Some? && decls[i].name.Some?
    ensures r.Ok? ==> |r.value| == |decls|
    ensures r.Ok? ==> forall i :: 0 <= i < |decls| ==>
              r.value[i] == EnumItem(decls[i].id.value, decls[i].name.value, decls[i].description.GetOr(Str("")))
  {
    if |decls| == 0 then Ok([])
    else
      var d := decls[0];
      if d.id.None? then Err(KeyError(Str("id")))
      else if d.name.None? then Err(KeyError(Str("name")))
      else
        var rest :- MakeItems(decls[1..]);
        Ok([EnumItem(d.id.value, d.name.value, d.description.GetOr(Str("")))] + rest)
  }

  /** `create_enum_property`: the sentinel item followed by the declared items,
      and the sentinel as the default; a missing "items" raises KeyError. */
  function CreateEnumProperty(data: PropertyData): (r: Outcome<(Widget, Value)>)
    ensures data.items.None? ==> r == Err(KeyError(Str("items")))
    ensures data.items.Some? ==> (r.Ok? <==> MakeItems(data.items.value).Ok?)
    ensures data.items.Some? && r.Err? ==> r.error == MakeItems(data.items.value).error
    ensures r.Ok? ==> r.value.0.EnumWidget? && data.items.Some?
                      && r.value.0.items == [SentinelItem] + MakeItems(data.items.value).value
    ensures r.Ok? ==> r.value.0.EnumWidget? && r.value.0.name == data.name.GetOr(Str(""))
    ensures r.Ok? ==> r.value.1 == Str(Sentinel) && r.value.0.EnumWidget? && WidgetDefault(r.value.0) == r.value.1
    ensures r.Ok? ==> data.items.Some? && |r.value.0.items| == |data.items.value| + 1
                      && r.value.0.items[0] == SentinelItem
                      && forall i :: 0 <= i < |data.items.value| ==>
                           data.items.value[i].id == Some(r.value.0.items[i + 1].id)
                           && data.items.value[i].name == Some(r.value.0.items[i + 1].name)
  {
    if data.items.None? then Err(KeyError(Str("items")))
    else
      var items :- MakeItems(data.items.value);
      Ok((EnumWidget(data.name.GetOr(Str("")), [SentinelItem] + items, Sentinel), Str(Sentinel)))
  }

  /** Whether Blender hands back the value of a FloatVectorProperty of this
      subtype and size as a mathutils Color (a colour subtype of size 3) or
      Vector (a coordinate subtype of size 2 to 4).  Every other property, the
      default subtype "NONE" included, reads as a plain `bpy_prop_array`, or
      as an Euler, Quaternion or Matrix, none of which is a Color or Vector. */
  predicate WrapsValue(subtype: string, size: nat) {
    || ((subtype == "COLOR" || subtype == "COLOR_GAMMA") && size == 3)
    || ((|| subtype == "TRANSLATION" || subtype == "DIRECTION" || subtype == "VELOCITY"
         || subtype == "ACCELERATION" || subtype == "XYZ" || subtype == "XYZ_LENGTH" || subtype == "COORDS")
        && 2 <= size <= 4)
  }

  /** `create_float_vector_property`: `tuple(default)` with `[0, 0, 0]` when
      absent, and the subtype upper-cased ("NONE" when absent). */
  function CreateFloatVectorProperty(data: PropertyData): (r: Outcome<(Widget, Value)>)
    ensures data.default.None? && (data.subtype.None? || data.subtype.value.Str?) ==>
              r.Ok? && r.value.1 == Tuple([Int(0), Int(0), Int(0)])
    ensures data.default.Some? && Iterate(data.default.value).Err? ==> r == Err(Iterate(data.default.value).error)
    ensures data.default.Some? && Iterate(data.default.value).Ok? && (data.subtype.None? || data.subtype.value.Str?) ==>
              r.Ok? && r.value.1 == Tuple(Iterate(data.default.value).value)
    ensures data.subtype.Some? && !data.subtype.value.Str? && (data.default.None? || Iterate(data.default.value).Ok?) ==>
              r == Err(AttributeError("upper"))
    ensures r.Ok? ==> r.value.0.VectorWidget? && WidgetDefault(r.value.0) == r.value.1
    ensures r.Ok? ==> && r.value.0.name == data.name.GetOr(Str(""))
                      && r.value.0.description == data.description.GetOr(Str(""))
                      && r.value.0.min == data.min.GetOr(Int(0)) && r.value.0.max == data.max.GetOr(Int(1))
                      && (data.subtype.None? ==> r.value.0.subtype == "NONE")
                      && (data.subtype.Some? ==> data.subtype.value.Str? && r.value.0.subtype == Upper(data.subtype.value.s))
    ensures r.Ok? && data.subtype.None? ==> !WrapsValue(r.value.0.subtype, |r.value.0.components|)
  {
    var components :- Iterate(data.default.GetOr(List([Int(0), Int(0), Int(0)])));
    var subtype := data.subtype.GetOr(Str("none"));
    if !subtype.Str? then Err(AttributeError("upper"))
    else
      Ok((VectorWidget(data.name.GetOr(Str("")), data.description.GetOr(Str("")), components,
                       data.min.GetOr(Int(0)), data.max.GetOr(Int(1)), Upper(subtype.s)),
          Tuple(components)))
  }

  /** `tuple(default)`: a declared list becomes the vector of its items, in
      order, and a declared string the vector of its characters. */
  lemma VectorDefaultIsTuple(data: PropertyData)
    requires data.default.Some? && (data.default.value.List? || data.default.value.Str?)
    requires data.subtype.None? || data.subtype.value.Str?
    ensures CreateFloatVectorProperty(data).Ok?
    ensures data.default.value.List? ==> CreateFloatVectorProperty(data).value.1 == Tuple(data.default.value.items)
    ensures data.default.value.Str? ==>
              && var t := CreateFloatVectorProperty(data).value.1;
              && t.Tuple? && |t.elems| == |data.default.value.s|
              && forall k :: 0 <= k < |t.elems| ==> t.elems[k] == Str([data.default.value.s[k]])
  {
  }

  /** The five factories. */
  datatype Maker = IntegerMaker | FloatMaker | BooleanMaker | EnumMaker | VectorMaker

  /** `properties_factory`: the factory for each property type. */
  function FactoryFor(kind: string): (m: Option<Maker>)
    ensures m.Some? <==> kind in {"integer", "float", "boolean", "enum", "percentage_value",
                                  "pure_value", "color", "float_array"}
    ensures kind in {"percentage_value", "pure_value"} ==> m == Some(FloatMaker)
    ensures kind in {"color", "float_array"} ==> m == Some(VectorMaker)
  {
    match kind
    case "integer" => Some(IntegerMaker)
    case "float" => Some(FloatMaker)
    case "boolean" => Some(BooleanMaker)
    case "enum" => Some(EnumMaker)
    case "percentage_value" => Some(FloatMaker)
    case "pure_value" => Some(FloatMaker)
    case "color" => Some(VectorMaker)
    case "float_array" => Some(VectorMaker)
    case _ => None
  }

  /** Calls one factory on the property's `data`. */
  function Make(m: Maker, data: PropertyData): (r: Outcome<(Widget, Value)>)
    ensures r.Ok? ==> WidgetDefault(r.value.0) == r.value.1
    ensures m == EnumMaker && r.Ok? ==> r.value.1 == Str(Sentinel)
    ensures m != EnumMaker && m != VectorMaker ==> r.Ok?
  {
    match m
    case IntegerMaker => Ok(CreateIntegerProperty(data))
    case FloatMaker => Ok(CreateFloatProperty(data))
    case BooleanMaker => Ok(CreateBooleanProperty(data))
    case EnumMaker => CreateEnumProperty(data)
    case VectorMaker => CreateFloatVectorProperty(data)
  }
}

=== FILE: py_mesh.dfy ===
/** `PyMeshApi`: the pymeshlab backend.  It reshapes the flat arrays of the
    `data` dictionary into rows of three, applies the named MeshLab filter
    (given here as a parameter) and, for the curvature colouring filter,
    returns the vertex colours. */
module PyMesh {
  import opened Wrappers
  import opened Dicts
  import opened Values
  import opened Payloads
  import opened Triples
  import opened Blender
  import opened OutputHandlers
  import Catalogue
  import Engine

  /** The backend object: the `data` dictionary and the result dictionary,
      empty until `init` fills it. */
  datatype PyMeshApi = PyMeshApi(data: Payload, result: Output)

  /** `PyMeshApi(data)`. */
  function New(data: Payload): (api: PyMeshApi)
    ensures api.data == data && api.result == NoOutput
  {
    PyMeshApi(data, NoOutput)
  }

  /** `np.reshape(a, (len(a) // 3, 3))`: rows of three, or ValueError when
      the length is not a multiple of three. */
  function Reshape<T>(flat: seq<T>): (r: Outcome<seq<(T, T, T)>>)
    ensures r.Ok? <==> |flat| % 3 == 0
    ensures r.Err? ==> r.error == ValueError
    ensures r.Ok? ==> |r.value| == |flat| / 3 && Flatten3(r.value) == flat
  {
    if |flat| % 3 == 0 then
      Flatten3Group3(flat);
      Ok(Group3(flat))
    else Err(ValueError)
  }

  /** The one filter whose result the backend reads back. */
  const CurvatureColoring: string := "compute_curvature_and_color_apss_per_vertex"

  /** `init`.  `filter` stands for building the pymeshlab mesh, applying the
      filter with the keyword arguments, and reading the resulting mesh's
      flattened vertex colour matrix; it may raise.  `params` defaults to
      an empty dictionary and must be a mapping for `**params`. */
  function Init(api: PyMeshApi, filter: (seq<(real, real, real)>, seq<(int, int, int)>, Value, Dict<string, Value>) -> Outcome<seq<real>>)
    : (r: Outcome<PyMeshApi>)
    ensures api.data.vertices.None? ==> r == Err(RuntimeError(MissingVertices))
    ensures api.data.vertices.Some? && |api.data.vertices.value| % 3 != 0 ==> r == Err(ValueError)
    ensures api.data.vertices.Some? && |api.data.vertices.value| % 3 == 0 && api.data.faces.None? ==>
              r == Err(RuntimeError(MissingFaces))
    ensures (&& api.data.vertices.Some? && |api.data.vertices.value| % 3 == 0
             && api.data.faces.Some? && |api.data.faces.value| % 3 != 0)
            ==> r == Err(ValueError)
    ensures (&& api.data.vertices.Some? && |api.data.vertices.value| % 3 == 0
             && api.data.faces.Some? && |api.data.faces.value| % 3 == 0
             && (api.data.functions.None? || api.data.functions.value == Nothing))
            ==> r == Err(RuntimeError(MissingFunction))
    ensures (&& api.data.vertices.Some? && |api.data.vertices.value| % 3 == 0
             && api.data.faces.Some? && |api.data.faces.value| % 3 == 0
             && api.data.functions.Some? && api.data.functions.value != Nothing
             && !api.data.params.GetOr(Dict([])).Dict?)
            ==> r == Err(TypeError)
    ensures (&& api.data.vertices.Some? && |api.data.vertices.value| % 3 == 0
             && api.data.faces.Some? && |api.data.faces.value| % 3 == 0
             && api.data.functions.Some? && api.data.functions.value != Nothing
             && api.data.params.GetOr(Dict([])).Dict?)
            ==> && var colors := filter(Group3(api.data.vertices.value), Group3(api.data.faces.value),
                                        api.data.functions.value, api.data.params.GetOr(Dict([])).entries);
                && (colors.Err? ==> r == Err(colors.error))
                && (colors.Ok? ==> r.Ok?)
    ensures r.Ok? ==> && api.data.vertices.Some? && api.data.faces.Some?
                      && |api.data.vertices.value| % 3 == 0 && |api.data.faces.value| % 3 == 0
                      && api.data.functions.Some? && api.data.functions.value != Nothing
                      && api.data.params.GetOr(Dict([])).Dict?
                      && r.value.data == api.data
    ensures r.Ok? && api.data.functions.value == Str(CurvatureColoring) ==>
              && r.value.result.outputResult == Some(Str("vertex_coloration"))
              && r.value.result.(outputResult := api.result.outputResult, colors := api.result.colors) == api.result
              && var colors := filter(Group3(api.data.vertices.value), Group3(api.data.faces.value),
                                      api.data.functions.value, api.data.params.GetOr(Dict([])).entries);
                 colors.Ok? && r.value.result.colors == Some(colors.value)
    ensures r.Ok? && api.data.functions.value != Str(CurvatureColoring) ==> r.value == api
  {
    var flatVertices :- match api.data.vertices
                        case None => Err(RuntimeError(MissingVertices))
                        case Some(vs) => Ok(vs);
    var vertices :- Reshape(flatVertices);
    var flatFaces :- match api.data.faces
                     case None => Err(RuntimeError(MissingFaces))
                     case Some(fs) => Ok(fs);
    var faces :- Reshape(flatFaces);
    var name :- match api.data.functions
                    case None => Err(RuntimeError(MissingFunction))
                    case Some(Nothing) => Err(RuntimeError(MissingFunction))
                    case Some(f) => Ok(f);
    var params := api.data.params.GetOr(Dict([]));
    var keywords :- if params.Dict? then Ok(params.entries) else Err(TypeError);
    var colors :- filter(vertices, faces, name, keywords);
    if name == Str(CurvatureColoring) then
      Ok(api.(result := api.result.(outputResult := Some(Str("vertex_coloration")), colors := Some(colors))))
    else Ok(api)
  }

  /** `get_result`. */
  function GetResult(api: PyMeshApi): (out: Output)
    ensures out == api.result
  {
    api.result
  }

  /** The add-on always hands the backend a list of parameter dictionaries,
      one per step, which `**params` cannot unpack: whenever the mesh arrays
      and the function name are in place, `init` raises TypeError before
      any filter runs. */
  lemma PreparedParamsRejected(scene: Scene, reg: Catalogue.Registry, triangulate: MeshState -> MeshState,
                               filter: (seq<(real, real, real)>, seq<(int, int, int)>, Value, Dict<string, Value>) -> Outcome<seq<real>>)
    requires scene.active.Some?
    requires Engine.Prepare(scene, reg, triangulate).Ok?
    requires var p := Engine.Prepare(scene, reg, triangulate).value;
             && p.backend == Engine.MeshLabPy
             && p.data.vertices.Some? && |p.data.vertices.value| % 3 == 0
             && p.data.faces.Some? && |p.data.faces.value| % 3 == 0
             && p.data.functions.value != Nothing
    ensures Init(New(Engine.Prepare(scene, reg, triangulate).value.data), filter) == Err(TypeError)
  {
    ListParamsRejected(Engine.Prepare(scene, reg, triangulate).value.data, filter);
  }

  /** `**params` on a list raises TypeError once the arrays and the function
      name have been read. */
  lemma ListParamsRejected(data: Payload,
                           filter: (seq<(real, real, real)>, seq<(int, int, int)>, Value, Dict<string, Value>) -> Outcome<seq<real>>)
    requires data.vertices.Some? && |data.vertices.value| % 3 == 0
    requires data.faces.Some? && |data.faces.value| % 3 == 0
    requires data.functions.Some? && data.functions.value != Nothing
    requires data.params.Some? && data.params.value.List?
    ensures Init(New(data), filter) == Err(TypeError)
  {
    assert data.params.GetOr(Dict([])) == data.params.value;
  }

  /** The colouring filter's tag is a bare string, so the add-on's output
      loop stops on its first character and the colours are never
      applied. */
  lemma ColorTagFails(api: PyMeshApi, filter: (seq<(real, real, real)>, seq<(int, int, int)>, Value, Dict<string, Value>) -> Outcome<seq<real>>,
                      scene: Scene)
    requires scene.active.Some?
    requires Init(api, filter).Ok? && api.data.functions == Some(Str(CurvatureColoring))
    ensures Dispatch(GetResult(Init(api, filter).value), scene) == Run(scene, Some(KeyError(Str("v"))))
  {
    BareStringFails("vertex_coloration", GetResult(Init(api, filter).value), scene);
  }
}

=== FILE: router.dfy ===
/** `Router`: the compiled module's single entry point.  It looks the
    algorithm up in a static table by library number and name, constructs it
    from the `data` dictionary, and forwards `init` and `get_result` to it. */
module Router {
  import opened Wrappers
  import opened Values
  import opened Payloads
  import Catalogue
  import Engine

  /** The C++ algorithm classes the table can construct. */
  datatype Kind = SurfaceMeshSegmentation | SurfaceMeshSimplification | SurfaceAreaComputation | TestCpp | MeshLab

  /** `algorithms_table`: row 0 holds the CGAL and pure C++ algorithms,
      row 1 the MeshLab one. */
  const AlgorithmsTable: seq<map<string, Kind>> := [
    map["segmentation_cgal" := SurfaceMeshSegmentation,
        "simplification_cgal" := SurfaceMeshSimplification,
        "area_computation_cgal" := SurfaceAreaComputation,
        "test_cpp" := TestCpp],
    map["colorize_curvature_apss" := MeshLab]
  ]

  /** pybind11's conversion of the first constructor argument to `int`:
      ints, and booleans (a subclass of int); a float or anything else
      matches no constructor, which is a TypeError. */
  function LanguageId(v: Value): (r: Outcome<int>)
    ensures r.Ok? <==> v.Int? || v.Bool?
    ensures r.Ok? ==> PyEqInt(v, r.value)
    ensures r.Err? ==> r.error == TypeError
  {
    match v
    case Int(i) => Ok(i)
    case Bool(b) => Ok(if b then 1 else 0)
    case _ => Err(TypeError)
  }

  /** `algorithms_table[id][algorithm_name]`: `std::map::operator[]` inserts
      an empty `std::function` for an unknown name, and calling it throws
      `std::bad_function_call`.  The row index is not checked, so it must
      be a row of the table. */
  function Route(id: int, name: string): (r: Outcome<Kind>)
    requires 0 <= id < |AlgorithmsTable|
    ensures r.Ok? ==> name in AlgorithmsTable[id] && r.value == AlgorithmsTable[id][name]
    ensures r.Err? ==> name !in AlgorithmsTable[id] && r.error == BadFunctionCall
  {
    if name in AlgorithmsTable[id] then Ok(AlgorithmsTable[id][name]) else Err(BadFunctionCall)
  }

  /** A constructed router: the current algorithm and its result
      dictionary `m_output_data`, empty until `init` runs. */
  datatype Router<A> = Router(current: A, output: Output)

  /** The pybind11 constructor `Router(id, algorithm_name, data)`;
      `construct` stands for the constructors of the table's classes, each
      of which may raise while reading `data`. */
  function New<A>(language: Value, name: string, data: Payload, construct: (Kind, Payload) -> Outcome<A>)
    : (r: Outcome<Router<A>>)
    requires LanguageId(language).Ok? ==> 0 <= LanguageId(language).value < |AlgorithmsTable|
    ensures LanguageId(language).Err? ==> r == Err(TypeError)
    ensures LanguageId(language).Ok? && name !in AlgorithmsTable[LanguageId(language).value] ==>
              r == Err(BadFunctionCall)
    ensures r.Ok? ==> && LanguageId(language).Ok?
                      && var row := AlgorithmsTable[LanguageId(language).value];
                      && name in row
                      && construct(row[name], data) == Ok(r.value.current)
                      && r.value.output == NoOutput
  {
    var id :- LanguageId(language);
    var kind :- Route(id, name);
    var current :- construct(kind, data);
    Ok(Router(current, NoOutput))
  }

  /** `init`: the current algorithm's `compute_algorithm`.  `compute`
      stands for it, as a step of the algorithm object: it reads and
      rewrites the algorithm's own state (the CGAL mesh is collapsed in
      place, a fresh palette is drawn) and writes keys into the result
      dictionary it already holds. */
  function Init<A>(r: Router<A>, compute: (A, Output) -> (A, Output)): (s: Router<A>)
    ensures (s.current, s.output) == compute(r.current, r.output)
  {
    var (next, out) := compute(r.current, r.output);
    Router(next, out)
  }

  /** `get_result`: the current algorithm's result dictionary. */
  function GetResult<A>(r: Router<A>): (out: Output)
    ensures out == r.output
  {
    r.output
  }

  /** What `compute_algorithm` does with a router: construct it, call
      `init`, then `get_result`. */
  function Invoke<A>(language: Value, name: string, data: Payload,
                     construct: (Kind, Payload) -> Outcome<A>, compute: (A, Output) -> (A, Output)): (r: Outcome<Output>)
    requires LanguageId(language).Ok? ==> 0 <= LanguageId(language).value < |AlgorithmsTable|
    ensures r.Ok? <==> New(language, name, data, construct).Ok?
    ensures r.Err? ==> r.error == New(language, name, data, construct).error
    ensures r.Ok? ==> r.value == compute(New(language, name, data, construct).value.current, NoOutput).1
  {
    var router :- New(language, name, data, construct);
    Ok(GetResult(Init(router, compute)))
  }

  /** Before `init`, `get_result` is the empty dictionary: a router is not
      computed by constructing it. */
  lemma ResultBeforeInitIsEmpty<A>(language: Value, name: string, data: Payload, construct: (Kind, Payload) -> Outcome<A>)
    requires LanguageId(language).Ok? ==> 0 <= LanguageId(language).value < |AlgorithmsTable|
    requires New(language, name, data, construct).Ok?
    ensures GetResult(New(language, name, data, construct).value) == NoOutput
  {
  }

  /** The table names every class once: two entries that construct the same
      class are the same entry. */
  lemma KindsAreDistinct(i: nat, j: nat, a: string, b: string)
    requires i < |AlgorithmsTable| && j < |AlgorithmsTable|
    requires a in AlgorithmsTable[i] && b in AlgorithmsTable[j]
    requires AlgorithmsTable[i][a] == AlgorithmsTable[j][b]
    ensures i == j && a == b
  {
    var t0 := AlgorithmsTable[0];
    assert t0.Keys == {"segmentation_cgal", "simplification_cgal", "area_computation_cgal", "test_cpp"};
    assert AlgorithmsTable[1].Keys == {"colorize_curvature_apss"};
  }

  /** The algorithm names the table knows, row by row. */
  lemma TableNames(name: string)
    ensures Route(0, name).Ok? <==>
              name in {"segmentation_cgal", "simplification_cgal", "area_computation_cgal", "test_cpp"}
    ensures Route(1, name).Ok? <==> name == "colorize_curvature_apss"
  {
  }

  /** The add-on sends every algorithm whose language equals 1 to pymeshlab,
      so a router it constructs never uses row 1 of the table. */
  lemma MeshLabRowUnreachable(rec: Catalogue.Record, name: string)
    requires Engine.BackendFor(rec, name).Native?
    requires LanguageId(rec.language).Ok?
    ensures LanguageId(rec.language).value != 1
  {
  }
}

=== FILE: scene.dfy ===
/** The part of Blender's state the add-on reads and writes: the active mesh
    object, the other objects it added, the add-on's own properties and the
    current values of each algorithm's property group. */
module Blender {
  import opened Wrappers
  import opened Values
  import opened Dicts

  /** A generic mesh attribute (`mesh.attributes[i]`): its name, data type,
      domain and, for colour attributes, its flat RGBA data. */
  datatype Attribute = Attribute(name: string, dataType: string, domain: string, colors: seq<real>)

  /** A mesh: vertex positions, polygons as vertex-index lists, the position
      in `attributes` of the active colour attribute
      (`color_attributes.active_color`, if any), the generic attributes in
      creation order, the materials and each polygon's material index. */
  datatype MeshState = MeshState(
    vertices: seq<(real, real, real)>,
    polygons: seq<seq<int>>,
    activeColor: Option<nat>,
    attributes: seq<Attribute>,
    materials: seq<string>,
    materialIndex: seq<int>)

  /** The active colour attribute, or none; a reference past the last
      attribute names nothing. */
  function ActiveLayer(m: MeshState): (r: Option<Attribute>)
    ensures r.Some? <==> m.activeColor.Some? && m.activeColor.value < |m.attributes|
    ensures r.Some? ==> r.value == m.attributes[m.activeColor.value]
  {
    if m.activeColor.Some? && m.activeColor.value < |m.attributes| then Some(m.attributes[m.activeColor.value])
    else None
  }

  /** The scene: the algorithm menu's current choice, the message shown to the
      user, the property group values by algorithm identifier, the active mesh
      object (absent when nothing, or something other than a mesh, is
      active) and the objects pushed aside by `add_mesh`. */
  datatype Scene = Scene(
    choice: string,
    resultInfos: Value,
    groups: map<string, Dict<string, Value>>,
    active: Option<MeshState>,
    others: seq<MeshState>)

  /** `getattr(context.scene, name, None)`: the property group registered
      under `name`, if any. */
  function GroupValues(scene: Scene, name: string): (r: Option<Dict<string, Value>>)
    ensures r.Some? <==> name in scene.groups
    ensures r.Some? ==> r.value == scene.groups[name]
  {
    if name in scene.groups then Some(scene.groups[name]) else None
  }

  /** `getattr(group, name)`: a property that is not there raises AttributeError. */
  function GetAttr(group: Dict<string, Value>, name: string): (r: Outcome<Value>)
    ensures r.Ok? <==> name in Keys(group)
    ensures r.Ok? ==> Lookup(group, name) == Some(r.value)
    ensures r.Err? ==> r.error == AttributeError(name)
  {
    match Lookup(group, name)
    case Some(v) => Ok(v)
    case None => Err(AttributeError(name))
  }
}

=== FILE: segmentation.dfy ===
/** `SurfaceMeshSegmentation`: reads the mesh and two parameters from the
    `data` dictionary, segments the mesh with CGAL (given here as a
    parameter), and returns either a message or one colour per segment. */
module Segmentation {
  import opened Wrappers
  import opened Dicts
  import opened Values
  import opened Payloads
  import opened SurfaceMeshes
  import opened Blender
  import opened OutputHandlers

  /** The values the constructor reads, in the order it reads them. */
  datatype Inputs = Inputs(faces: seq<int>, vertices: seq<real>, clusters: int, smoothness: real, option: Value)

  /** `obj.cast<py::list>()`. */
  function CastList(v: Value): (r: Outcome<seq<Value>>)
    ensures v.List? ==> r == Ok(v.items)
    ensures !v.List? ==> r == Err(CastError)
  {
    if v.List? then Ok(v.items) else Err(CastError)
  }

  /** `obj.cast<py::dict>()`. */
  function CastDict(v: Value): (r: Outcome<Dict<string, Value>>)
    ensures v.Dict? ==> r == Ok(v.entries)
    ensures !v.Dict? ==> r == Err(CastError)
  {
    if v.Dict? then Ok(v.entries) else Err(CastError)
  }

  /** The constructor's reads: faces, vertices, the first parameter
      dictionary, its `clusters` and `smoothness`, then the output option. */
  function ReadInputs(data: Payload): (r: Outcome<Inputs>)
    ensures data.faces.None? ==> r == Err(KeyError(Str("faces")))
    ensures data.faces.Some? && data.vertices.None? ==> r == Err(KeyError(Str("vertices")))
    ensures data.faces.Some? && data.vertices.Some? && data.params.None? ==> r == Err(KeyError(Str("params")))
    ensures data.faces.Some? && data.vertices.Some? && data.params == Some(List([])) ==> r == Err(IndexError)
    ensures r.Ok? ==> && data.faces == Some(r.value.faces) && data.vertices == Some(r.value.vertices)
                      && data.params.Some? && data.params.value.List? && |data.params.value.items| > 0
                      && data.params.value.items[0].Dict?
                      && var first := data.params.value.items[0].entries;
                      && Lookup(first, "clusters").Some? && PyIntOf(Lookup(first, "clusters").value) == Ok(r.value.clusters)
                      && Lookup(first, "smoothness").Some? && PyFloatOf(Lookup(first, "smoothness").value) == Ok(r.value.smoothness)
                      && data.options.Some? && Subscript(data.options.value, "output_option") == Ok(r.value.option)
  {
    var faces :- Need(data.faces, "faces");
    var vertices :- Need(data.vertices, "vertices");
    var paramsValue :- Need(data.params, "params");
    var params :- CastList(paramsValue);
    var firstValue :- if |params| > 0 then Ok(params[0]) else Err(IndexError);
    var first :- CastDict(firstValue);
    var clustersValue :- Need(Lookup(first, "clusters"), "clusters");
    var clusters :- PyIntOf(clustersValue);
    var smoothnessValue :- Need(Lookup(first, "smoothness"), "smoothness");
    var smoothness :- PyFloatOf(smoothnessValue);
    var options :- Need(data.options, "options");
    var option :- Subscript(options, "output_option");
    Ok(Inputs(faces, vertices, clusters, smoothness, option))
  }

  /** The constructed algorithm: the mesh, its parameters, and the number of
      faces Blender sent. */
  datatype SurfaceMeshSegmentation = SurfaceMeshSegmentation(
    mesh: SurfaceMesh, clusters: int, smoothness: real, option: Value, faceCount: nat)

  /** The constructor.  Beyond its reads, it needs whole rows of three and
      face indices that name a vertex, which it does not check. */
  function New(data: Payload, accepts: (SurfaceMesh, Triangle) -> bool): (r: Outcome<SurfaceMeshSegmentation>)
    requires ReadInputs(data).Ok? ==> WellFormedArrays(ReadInputs(data).value.vertices, ReadInputs(data).value.faces)
    ensures r.Ok? <==> ReadInputs(data).Ok?
    ensures r.Err? ==> r.error == ReadInputs(data).error
    ensures r.Ok? ==> && var inputs := ReadInputs(data).value;
                      && r.value.faceCount == |inputs.faces| / 3
                      && r.value.mesh == Build(inputs.vertices, inputs.faces, accepts)
                      && r.value.clusters == inputs.clusters && r.value.smoothness == inputs.smoothness
                      && r.value.option == inputs.option
  {
    var inputs :- ReadInputs(data);
    Ok(SurfaceMeshSegmentation(Build(inputs.vertices, inputs.faces, accepts), inputs.clusters, inputs.smoothness,
                               inputs.option, |inputs.faces| / 3))
  }

  /** Every descriptor the mesh mentions names a stored point. */
  predicate WellFormedMesh(m: SurfaceMesh) {
    && (forall k :: 0 <= k < |m.live| ==> m.live[k] < |m.points|)
    && (forall j :: 0 <= j < |m.faces| ==> m.faces[j].0 < |m.points| && m.faces[j].1 < |m.points| && m.faces[j].2 < |m.points|)
  }

  /** A mesh built from well-formed arrays is well formed. */
  lemma BuildWellFormed(vertices: seq<real>, faces: seq<int>, accepts: (SurfaceMesh, Triangle) -> bool)
    requires WellFormedArrays(vertices, faces)
    ensures WellFormedMesh(Build(vertices, faces, accepts))
  {
    var m := Build(vertices, faces, accepts);
    forall j | 0 <= j < |m.faces|
      ensures m.faces[j].0 < |m.points| && m.faces[j].1 < |m.points| && m.faces[j].2 < |m.points|
    {
      var tris := Triangles(faces);
      var k :| 0 <= k < |tris| && tris[k] == m.faces[j];
      assert 3 * k + 2 < |faces|;
    }
  }

  /** RGBA per face: the colour of the face's segment, alpha 1. */
  function FaceColors(ids: seq<nat>, palette: seq<Point>): (r: seq<real>)
    requires forall k :: 0 <= k < |ids| ==> ids[k] < |palette|
    ensures |r| == 4 * |ids|
    ensures forall k :: 0 <= k < |ids| ==>
              && (r[4 * k], r[4 * k + 1], r[4 * k + 2]) == palette[ids[k]]
              && r[4 * k + 3] == 1.0
    decreases |ids|
  {
    if |ids| == 0 then []
    else
      var n := |ids| - 1;
      var init := FaceColors(ids[..n], palette);
      var c := palette[ids[n]];
      assert forall k :: 0 <= k < n ==> ids[..n][k] == ids[k];
      init + [c.0, c.1, c.2, 1.0]
  }

  /** Faces of the same segment get the same colour. */
  lemma SameSegmentSameColor(ids: seq<nat>, palette: seq<Point>, j: nat, k: nat)
    requires forall i :: 0 <= i < |ids| ==> ids[i] < |palette|
    requires j < |ids| && k < |ids| && ids[j] == ids[k]
    ensures var r := FaceColors(ids, palette);
            r[4 * j] == r[4 * k] && r[4 * j + 1] == r[4 * k + 1] && r[4 * j + 2] == r[4 * k + 2] && r[4 * j + 3] == r[4 * k + 3]
  {
    var r := FaceColors(ids, palette);
    assert (r[4 * j], r[4 * j + 1], r[4 * j + 2]) == palette[ids[j]];
    assert (r[4 * k], r[4 * k + 1], r[4 * k + 2]) == palette[ids[k]];
  }

  /** `set_segments_ids_to_colors`: when CGAL kept fewer faces than Blender
      sent, the mesh is sent back first, to replace Blender's; then one RGBA
      colour per face.  `ids` is the segment of each face and `palette` the
      random colours drawn, one per segment. */
  function SegmentsToColors(s: SurfaceMeshSegmentation, ids: seq<nat>, palette: seq<Point>): (out: Output)
    requires WellFormedMesh(s.mesh)
    requires |ids| == |s.mesh.faces|
    requires forall k :: 0 <= k < |ids| ==> ids[k] < |palette|
    ensures s.faceCount != |s.mesh.faces| ==> out.outputResult == Some(Names(["replace_mesh", "face_coloration"]))
    ensures s.faceCount == |s.mesh.faces| ==> out.outputResult == Some(Names(["face_coloration"]))
    ensures out.vertices.Some? <==> s.faceCount != |s.mesh.faces|
    ensures out.faces.Some? <==> s.faceCount != |s.mesh.faces|
    ensures out.vertices.Some? ==> && |out.vertices.value| == 3 * |s.mesh.live|
                                   && forall k :: 0 <= k < |s.mesh.live| ==>
                                        (out.vertices.value[3 * k], out.vertices.value[3 * k + 1], out.vertices.value[3 * k + 2])
                                        == s.mesh.points[s.mesh.live[k]]
    ensures out.faces.Some? ==> && |out.faces.value| == 3 * |s.mesh.faces|
                                && forall j :: 0 <= j < |s.mesh.faces| ==>
                                     out.faces.value[3 * j..3 * j + 3] == [s.mesh.faces[j].0, s.mesh.faces[j].1, s.mesh.faces[j].2]
    ensures out.colors == Some(FaceColors(ids, palette)) && out.resultInfos.None?
  {
    var replace := s.faceCount != |s.mesh.faces|;
    var faces := FlatFaces(s.mesh.faces, v => v);
    assert forall j :: 0 <= j < |s.mesh.faces| ==>
             faces[3 * j..3 * j + 3] == [faces[3 * j], faces[3 * j + 1], faces[3 * j + 2]];
    Output(Some(Names(if replace then ["replace_mesh", "face_coloration"] else ["face_coloration"])),
           None,
           if replace then Some(FlatPoints(s.mesh)) else None,
           if replace then Some(faces) else None,
           Some(FaceColors(ids, palette)))
  }

  /** What CGAL's segmentation returns: a segment id per face and the number
      of segments. */
  datatype Segments = Segments(ids: seq<nat>, count: nat)

  /** What the colour path needs from CGAL and the random palette: one id
      per face, each below the number of colours drawn. */
  predicate Colorable(s: SurfaceMeshSegmentation, seg: Segments, palette: seq<Point>) {
    && |seg.ids| == |s.mesh.faces| && |palette| == seg.count
    && forall k :: 0 <= k < |seg.ids| ==> seg.ids[k] < seg.count
  }

  /** `compute_algorithm`: `segment` stands for CGAL's SDF computation and
      segmentation, `palette` for the random colours and `message` for the
      formatting of the parameter report. */
  function Compute(s: SurfaceMeshSegmentation, segment: (SurfaceMesh, int, real) -> Segments, palette: seq<Point>,
                   message: (int, real, nat) -> string): (out: Output)
    requires WellFormedMesh(s.mesh)
    requires s.option == Str("SEGMENTS_COLOR") ==> Colorable(s, segment(s.mesh, s.clusters, s.smoothness), palette)
    ensures s.option != Str("SEGMENTS_COLOR") ==>
              out == Output(Some(Names(["message"])),
                            Some(Str(message(s.clusters, s.smoothness, segment(s.mesh, s.clusters, s.smoothness).count))),
                            None, None, None)
    ensures s.option == Str("SEGMENTS_COLOR") ==>
              out == SegmentsToColors(s, segment(s.mesh, s.clusters, s.smoothness).ids, palette)
  {
    var seg := segment(s.mesh, s.clusters, s.smoothness);
    if s.option == Str("SEGMENTS_COLOR") then SegmentsToColors(s, seg.ids, palette)
    else Output(Some(Names(["message"])), Some(Str(message(s.clusters, s.smoothness, seg.count))), None, None, None)
  }

  /** When CGAL accepts every face Blender sent, the colour path returns
      colours only: the face count is unchanged. */
  lemma WholeMeshOnlyColored(data: Payload, ids: seq<nat>, palette: seq<Point>)
    requires ReadInputs(data).Ok?
    requires WellFormedArrays(ReadInputs(data).value.vertices, ReadInputs(data).value.faces)
    requires var s := New(data, (m, t) => true).value;
             |ids| == |s.mesh.faces| && forall k :: 0 <= k < |ids| ==> ids[k] < |palette|
    ensures var s := New(data, (m, t) => true).value;
            && WellFormedMesh(s.mesh)
            && SegmentsToColors(s, ids, palette).outputResult == Some(Names(["face_coloration"]))
  {
    var inputs := ReadInputs(data).value;
    var accepts: (SurfaceMesh, Triangle) -> bool := (m, t) => true;
    BuildWellFormed(inputs.vertices, inputs.faces, accepts);
    var n := |inputs.vertices| / 3;
    AddFacesAll(SurfaceMesh(Triples.Group3(inputs.vertices), seq(n, k requires 0 <= k < n => k), []), Triangles(inputs.faces), accepts);
  }

    /** A run of the output handlers that ended without error on an active
      mesh of `faceCount` polygons whose last attribute holds `colors`. */
  predicate ColoredRun(r: Run, faceCount: nat, colors: seq<real>) {
    && r.error.None?
    && r.scene.active.Some?
    && |r.scene.active.value.polygons| == faceCount
    && |r.scene.active.value.attributes| >= 1
    && r.scene.active.value.attributes[|r.scene.active.value.attributes| - 1].colors == colors
  }

/** The colour path's result with a rebuilt mesh goes through Blender's
      output handlers without error: the rebuilt mesh replaces the active
      one and carries the segment colours. */
  lemma RebuiltMeshColored(s: SurfaceMeshSegmentation, ids: seq<nat>, palette: seq<Point>, scene: Scene)
    requires WellFormedMesh(s.mesh)
    requires |ids| == |s.mesh.faces| && forall k :: 0 <= k < |ids| ==> ids[k] < |palette|
    requires s.faceCount != |s.mesh.faces|
    requires scene.active.Some?
    ensures ColoredRun(Dispatch(SegmentsToColors(s, ids, palette), scene), |s.mesh.faces|, FaceColors(ids, palette))
  {
    var out := RebuiltOutput(s, ids, palette);
    ReplacedAndColored(out, scene, |s.mesh.faces|, FaceColors(ids, palette));
  }

  /** The output sent back when CGAL dropped faces: both names, both arrays
      and one colour per face. */
  lemma RebuiltOutput(s: SurfaceMeshSegmentation, ids: seq<nat>, palette: seq<Point>) returns (out: Output)
    requires WellFormedMesh(s.mesh)
    requires |ids| == |s.mesh.faces| && forall k :: 0 <= k < |ids| ==> ids[k] < |palette|
    requires s.faceCount != |s.mesh.faces|
    ensures out == SegmentsToColors(s, ids, palette)
    ensures out.outputResult == Some(Names(["replace_mesh", "face_coloration"]))
    ensures out.vertices.Some? && out.faces.Some? && out.colors == Some(FaceColors(ids, palette))
    ensures |out.faces.value| == 3 * |s.mesh.faces|
  {
    out := SegmentsToColors(s, ids, palette);
  }

  /** `ReplaceThenColor`, stated for an output whose face array and colours
      are known. */
  lemma ReplacedAndColored(out: Output, scene: Scene, faceCount: nat, colors: seq<real>)
    requires scene.active.Some?
    requires out.outputResult == Some(Names(["replace_mesh", "face_coloration"]))
    requires out.vertices.Some? && out.faces.Some? && out.colors == Some(colors)
    requires |out.faces.value| == 3 * faceCount
    ensures ColoredRun(Dispatch(out, scene), faceCount, colors)
  {
    ReplaceThenColor(out, scene);
  }
}

=== FILE: simplification.dfy ===
/** `SurfaceMeshSimplification`: builds a CGAL mesh from the `data`
    dictionary, collapses edges (given here as a parameter), renumbers the
    remaining vertices from 0 and returns the new mesh as flat arrays. */
module Simplification {
  import opened Wrappers
  import opened Values
  import opened Payloads
  import opened Triples
  import opened SurfaceMeshes
  import opened Blender
  import opened OutputHandlers
  import Segmentation
  import Engine
  import Catalogue

  /** The constructor's reads: faces, vertices, then the decimation factor. */
  function ReadInputs(data: Payload): (r: Outcome<(seq<int>, seq<real>, real)>)
    ensures data.faces.None? ==> r == Err(KeyError(Str("faces")))
    ensures data.faces.Some? && data.vertices.None? ==> r == Err(KeyError(Str("vertices")))
    ensures data.faces.Some? && data.vertices.Some? && data.decimationFactor.None? ==>
              r == Err(KeyError(Str("decimation_factor")))
    ensures r.Ok? ==> && data.faces == Some(r.value.0) && data.vertices == Some(r.value.1)
                      && data.decimationFactor.Some? && PyFloatOf(data.decimationFactor.value) == Ok(r.value.2)
  {
    var faces :- Need(data.faces, "faces");
    var vertices :- Need(data.vertices, "vertices");
    var factor :- Need(data.decimationFactor, "decimation_factor");
    var ratio :- match PyFloatOf(factor)
                 case Ok(x) => Ok(x)
                 case Err(_) => Err(CastError);
    Ok((faces, vertices, ratio))
  }

  /** The constructed algorithm: the mesh and the edge-count ratio at which
      collapsing stops. */
  datatype SurfaceMeshSimplification = SurfaceMeshSimplification(mesh: SurfaceMesh, stopRatio: real)

  /** The constructor; like the segmentation's, it needs whole rows of three
      and face indices that name a vertex. */
  function New(data: Payload, accepts: (SurfaceMesh, Triangle) -> bool): (r: Outcome<SurfaceMeshSimplification>)
    requires ReadInputs(data).Ok? ==> WellFormedArrays(ReadInputs(data).value.1, ReadInputs(data).value.0)
    ensures r.Ok? <==> ReadInputs(data).Ok?
    ensures r.Err? ==> r.error == ReadInputs(data).error
    ensures r.Ok? ==> && var (faces, vertices, ratio) := ReadInputs(data).value;
                      && r.value == SurfaceMeshSimplification(Build(vertices, faces, accepts), ratio)
  {
    var (faces, vertices, ratio) :- ReadInputs(data);
    Ok(SurfaceMeshSimplification(Build(vertices, faces, accepts), ratio))
  }

  /** The add-on never puts a decimation factor in `data`, so whatever it
      prepares for an algorithm, this constructor fails on it. */
  lemma CallerOmitsDecimationFactor(scene: Scene, reg: Catalogue.Registry, triangulate: MeshState -> MeshState,
                                    accepts: (SurfaceMesh, Triangle) -> bool)
    requires scene.active.Some?
    requires Engine.Prepare(scene, reg, triangulate).Ok?
    requires var data := Engine.Prepare(scene, reg, triangulate).value.data;
             ReadInputs(data).Ok? ==> WellFormedArrays(ReadInputs(data).value.1, ReadInputs(data).value.0)
    ensures var data := Engine.Prepare(scene, reg, triangulate).value.data;
            && New(data, accepts).Err?
            && New(data, accepts).error in {KeyError(Str("faces")), KeyError(Str("vertices")), KeyError(Str("decimation_factor"))}
  {
  }

  /** `get_vertex_reindexing`: the i-th visited vertex is numbered i. */
  function Reindex(live: seq<nat>): (r: map<nat, int>)
    ensures r.Keys == set k | 0 <= k < |live| :: live[k]
    ensures forall v :: v in r ==> 0 <= r[v] < |live|
    ensures forall v :: v in r ==> live[r[v]] == v
    decreases |live|
  {
    if |live| == 0 then map[]
    else
      var init := live[..|live| - 1];
      var r := Reindex(init);
      assert forall k :: 0 <= k < |init| ==> init[k] == live[k];
      r[live[|live| - 1] := |live| - 1]
  }

  /** With distinct descriptors (as `vertices()` visits them), vertex k of
      the visiting order is numbered k, so the numbering is a bijection onto
      0..n-1. */
  lemma ReindexPositions(live: seq<nat>, k: nat)
    requires forall a, b :: 0 <= a < b < |live| ==> live[a] != live[b]
    requires k < |live|
    ensures live[k] in Reindex(live) && Reindex(live)[live[k]] == k
  {
    var r := Reindex(live);
    assert live[r[live[k]]] == live[k];
  }

  /** `vertex_reindexing[vertex]`: `std::map::operator[]` inserts and returns
      0 for a descriptor it has not seen. */
  function NewIndex(reindex: map<nat, int>, v: nat): int {
    if v in reindex then reindex[v] else 0
  }

  /** `update_face_indices`: the new number of each vertex around each face,
      face after face.  Every number names a vertex of the new array, since
      an unseen descriptor gets 0. */
  function NewFaces(m: SurfaceMesh): (r: seq<int>)
    ensures |r| == 3 * |m.faces|
    ensures forall j :: 0 <= j < |m.faces| ==>
              && r[3 * j] == NewIndex(Reindex(m.live), m.faces[j].0)
              && r[3 * j + 1] == NewIndex(Reindex(m.live), m.faces[j].1)
              && r[3 * j + 2] == NewIndex(Reindex(m.live), m.faces[j].2)
    ensures |m.live| > 0 ==> forall i :: 0 <= i < |r| ==> 0 <= r[i] < |m.live|
  {
    var reindex := Reindex(m.live);
    var t := seq(|m.faces|, j requires 0 <= j < |m.faces| =>
                   (NewIndex(reindex, m.faces[j].0), NewIndex(reindex, m.faces[j].1), NewIndex(reindex, m.faces[j].2)));
    var r := Flatten3(t);
    assert |m.live| > 0 ==> forall i :: 0 <= i < |r| ==> 0 <= r[i] < |m.live| by {
      if |m.live| > 0 {
        forall i | 0 <= i < |r| ensures 0 <= r[i] < |m.live| {
          Flatten3Element(t, i);
          var j := i / 3;
          NewIndexInRange(m.live, m.faces[j].0);
          NewIndexInRange(m.live, m.faces[j].1);
          NewIndexInRange(m.live, m.faces[j].2);
        }
      }
    }
    r
  }

  /** Every new number names a vertex of the new array, as long as the
      collapsed mesh keeps a vertex. */
  lemma NewIndexInRange(live: seq<nat>, v: nat)
    requires |live| > 0
    ensures 0 <= NewIndex(Reindex(live), v) < |live|
  {
  }

  /** `compute_algorithm`: `collapse` stands for CGAL's edge collapse with the
      edge-count-ratio stop predicate.  The result tags itself "new_mesh", a
      bare string. */
  function Compute(s: SurfaceMeshSimplification, collapse: (SurfaceMesh, real) -> SurfaceMesh): (out: Output)
    requires Segmentation.WellFormedMesh(collapse(s.mesh, s.stopRatio))
    ensures var m := collapse(s.mesh, s.stopRatio);
            && out.outputResult == Some(Str("new_mesh")) && out.resultInfos.None? && out.colors.None?
            && out.vertices == Some(FlatPoints(m))
            && out.faces == Some(NewFaces(m))
  {
    var m := collapse(s.mesh, s.stopRatio);
    Output(Some(Str("new_mesh")), None, Some(FlatPoints(m)), Some(NewFaces(m)), None)
  }

  /** A visited vertex's new number leads to its own coordinates in the
      new vertex array. */
  lemma CornerKeepsGeometry(m: SurfaceMesh, v: nat)
    requires Segmentation.WellFormedMesh(m)
    requires forall a, b :: 0 <= a < b < |m.live| ==> m.live[a] != m.live[b]
    requires v in m.live
    ensures var i := NewIndex(Reindex(m.live), v);
            var vs := FlatPoints(m);
            0 <= i < |m.live| && (vs[3 * i], vs[3 * i + 1], vs[3 * i + 2]) == m.points[v]
  {
    var a :| 0 <= a < |m.live| && m.live[a] == v;
    CornerAt(m, a);
  }

  /** `CornerKeepsGeometry` for the vertex visited at position `a`. */
  lemma CornerAt(m: SurfaceMesh, a: nat)
    requires Segmentation.WellFormedMesh(m)
    requires forall a, b :: 0 <= a < b < |m.live| ==> m.live[a] != m.live[b]
    requires a < |m.live|
    ensures NewIndex(Reindex(m.live), m.live[a]) == a
    ensures var vs := FlatPoints(m);
            3 * a + 2 < |vs| && (vs[3 * a], vs[3 * a + 1], vs[3 * a + 2]) == m.points[m.live[a]]
  {
    ReindexPositions(m.live, a);
    FlatPointsAt(m, a);
  }

  /** The renumbering keeps the geometry: in the arrays `compute_algorithm`
      sends back for the collapsed mesh `m`, each corner of each face points
      at the coordinates of the vertex it had in `m`. */
  lemma RenumberingKeepsGeometry(m: SurfaceMesh, j: nat)
    requires Segmentation.WellFormedMesh(m)
    requires forall a, b :: 0 <= a < b < |m.live| ==> m.live[a] != m.live[b]
    requires j < |m.faces|
    requires m.faces[j].0 in m.live && m.faces[j].1 in m.live && m.faces[j].2 in m.live
    ensures var vs, fs := FlatPoints(m), NewFaces(m);
            && 0 <= fs[3 * j] < |m.live| && 0 <= fs[3 * j + 1] < |m.live| && 0 <= fs[3 * j + 2] < |m.live|
            && (vs[3 * fs[3 * j]], vs[3 * fs[3 * j] + 1], vs[3 * fs[3 * j] + 2]) == m.points[m.faces[j].0]
            && (vs[3 * fs[3 * j + 1]], vs[3 * fs[3 * j + 1] + 1], vs[3 * fs[3 * j + 1] + 2]) == m.points[m.faces[j].1]
            && (vs[3 * fs[3 * j + 2]], vs[3 * fs[3 * j + 2] + 1], vs[3 * fs[3 * j + 2] + 2]) == m.points[m.faces[j].2]
  {
    var fs := NewFaces(m);
    assert fs[3 * j] == NewIndex(Reindex(m.live), m.faces[j].0);
    assert fs[3 * j + 1] == NewIndex(Reindex(m.live), m.faces[j].1);
    assert fs[3 * j + 2] == NewIndex(Reindex(m.live), m.faces[j].2);
    CornerKeepsGeometry(m, m.faces[j].0);
    CornerKeepsGeometry(m, m.faces[j].1);
    CornerKeepsGeometry(m, m.faces[j].2);
  }

  /** The "new_mesh" tag is a bare string, which the add-on's output loop
      walks character by character: the run ends on a KeyError for "n",
      with the scene untouched. */
  lemma NewMeshTagFails(s: SurfaceMeshSimplification, collapse: (SurfaceMesh, real) -> SurfaceMesh, scene: Scene)
    requires Segmentation.WellFormedMesh(collapse(s.mesh, s.stopRatio))
    requires scene.active.Some?
    ensures Dispatch(Compute(s, collapse), scene) == Run(scene, Some(KeyError(Str("n"))))
  {
    BareStringFails("new_mesh", Compute(s, collapse), scene);
  }
}

=== FILE: strings.dfy ===
/** The Python string operations the add-on relies on: `split(sep)`,
    `sep.join`, `strip()`, `upper()`/`lower()` and `translate`. */
module Strings {

  /** `str.isspace` for one character: the characters Python's `strip()`
      removes (Unicode white space, bidirectional classes WS, B and S). */
  predicate IsSpace(c: char) {
    || c == ' '
    || ('\U{0009}' <= c <= '\U{000D}')
    || ('\U{001C}' <= c <= '\U{001F}')
    || c == '\U{0085}' || c == '\U{00A0}' || c == '\U{1680}'
    || ('\U{2000}' <= c <= '\U{200A}')
    || c == '\U{2028}' || c == '\U{2029}' || c == '\U{202F}'
    || c == '\U{205F}' || c == '\U{3000}'
  }

  /** `s.split(sep)` with a one-character separator: empty pieces are kept, so
      there is always one more piece than there are separators. */
  function Split(s: string, sep: char): (parts: seq<string>)
    ensures |parts| >= 1
    ensures forall i :: 0 <= i < |parts| ==> sep !in parts[i]
  {
    if |s| == 0 then [""]
    else
      var rest := Split(s[1..], sep);
      if s[0] == sep then [""] + rest
      else [[s[0]] + rest[0]] + rest[1..]
  }

  /** `sep.join(parts)`. */
  function Join(parts: seq<string>, sep: char): string {
    if |parts| == 0 then ""
    else if |parts| == 1 then parts[0]
    else parts[0] + [sep] + Join(parts[1..], sep)
  }

  /** Joining the pieces of a split gives the string back. */
  lemma {:induction false} JoinSplit(s: string, sep: char)
    ensures Join(Split(s, sep), sep) == s
  {
    if |s| > 0 {
      var rest := Split(s[1..], sep);
      JoinSplit(s[1..], sep);
      if s[0] == sep {
        assert Split(s, sep) == [""] + rest;
        assert s == [] + [sep] + s[1..];
      } else {
        var parts := Split(s, sep);
        assert parts == [[s[0]] + rest[0]] + rest[1..];
        if |rest| == 1 {
          assert Join(parts, sep) == [s[0]] + rest[0];
        } else {
          assert Join(rest, sep) == rest[0] + [sep] + Join(rest[1..], sep);
          assert parts[1..] == rest[1..];
        }
      }
    }
  }

  /** A piece free of the separator, followed by the separator, splits off
      as one piece. */
  lemma {:induction false} SplitAfterPiece(w: string, rest: string, sep: char)
    requires sep !in w
    ensures Split(w + [sep] + rest, sep) == [w] + Split(rest, sep)
  {
    if |w| > 0 {
      var s := w + [sep] + rest;
      SplitAfterPiece(w[1..], rest, sep);
      assert s[1..] == w[1..] + [sep] + rest;
      assert s[0] == w[0] && w[0] != sep;
      var tail := Split(s[1..], sep);
      assert tail == [w[1..]] + Split(rest, sep);
      assert Split(s, sep) == [[w[0]] + tail[0]] + tail[1..];
      assert [w[0]] + w[1..] == w;
    } else {
      assert w + [sep] + rest == [sep] + rest;
      assert ([sep] + rest)[1..] == rest;
    }
  }

  /** A string free of the separator splits into itself. */
  lemma {:induction false} SplitNoSeparator(w: string, sep: char)
    requires sep !in w
    ensures Split(w, sep) == [w]
  {
    if |w| > 0 {
      SplitNoSeparator(w[1..], sep);
      assert [w[0]] + w[1..] == w;
    }
  }

  /** Splitting a join of separator-free pieces gives the pieces back. */
  lemma {:induction false} SplitJoin(parts: seq<string>, sep: char)
    requires |parts| >= 1
    requires forall i :: 0 <= i < |parts| ==> sep !in parts[i]
    ensures Split(Join(parts, sep), sep) == parts
  {
    if |parts| == 1 {
      SplitNoSeparator(parts[0], sep);
    } else {
      SplitJoin(parts[1..], sep);
      SplitAfterPiece(parts[0], Join(parts[1..], sep), sep);
      assert parts == [parts[0]] + parts[1..];
    }
  }

  /** Joining one more piece at the end adds a separator and the piece. */
  lemma {:induction false} JoinAppend(parts: seq<string>, w: string, sep: char)
    requires |parts| >= 1
    ensures Join(parts + [w], sep) == Join(parts, sep) + [sep] + w
  {
    if |parts| > 1 {
      JoinAppend(parts[1..], w, sep);
      assert (parts + [w])[1..] == parts[1..] + [w];
    } else {
      assert parts + [w] == [parts[0], w];
      assert [parts[0], w][1..] == [w];
    }
  }

  /** `s.rstrip()`. */
  function RStrip(s: string): (r: string)
    ensures |r| <= |s| && r == s[..|r|]
    ensures |r| == 0 || !IsSpace(r[|r| - 1])
    ensures forall k :: |r| <= k < |s| ==> IsSpace(s[k])
  {
    if |s| > 0 && IsSpace(s[|s| - 1]) then RStrip(s[..|s| - 1]) else s
  }

  /** `s.lstrip()`. */
  function LStrip(s: string): (r: string)
    ensures |r| <= |s| && r == s[|s| - |r|..]
    ensures |r| == 0 || !IsSpace(r[0])
    ensures forall k :: 0 <= k < |s| - |r| ==> IsSpace(s[k])
  {
    if |s| > 0 && IsSpace(s[0]) then LStrip(s[1..]) else s
  }

  /** `s.strip()`. */
  function Strip(s: string): string {
    LStrip(RStrip(s))
  }

  /** A string that neither starts nor ends with white space, followed by one
      space, strips back to itself. */
  lemma StripTrailingSpace(s: string)
    requires |s| > 0 && !IsSpace(s[0]) && !IsSpace(s[|s| - 1])
    ensures Strip(s + " ") == s
  {
    assert (s + " ")[..|s|] == s;
  }

  function UpperChar(c: char): char {
    if 'a' <= c <= 'z' then (c as int - 32) as char else c
  }

  function LowerChar(c: char): char {
    if 'A' <= c <= 'Z' then (c as int + 32) as char else c
  }

  /** `s.upper()` on ASCII letters. */
  function Upper(s: string): (r: string)
    ensures |r| == |s|
    ensures forall k :: 0 <= k < |s| ==> r[k] == UpperChar(s[k])
  {
    seq(|s|, k requires 0 <= k < |s| => UpperChar(s[k]))
  }

  /** `s.lower()` on ASCII letters. */
  function Lower(s: string): (r: string)
    ensures |r| == |s|
    ensures forall k :: 0 <= k < |s| ==> r[k] == LowerChar(s[k])
  {
    seq(|s|, k requires 0 <= k < |s| => LowerChar(s[k]))
  }

  /** Upper-casing undoes lower-casing on strings that have no lower-case
      ASCII letter. */
  lemma UpperLower(s: string)
    requires forall k :: 0 <= k < |s| ==> !('a' <= s[k] <= 'z')
    ensures Upper(Lower(s)) == s
  {
  }
}

=== FILE: surface_mesh.dfy ===
/** The CGAL `Surface_mesh` the C++ backends build from Blender's flat
    arrays, and the flat arrays they write back. */
module SurfaceMeshes {
  import opened Triples

  type Point = (real, real, real)

  /** A face: the three vertex descriptors around it, in order. */
  type Triangle = (nat, nat, nat)

  /** A surface mesh: the location of every vertex by descriptor index, the
      vertices `vertices()` visits (in index order, skipping removed ones),
      and the faces `faces()` visits.  Every face is a triangle: the meshes
      come from triangulated Blender meshes, and edge collapse keeps them
      triangular. */
  datatype SurfaceMesh = SurfaceMesh(points: seq<Point>, live: seq<nat>, faces: seq<Triangle>)

  /** What the C++ constructors require of the arrays they read: whole rows of
      three, and face indices that name a vertex (`vertices_descriptor[i]` is
      unchecked). */
  predicate WellFormedArrays(vertices: seq<real>, faces: seq<int>) {
    && |vertices| % 3 == 0
    && |faces| % 3 == 0
    && forall i :: 0 <= i < |faces| ==> 0 <= faces[i] < |vertices| / 3
  }

  /** The triangles of a flat index array. */
  function Triangles(faces: seq<int>): (r: seq<Triangle>)
    requires forall i :: 0 <= i < |faces| ==> 0 <= faces[i]
    ensures |r| == |faces| / 3
    ensures forall k :: 0 <= k < |r| ==> r[k] == (faces[3 * k] as nat, faces[3 * k + 1] as nat, faces[3 * k + 2] as nat)
  {
    seq(|faces| / 3, k requires 0 <= k < |faces| / 3 => (faces[3 * k] as nat, faces[3 * k + 1] as nat, faces[3 * k + 2] as nat))
  }

  /** `add_face` for each triangle in order; `accepts` stands for CGAL's
      refusal of a face that would make the mesh non-manifold, in which case
      the face is not added. */
  function AddFaces(mesh: SurfaceMesh, tris: seq<Triangle>, accepts: (SurfaceMesh, Triangle) -> bool): (r: SurfaceMesh)
    ensures r.points == mesh.points && r.live == mesh.live
    ensures |mesh.faces| <= |r.faces| <= |mesh.faces| + |tris|
    ensures r.faces[..|mesh.faces|] == mesh.faces
    ensures forall j :: |mesh.faces| <= j < |r.faces| ==> r.faces[j] in tris
    decreases |tris|
  {
    if |tris| == 0 then mesh
    else
      var next := if accepts(mesh, tris[0]) then mesh.(faces := mesh.faces + [tris[0]]) else mesh;
      var r := AddFaces(next, tris[1..], accepts);
      assert r.faces[..|mesh.faces|] == r.faces[..|next.faces|][..|mesh.faces|];
      assert forall t :: t in tris[1..] ==> t in tris;
      r
  }

  /** The constructors' two loops: one vertex per row of coordinates, then
      one face per row of indices. */
  function Build(vertices: seq<real>, faces: seq<int>, accepts: (SurfaceMesh, Triangle) -> bool): (m: SurfaceMesh)
    requires WellFormedArrays(vertices, faces)
    ensures |m.points| == |m.live| == |vertices| / 3
    ensures forall k :: 0 <= k < |m.points| ==> m.points[k] == (vertices[3 * k], vertices[3 * k + 1], vertices[3 * k + 2])
    ensures forall k :: 0 <= k < |m.live| ==> m.live[k] == k
    ensures |m.faces| <= |faces| / 3
    ensures forall j :: 0 <= j < |m.faces| ==> m.faces[j] in Triangles(faces)
  {
    var n := |vertices| / 3;
    var empty := SurfaceMesh(Group3(vertices), seq(n, k requires 0 <= k < n => k), []);
    AddFaces(empty, Triangles(faces), accepts)
  }

  /** When CGAL accepts every face, the mesh has exactly the triangles of the
      index array, in order. */
  lemma {:induction false} AddFacesAll(mesh: SurfaceMesh, tris: seq<Triangle>, accepts: (SurfaceMesh, Triangle) -> bool)
    requires forall m: SurfaceMesh, t: Triangle :: accepts(m, t)
    ensures AddFaces(mesh, tris, accepts).faces == mesh.faces + tris
    decreases |tris|
  {
    if |tris| > 0 {
      var next := mesh.(faces := mesh.faces + [tris[0]]);
      assert accepts(mesh, tris[0]);
      AddFacesAll(next, tris[1..], accepts);
      assert AddFaces(mesh, tris, accepts) == AddFaces(next, tris[1..], accepts);
      AppendHead(mesh.faces, tris);
    }
  }

  /** Moving the head of `b` to the end of `a` keeps the concatenation. */
  lemma AppendHead<T>(a: seq<T>, b: seq<T>)
    requires |b| > 0
    ensures (a + [b[0]]) + b[1..] == a + b
  {
    assert b == [b[0]] + b[1..];
  }

  /** The coordinates of the visited vertices, three per vertex, in visiting
      order (`update_vertex_coordinates`, and the replace branch of the
      segmentation). */
  function FlatPoints(mesh: SurfaceMesh): (r: seq<real>)
    requires forall k :: 0 <= k < |mesh.live| ==> mesh.live[k] < |mesh.points|
    ensures |r| == 3 * |mesh.live|
    ensures forall k :: 0 <= k < |mesh.live| ==>
              (r[3 * k], r[3 * k + 1], r[3 * k + 2]) == mesh.points[mesh.live[k]]
  {
    Flatten3(seq(|mesh.live|, k requires 0 <= k < |mesh.live| => mesh.points[mesh.live[k]]))
  }

  /** Row `k` of the flat coordinates is the point of the `k`-th visited vertex. */
  lemma FlatPointsAt(mesh: SurfaceMesh, k: nat)
    requires forall i :: 0 <= i < |mesh.live| ==> mesh.live[i] < |mesh.points|
    requires k < |mesh.live|
    ensures 3 * k + 2 < |FlatPoints(mesh)|
    ensures (FlatPoints(mesh)[3 * k], FlatPoints(mesh)[3 * k + 1], FlatPoints(mesh)[3 * k + 2]) == mesh.points[mesh.live[k]]
  {
  }

  /** The vertices around each visited face, one face after the other, each
      vertex numbered by `number`. */
  function FlatFaces(faces: seq<Triangle>, number: nat -> int): (r: seq<int>)
    ensures |r| == 3 * |faces|
    ensures forall j :: 0 <= j < |faces| ==>
              r[3 * j] == number(faces[j].0) && r[3 * j + 1] == number(faces[j].1) && r[3 * j + 2] == number(faces[j].2)
  {
    Flatten3(seq(|faces|, j requires 0 <= j < |faces| => (number(faces[j].0), number(faces[j].1), number(faces[j].2))))
  }
}

=== FILE: test_cpp.dfy ===
/** `TestCpp`: the pure C++ test algorithm.  It reads one option and
    returns either a fixed message or a fixed tetrahedron. */
module TestAlgorithm {
  import opened Wrappers
  import opened Values
  import opened Payloads
  import opened Triples
  import opened SurfaceMeshes
  import opened Blender
  import opened OutputHandlers

  /** The constructed algorithm: its output option. */
  datatype TestCpp = TestCpp(outputOption: string)

  /** `data["options"]["output_option"].cast<std::string>()`: a missing key
      raises KeyError, subscripting a non-dict TypeError, and a value that
      is not a string fails the cast. */
  function New(data: Payload): (r: Outcome<TestCpp>)
    ensures data.options.None? ==> r == Err(KeyError(Str("options")))
    ensures data.options.Some? && !data.options.value.Dict? ==> r == Err(TypeError)
    ensures data.options.Some? && data.options.value.Dict? && Dicts.Lookup(data.options.value.entries, "output_option").None? ==>
              r == Err(KeyError(Str("output_option")))
    ensures (data.options.Some? && Subscript(data.options.value, "output_option").Ok? &&
             !Subscript(data.options.value, "output_option").value.Str?) ==> r == Err(CastError)
    ensures r.Ok? <==> data.options.Some? && Subscript(data.options.value, "output_option").Ok? &&
                       Subscript(data.options.value, "output_option").value.Str?
    ensures r.Ok? ==> Subscript(data.options.value, "output_option") == Ok(Str(r.value.outputOption))
  {
    var options :- Need(data.options, "options");
    var option :- Subscript(options, "output_option");
    if option.Str? then Ok(TestCpp(option.s)) else Err(CastError)
  }

  const DisplayText: string := "DISPLAY_TEXT"

  const Message: string := "Ceci est un message provenant d'un algorithme C++ pur."

  /** The four corners: a triangle in the plane z = 0 and an apex above it. */
  const TetrahedronVertices: seq<real> := [0.0, 0.0, 0.0, 1.0, 0.0, 0.0, 0.5, 1.0, 0.0, 0.5, 0.5, 1.0]

  /** The four faces, three corner numbers each. */
  const TetrahedronFaces: seq<int> := [0, 1, 2, 3, 1, 2, 3, 0, 2, 0, 1, 3]

  /** `compute_algorithm`: the message for "DISPLAY_TEXT", the tetrahedron
      for any other option.  Both tag the result with a bare string. */
  function Compute(t: TestCpp): (out: Output)
    ensures out.colors.None?
    ensures t.outputOption == DisplayText <==> out.resultInfos.Some?
    ensures t.outputOption == DisplayText <==> out.vertices.None? && out.faces.None?
    ensures t.outputOption == DisplayText ==> out.resultInfos == Some(Str(Message)) && out.outputResult == Some(Str("message"))
    ensures t.outputOption != DisplayText ==>
              && out.outputResult == Some(Str("add_mesh"))
              && out.vertices.Some? && out.faces.Some?
              && WellFormedArrays(out.vertices.value, out.faces.value)
              && |out.vertices.value| == 12 && |out.faces.value| == 12
  {
    if t.outputOption == DisplayText then
      Output(Some(Str("message")), Some(Str(Message)), None, None, None)
    else
      Output(Some(Str("add_mesh")), None, Some(TetrahedronVertices), Some(TetrahedronFaces), None)
  }

  /** The triangles of the tetrahedron. */
  function Tetrahedron(): (tris: seq<Triangle>)
    ensures |tris| == 4
    ensures forall j :: 0 <= j < 4 ==> tris[j].0 < 4 && tris[j].1 < 4 && tris[j].2 < 4
  {
    Triangles(TetrahedronFaces)
  }

  /** Whether a triangle has `v` among its corners. */
  predicate HasCorner(t: Triangle, v: nat) {
    t.0 == v || t.1 == v || t.2 == v
  }

  /** The number of triangles that have both `a` and `b` as corners. */
  function EdgeUses(tris: seq<Triangle>, a: nat, b: nat): (n: nat)
    ensures n <= |tris|
    ensures n == 0 <==> forall j :: 0 <= j < |tris| ==> !(HasCorner(tris[j], a) && HasCorner(tris[j], b))
  {
    if |tris| == 0 then 0
    else
      assert forall j :: 1 <= j < |tris| ==> tris[j] == tris[1..][j - 1];
      (if HasCorner(tris[0], a) && HasCorner(tris[0], b) then 1 else 0) + EdgeUses(tris[1..], a, b)
  }

  /** The tetrahedron is a closed surface: its four corners are distinct
      points, every triangle has three distinct corners, and each of the
      six edges between corners borders exactly two triangles. */
  lemma TetrahedronClosed()
    ensures var ps := Group3(TetrahedronVertices);
            |ps| == 4 && forall a, b :: 0 <= a < b < 4 ==> ps[a] != ps[b]
    ensures forall j :: 0 <= j < 4 ==>
              Tetrahedron()[j].0 != Tetrahedron()[j].1 && Tetrahedron()[j].1 != Tetrahedron()[j].2
              && Tetrahedron()[j].0 != Tetrahedron()[j].2
    ensures forall a: nat, b: nat :: a < b < 4 ==> EdgeUses(Tetrahedron(), a, b) == 2
  {
    var ps := Group3(TetrahedronVertices);
    assert ps == [(0.0, 0.0, 0.0), (1.0, 0.0, 0.0), (0.5, 1.0, 0.0), (0.5, 0.5, 1.0)];
    TetrahedronIs();
    forall a: nat, b: nat | a < b < 4
      ensures EdgeUses(Tetrahedron(), a, b) == 2
    {
      EdgeUsesOfTetrahedron(a, b);
    }
  }

  /** The tetrahedron's triangles, corner by corner. */
  lemma TetrahedronIs()
    ensures Tetrahedron() == [(0, 1, 2), (3, 1, 2), (3, 0, 2), (0, 1, 3)]
  {
  }

  /** Each edge of the tetrahedron borders two of its triangles. */
  lemma EdgeUsesOfTetrahedron(a: nat, b: nat)
    requires a < b < 4
    ensures EdgeUses(Tetrahedron(), a, b) == 2
  {
    TetrahedronIs();
    var tris := Tetrahedron();
    var t1, t2, t3 := tris[1..], tris[2..], tris[3..];
    assert t1[1..] == t2 && t2[1..] == t3 && t3[1..] == [];
    var u0 := if HasCorner(tris[0], a) && HasCorner(tris[0], b) then 1 else 0;
    var u1 := if HasCorner(tris[1], a) && HasCorner(tris[1], b) then 1 else 0;
    var u2 := if HasCorner(tris[2], a) && HasCorner(tris[2], b) then 1 else 0;
    var u3 := if HasCorner(tris[3], a) && HasCorner(tris[3], b) then 1 else 0;
    assert EdgeUses(t3, a, b) == u3;
    assert EdgeUses(t2, a, b) == u2 + u3;
    assert EdgeUses(t1, a, b) == u1 + u2 + u3;
    assert EdgeUses(tris, a, b) == u0 + u1 + u2 + u3;
  }

  /** The triangles are not consistently oriented: the first two both run
      along the edge from corner 1 to corner 2 in the same direction, so
      their normals point to opposite sides of the surface. */
  lemma TetrahedronMixedOrientation()
    ensures Tetrahedron()[0].1 == Tetrahedron()[1].1 == 1
    ensures Tetrahedron()[0].2 == Tetrahedron()[1].2 == 2
  {
    assert Tetrahedron() == [(0, 1, 2), (3, 1, 2), (3, 0, 2), (0, 1, 3)];
  }

  /** The tags are bare strings, so the add-on's output loop stops on their
      first character: the message is never displayed and the tetrahedron
      never added. */
  lemma BareTagsFail(t: TestCpp, scene: Scene)
    requires scene.active.Some?
    ensures t.outputOption == DisplayText ==> Dispatch(Compute(t), scene) == Run(scene, Some(KeyError(Str("m"))))
    ensures t.outputOption != DisplayText ==> Dispatch(Compute(t), scene) == Run(scene, Some(KeyError(Str("a"))))
  {
    if t.outputOption == DisplayText {
      BareStringFails("message", Compute(t), scene);
    } else {
      BareStringFails("add_mesh", Compute(t), scene);
    }
  }
}

=== FILE: triples.dfy ===
/** Flat coordinate and index arrays, as exchanged between Blender, numpy,
    pymeshlab and CGAL: element `k` of a mesh (a vertex, a triangle) occupies
    positions `3k`, `3k+1`, `3k+2` of the flat array. */
module Triples {

  /** Row `k` of a flat array reshaped to rows of three (`np.reshape(a, (n // 3, 3))`,
      or the `i += 3` loops of the C++ constructors). */
  function Group3<T>(s: seq<T>): (r: seq<(T, T, T)>)
    ensures |r| == |s| / 3
    ensures forall k :: 0 <= k < |r| ==> 3 * k + 2 < |s| && r[k] == (s[3 * k], s[3 * k + 1], s[3 * k + 2])
  {
    seq(|s| / 3, k requires 0 <= k < |s| / 3 => (s[3 * k], s[3 * k + 1], s[3 * k + 2]))
  }

  /** Rows of three written one after the other. */
  function Flatten3<T>(t: seq<(T, T, T)>): (r: seq<T>)
    ensures |r| == 3 * |t|
    ensures forall k :: 0 <= k < |t| ==> r[3 * k] == t[k].0 && r[3 * k + 1] == t[k].1 && r[3 * k + 2] == t[k].2
  {
    if |t| == 0 then []
    else
      var last := t[|t| - 1];
      var init := Flatten3(t[..|t| - 1]);
      assert forall k :: 0 <= k < |t| - 1 ==> t[..|t| - 1][k] == t[k];
      init + [last.0, last.1, last.2]
  }

  /** Reshaping a flattened array gives the rows back. */
  lemma Group3Flatten3<T>(t: seq<(T, T, T)>)
    ensures Group3(Flatten3(t)) == t
  {
  }

  /** Flattening a reshaped array gives it back when its length is a multiple
      of three. */
  lemma Flatten3Group3<T>(s: seq<T>)
    requires |s| % 3 == 0
    ensures Flatten3(Group3(s)) == s
  {
    var f := Flatten3(Group3(s));
    assert |f| == |s|;
    forall i | 0 <= i < |s| ensures f[i] == s[i] {
      var k := i / 3;
      assert i == 3 * k || i == 3 * k + 1 || i == 3 * k + 2;
    }
  }

  /** Every element of a flattened array is a component of some row. */
  lemma Flatten3Element<T>(t: seq<(T, T, T)>, i: nat)
    requires i < |Flatten3(t)|
    ensures var k := i / 3;
            k < |t| && Flatten3(t)[i] in {t[k].0, t[k].1, t[k].2}
  {
    var k := i / 3;
    assert i == 3 * k || i == 3 * k + 1 || i == 3 * k + 2;
  }
}

=== FILE: values.dfy ===
/** The dynamic values that flow through the add-on: JSON values read from the
    catalogue, Blender property values, the entries of the `data` dictionary
    handed to a backend, and the exceptions the source raises. */
module Values {
  import opened Wrappers
  import opened Dicts

  /** A Python value.  `Vector` is the value of a FloatVectorProperty:
      `wrapped` when Blender hands it back as a mathutils Color or Vector,
      otherwise a plain `bpy_prop_array` (or an Euler, Quaternion or Matrix,
      none of which is a Color or Vector); `Converted` is a pymeshlab value object
      (PercentageValue, PureValue, Color) or a numpy float array, built from
      `source` by the converter named `kind`. */
  datatype Value =
    | Nothing
    | Bool(b: bool)
    | Int(i: int)
    | Float(r: real)
    | Str(s: string)
    | List(items: seq<Value>)
    | Tuple(elems: seq<Value>)
    | Vector(components: seq<real>, wrapped: bool)
    | Dict(entries: Dict<string, Value>)
    | Converted(kind: string, source: Value)

  /** Why a `RuntimeError` was raised. */
  datatype Reason =
    | NoActiveMesh
    | MissingAlgorithms(library: string)
    | MissingVertices
    | MissingFaces
    | MissingFunction
    | MeshCreationFailed
    | ColorAssignmentFailed
    | MissingAlgorithmField
    | NotJson
    | ArraySizeMismatch
    | UnknownOutput

  /** The exceptions the source raises (Python) or throws (C++ through pybind11). */
  datatype Error =
    | KeyError(key: Value)
    | IndexError
    | TypeError
    | ValueError
    | AttributeError(name: string)
    | UnboundLocalError(variable: string)
    | RuntimeError(reason: Reason)
    | BadFunctionCall
    | CastError

  type Outcome<T> = Result<T, Error>

  /** Python `v == n` for an integer literal `n`: ints, floats and booleans
      compare by numeric value. */
  predicate PyEqInt(v: Value, n: int) {
    match v
    case Int(i) => i == n
    case Float(r) => r == n as real
    case Bool(b) => (if b then 1 else 0) == n
    case _ => false
  }

  /** Python truthiness: `if v:`. */
  predicate PyTruthy(v: Value) {
    match v
    case Nothing => false
    case Bool(b) => b
    case Int(i) => i != 0
    case Float(r) => r != 0.0
    case Str(s) => |s| > 0
    case List(xs) => |xs| > 0
    case Tuple(xs) => |xs| > 0
    case Vector(cs, _) => |cs| > 0
    case Dict(d) => |d| > 0
    case Converted(_, _) => true
  }

  /** The integer a value denotes where Python accepts an int (a `range`
      bound, a list index): ints and booleans only. */
  function AsInt(v: Value): (r: Outcome<int>)
    ensures v.Int? ==> r == Ok(v.i)
    ensures r.Ok? ==> v.Int? || v.Bool?
  {
    match v
    case Int(i) => Ok(i)
    case Bool(b) => Ok(if b then 1 else 0)
    case _ => Err(TypeError)
  }

  /** The position a Python index `i` designates in a list of length `n`:
      negative indices count from the end. */
  function PyIndex(n: nat, i: int): (r: Option<nat>)
    ensures r.Some? <==> 0 <= i + n && i < n
    ensures r.Some? ==> r.value < n
    ensures r.Some? && 0 <= i ==> r.value == i
    ensures r.Some? && i < 0 ==> r.value == n + i
  {
    if 0 <= i < n then Some(i)
    else if 0 <= i + n && i < 0 then Some(n + i)
    else None
  }

  /** Integer part toward zero, as Python's `int(x)` on a float. */
  function Truncate(r: real): (t: int)
    ensures 0.0 <= r ==> t as real <= r < t as real + 1.0
    ensures r < 0.0 ==> t as real - 1.0 < r <= t as real
  {
    if 0.0 <= r then r.Floor else -((-r).Floor)
  }

  /** pybind11's `py::int_(x)`. */
  function PyIntOf(v: Value): Outcome<int> {
    match v
    case Int(i) => Ok(i)
    case Bool(b) => Ok(if b then 1 else 0)
    case Float(r) => Ok(Truncate(r))
    case _ => Err(TypeError)
  }

  /** A number as a real: pybind11's `cast<double>()`, Blender's `setattr`
      on a float property, and pybind11's `py::float_(x)` on a number (on a
      string `py::float_` parses the text, which is not modelled). */
  function PyFloatOf(v: Value): Outcome<real> {
    match v
    case Int(i) => Ok(i as real)
    case Bool(b) => Ok(if b then 1.0 else 0.0)
    case Float(r) => Ok(r)
    case _ => Err(TypeError)
  }

  /** What a Python `for` loop visits: list and tuple items, the one-character
      strings of a string, the keys of a dict, the components of a vector. */
  function Iterate(v: Value): (r: Outcome<seq<Value>>)
    ensures v.List? ==> r == Ok(v.items)
    ensures v.Str? ==> r.Ok? && |r.value| == |v.s|
                       && forall k :: 0 <= k < |v.s| ==> r.value[k] == Str([v.s[k]])
  {
    match v
    case List(xs) => Ok(xs)
    case Tuple(xs) => Ok(xs)
    case Str(s) => Ok(seq(|s|, k requires 0 <= k < |s| => Str([s[k]])))
    case Dict(d) => Ok(seq(|d|, k requires 0 <= k < |d| => Str(d[k].0)))
    case Vector(cs, _) => Ok(seq(|cs|, k requires 0 <= k < |cs| => Float(cs[k])))
    case _ => Err(TypeError)
  }

  /** `d[key]` on a Python dict, or `data["key"]` on a pybind11 dict, where
      the key may be missing: KeyError. */
  function Need<T>(o: Option<T>, key: string): (r: Outcome<T>)
    ensures o.Some? ==> r == Ok(o.value)
    ensures o.None? ==> r == Err(KeyError(Str(key)))
  {
    match o
    case Some(v) => Ok(v)
    case None => Err(KeyError(Str(key)))
  }

  /** `d[key]` on a value that should be a dict. */
  function Subscript(d: Value, key: string): Outcome<Value> {
    match d
    case Dict(entries) =>
      (match Lookup(entries, key)
       case Some(v) => Ok(v)
       case None => Err(KeyError(Str(key))))
    case _ => Err(TypeError)
  }
}

=== FILE: wrappers.dfy ===
/** Failure-compatible wrappers used throughout the model: an optional value
    (a Python `dict.get` that may find nothing) and a result that is either a
    value or the exception the source would raise. */
module Wrappers {

  datatype Option<+T> = None | Some(value: T) {

    /** The value, or `default` when there is none (Python's `d.get(k, default)`). */
    function GetOr(default: T): T {
      match this
      case Some(v) => v
      case None => default
    }
  }

  datatype Result<+T, +E> = Ok(value: T) | Err(error: E) {

    predicate IsFailure() {
      Err?
    }

    function PropagateFailure<U>(): Result<U, E>
      requires Err?
    {
      Err(error)
    }

    function Extract(): T
      requires Ok?
    {
      value
    }
  }

  /** `f` applied to each element in order, stopping at the first failure
      (a Python loop that raises on a bad element). */
  function MapAll<A, B, E>(xs: seq<A>, f: A -> Result<B, E>): (r: Result<seq<B>, E>)
    ensures r.Ok? <==> forall i :: 0 <= i < |xs| ==> f(xs[i]).Ok?
    ensures r.Ok? ==> |r.value| == |xs| && forall i :: 0 <= i < |xs| ==> f(xs[i]) == Ok(r.value[i])
  {
    if |xs| == 0 then Ok([])
    else
      var y :- f(xs[0]);
      var rest :- MapAll(xs[1..], f);
      assert forall i :: 1 <= i < |xs| ==> xs[i] == xs[1..][i - 1];
      Ok([y] + rest)
  }

  /** A failed `MapAll` reports the error of its first failing element. */
  lemma {:induction false} MapAllFirstFailure<A, B, E>(xs: seq<A>, f: A -> Result<B, E>) returns (i: nat)
    requires MapAll(xs, f).Err?
    ensures i < |xs| && f(xs[i]).Err?
    ensures forall j :: 0 <= j < i ==> f(xs[j]).Ok?
    ensures MapAll(xs, f).error == f(xs[i]).error
  {
    if f(xs[0]).Err? {
      i := 0;
    } else {
      var k := MapAllFirstFailure(xs[1..], f);
      i := k + 1;
      assert xs[1..][k] == xs[i];
      forall j | 0 < j < i ensures f(xs[j]).Ok? {
        assert xs[1..][j - 1] == xs[j];
      }
    }
  }
}
